=== FILE: README.md ===
# AutoGen ↔ Claude Code integration, modelled in Dafny

The integration connects Microsoft AutoGen agents to Claude via a local OpenAI-compatible
wrapper service. This project models the integration's scripts as pure functions over
immutable data and proves properties about them. The modelled parts are:

- the shared helpers: token-usage tracking, the retry-with-backoff decorator, conversation
  formatting, code-block extraction and response validation;
- the two tools of the single-agent example: the restricted calculator and the word counter;
- the model-client factory, with its retry wrapper and health gate;
- the AWS Lambda entry point: client configuration, one-agent runs, the research pipeline
  and the HTTP-style response;
- the Studio registration script: find-or-create for the model, the agents and the team;
- the automated Studio sync: the change-detection cache, the config scan, the agent
  payloads and the batch sync;
- the sync dashboard's rules: the bounded histories, the alerts, the status indicator and
  the uptime clock;
- the performance monitor's summary, and the benchmark records, statistics and
  recommendations.

Everything outside the process is abstract:

- HTTP endpoints are statuses, or stores of records.
- An agent's model call is a function parameter (`respond`).
- AWS services are functions.
- Clocks and resource readings are inputs.
- Float-to-text formatting is a parameter.

Python's ints are Dafny's unbounded ints, with CPython's 4300-digit limit on converting
an int to text. Python floats are modelled as exact reals: no rounding, no infinities and
no `OverflowError` (see "## Left out").

The modules are:

- `Wrappers`, `Json`, `Text`, `Numeric`: Python values and shared helpers;
- `TokenUsage`, `Retry`, `Conversation`, `CodeBlocks`, `ResponseCheck`: autogen/utils/helpers.py;
- `Calculator`: the tools of autogen/examples/single_agent_example.py;
- `ModelConfig`: autogen/config.py;
- `Lambda`: autogen/aws_deployment/lambda_autogen.py;
- `Registration`: autogen/studio/register_agents_in_studio.py;
- `SyncCache`, `StudioSync`, `PerfMonitor`: autogen/studio/auto_sync_to_studio.py;
- `Dashboard`: autogen/studio/sync_monitor_dashboard.py;
- `Benchmark`: autogen/studio/performance_benchmark.py.

## Model

| member | source | states |
|---|---|---|
| TokenUsage.NewTracker | autogen/utils/helpers.py:17-20 | a fresh tracker has zero totals and an empty history, and is consistent |
| TokenUsage.AddUsage | autogen/utils/helpers.py:22-34 | both totals rise by exactly the given counts; one record is appended, holding the counts, their sum and the metadata (an empty dict when none is given); earlier records are kept; consistency of totals with history is preserved |
| TokenUsage.GetSummary | autogen/utils/helpers.py:36-45 | the summary reports the running totals, their sum, the number of completions, and an average that multiplied by the count gives the total (0 with no completions) |
| TokenUsage.Reset | autogen/utils/helpers.py:47-51 | after a reset the tracker equals a fresh one and its summary is all zeros |
| TokenUsage.SummaryAgreesWithHistory | autogen/utils/helpers.py:22-45 | for a consistent tracker, the summary's total equals the sum of the per-record totals |
| TokenUsage.AddAllKeepsConsistent | autogen/utils/helpers.py:22-34 | any sequence of `add_usage` calls keeps the tracker consistent and adds one record per call |
| Retry.RetryCall | autogen/utils/helpers.py:54-80 | at most `max_attempts` calls; every call before the last raised an `Exception`; the first success is returned at once; a `BaseException` outside `Exception` goes through at once with no further attempt; any other failure re-raises the last error after all attempts; zero attempts raise `None`; one wait follows each failure except the last, the k-th being `delay * backoff ** k` |
| Retry.TotalWaitGeometric | autogen/utils/helpers.py:72-75 | the waits form a geometric series, totalling `delay * (backoff ** n - 1) / (backoff - 1)` |
| Retry.SleepsTotal | autogen/utils/helpers.py:72-75 | the waits a run records add up to that geometric total |
| Conversation.Truncate | autogen/utils/helpers.py:99-101 | content within the limit is kept; longer content becomes its `[:max_length]` prefix followed by the truncation marker |
| Conversation.EntryShape | autogen/utils/helpers.py:96-103 | an entry reads back as the upper-cased role (ASCII case mapping), ": ", then the possibly truncated content |
| Conversation.EntryDefaults | autogen/utils/helpers.py:96-97 | a message without a role shows "UNKNOWN: "; one without content shows an empty content |
| Conversation.FormatHistory | autogen/utils/helpers.py:83-105 | the history is empty exactly when there are no messages, and otherwise opens with the first message's entry |
| Conversation.EntryAppearsInOrder | autogen/utils/helpers.py:94-105 | each message's entry appears verbatim in the history, at the offset where the earlier entries and separators end |
| Conversation.BlankLineAfterEntry | autogen/utils/helpers.py:105 | consecutive entries are separated by a blank line |
| Conversation.FormattedLength | autogen/utils/helpers.py:105 | the history's length is the entries' lengths plus two characters per gap |
| Conversation.ShortHistories | autogen/utils/helpers.py:105 | no messages give the empty string; one message gives exactly its entry |
| CodeBlocks.FindFence | autogen/utils/helpers.py:121-122 | the result is the first fence at or after the start index, and there is none when nothing is found |
| CodeBlocks.MatchAtSound | autogen/utils/helpers.py:121-122 | every match found satisfies the pattern: fence, a word-character tag, a newline, a body with no fence inside, then a closing fence |
| CodeBlocks.MatchAtComplete | autogen/utils/helpers.py:121-122 | any text satisfying the pattern with an ASCII word-character tag is matched with exactly those groups (the lazy body stops at the first fence) |
| CodeBlocks.Extract | autogen/utils/helpers.py:108-131 | every extracted block has a non-empty language ("text" for an empty tag) and stripped code |
| CodeBlocks.ExtractStep | autogen/utils/helpers.py:122-129 | a match at the scan position gives its block, and the scan resumes after the match |
| CodeBlocks.NoFenceNoBlocks | autogen/utils/helpers.py:121-131 | text without a fence has no blocks |
| CodeBlocks.ExtractPiece | autogen/utils/helpers.py:108-131 | a well-formed rendered block followed by any text is read back as that block, then the text's blocks |
| CodeBlocks.ExtractRender | autogen/utils/helpers.py:108-131 | round trip: extracting from the rendering of well-formed blocks gives those blocks back |
| Text.Strip | autogen/utils/helpers.py:128 | the result is a slice of the input with only whitespace around it, and it neither starts nor ends with whitespace |
| Text.StripIdempotent | autogen/utils/helpers.py:128 | stripping twice equals stripping once |
| ResponseCheck.ValidateModelResponse | autogen/utils/helpers.py:163-192 | a missing `choices` or `usage` makes the response invalid; a valid response has both, and a non-empty list of choices; the only exception raised is the `TypeError` of `in` on a scalar first choice |
| ResponseCheck.ValidateDictChoices | autogen/utils/helpers.py:181-192 | when the first choice is a dict, the verdict is exactly the OpenAI response shape, and the check never raises |
| ResponseCheck.ValidateIgnoresOtherFields | autogen/utils/helpers.py:173-179 | fields other than `choices` and `usage` never change the verdict |
| ResponseCheck.ValidateRaisesOnScalarChoice | autogen/utils/helpers.py:186-188 | a first choice that is a number, a boolean or `None` makes the check raise |
| Calculator.Arith | autogen/examples/single_agent_example.py:174 | `+`, `-` and `*` give an int exactly when both operands are ints |
| Calculator.TrueDiv | autogen/examples/single_agent_example.py:175 | division succeeds exactly when the divisor is non-zero, and then gives a float that times the divisor is the dividend |
| Calculator.PowValue | autogen/examples/single_agent_example.py:175 | an int base to a non-negative int exponent gives exactly that int power; every other success is a float, so an int result needs int operands; only a fractional exponent falls outside the model |
| Calculator.Neg | autogen/examples/single_agent_example.py:175 | negation negates the value and keeps it an int or a float |
| Calculator.ApplyBinAgrees | autogen/examples/single_agent_example.py:173-176 | each supported operator succeeds exactly when its real-number counterpart is defined, and agrees with it |
| Calculator.Eval | autogen/examples/single_agent_example.py:173-186 | a tree of number literals, the five table operators and unary minus fails only on a zero divisor or a fractional power; any other node anywhere in the tree makes the evaluation fail |
| Calculator.EvalAgreesWithDenote | autogen/examples/single_agent_example.py:178-186 | evaluation succeeds exactly when an independent real-number semantics is defined, and gives the same value |
| Calculator.IntegersStayIntegers | autogen/examples/single_agent_example.py:178-186 | an expression with no float literal, no division and no power other than one with a non-negative int literal exponent evaluates to an int |
| Calculator.UnsupportedOperatorFirst | autogen/examples/single_agent_example.py:182 | an operator outside the table raises `KeyError` whatever its operands hold |
| Calculator.Show | autogen/examples/single_agent_example.py:189 | the f-string's `str(result)` fails exactly for an int of more than 4300 digits |
| Calculator.TooManyDigitsMagnitude | autogen/examples/single_agent_example.py:189 | an int has more than 4300 digits exactly when its magnitude is at least `10 ** 4300` |
| Calculator.NumeralLength | autogen/examples/single_agent_example.py:189 | a numeral is longer than d digits exactly when its value is at least `10 ** d` |
| Calculator.Calculate | autogen/examples/single_agent_example.py:165-191 | a successful evaluation that prints is reported as "The result of … is …"; an int too long to print gives "Error calculating …:" with the conversion's `ValueError` text; every syntax or evaluation error gives "Error calculating …: …" |
| Calculator.CalculateReportsInteger | autogen/examples/single_agent_example.py:188-189 | an int result within the digit limit is printed in decimal and reads back as the value computed |
| Calculator.WordCount | autogen/examples/single_agent_example.py:198-202 | the word count equals an independent count of places where a whitespace-free run starts; the character count is the text's length |
| Text.WordsCountsRunStarts | autogen/examples/single_agent_example.py:200 | `str.split()` yields as many words as there are starts of whitespace-free runs |
| ModelConfig.GetModelClient | autogen/config.py:43-78 | the client has the caller's model, temperature and retry policy, with the fixed key, endpoint and Claude capabilities |
| ModelConfig.DefaultClient | autogen/config.py:43-49 | the defaults are the Opus model, temperature 0.7, three retries and a one-second initial delay |
| ModelConfig.CreateWithRetry | autogen/config.py:80-101 | the wrapped `create` follows the retry policy with the client's attempt count and delay: only `Exception`s are retried, a `BaseException` outside it goes through at once, the last error is re-raised after all attempts, and each wait is `retry_delay * 2 ** k` |
| ModelConfig.WaitsDouble | autogen/config.py:91-92 | each wait is twice the one before |
| ModelConfig.DefaultPolicyWaits | autogen/config.py:43-98 | with the defaults, a failing call is tried three times, after waits of one and two seconds |
| ModelConfig.HealthCheck | autogen/config.py:24-41 | healthy exactly when the probe answered 200 |
| ModelConfig.EnsureHealth | autogen/config.py:113-120 | raises the fixed "not accessible" advice exactly when the health check fails |
| Lambda.WrapperUrl | autogen/aws_deployment/lambda_autogen.py:52 | a non-empty environment variable wins; otherwise the parameter store's answer, or its exception |
| Lambda.AuthToken | autogen/aws_deployment/lambda_autogen.py:55-57 | the secret's exception propagates; a secret that is not an object raises; otherwise the token is its `token` field, or `None` |
| Lambda.GetModelClient | autogen/aws_deployment/lambda_autogen.py:49-75 | the URL's exception comes first, then the secret's; with both read, a client exists exactly when the URL is non-empty and the token truthy, and otherwise "Missing required configuration"; the client's endpoint is the URL plus "/v1", its key the token, and the model, temperature and capabilities are fixed |
| Lambda.EnvironmentUrlSkipsParameterStore | autogen/aws_deployment/lambda_autogen.py:52 | with the URL in the environment, the parameter store's contents do not matter |
| Lambda.AgentFor | autogen/aws_deployment/lambda_autogen.py:83-102 | each of the four types selects its agent; any other hashable type gets the assistant; an unhashable type raises |
| Lambda.AgentNamesDistinct | autogen/aws_deployment/lambda_autogen.py:83-100 | the four agent types have distinct agent names |
| Lambda.UsageCounts | autogen/aws_deployment/lambda_autogen.py:119-122 | with no usage both counts are 0; a dict usage gives its counts with 0 as default; any other usage raises |
| Lambda.AgentReport | autogen/aws_deployment/lambda_autogen.py:112-130 | success exactly when the call returned and its usage could be read; the success dict holds the reply and the two counts; a failure names the agent and the error |
| Lambda.RunSingleAgent | autogen/aws_deployment/lambda_autogen.py:78-130 | client errors and unhashable agent types escape as exceptions; otherwise the result is the report of the chosen agent's reply to the task |
| Lambda.RunFrom | autogen/aws_deployment/lambda_autogen.py:157-175 | a completed run has one output per stage; a failed run stops at the first stage that raised and keeps the outputs before it; every output is its stage's reply to the previous output's handoff |
| Lambda.RanUnique | autogen/aws_deployment/lambda_autogen.py:157-168 | two runs that succeed through the same stages recorded the same outputs |
| Lambda.PipelineOutcome | autogen/aws_deployment/lambda_autogen.py:169-182 | success exactly for a completed run; a completed run reports the pipeline, every result and the last output; a failed run names the failing agent and keeps the partial results |
| Lambda.RunMultiAgentPipeline | autogen/aws_deployment/lambda_autogen.py:133-188 | client errors escape; any pipeline other than "research" is reported as unknown; "research" runs the three agents in order |
| Lambda.ResearchStages | autogen/aws_deployment/lambda_autogen.py:137-168 | in a completed research run, the researcher answered the task and the analyst and the summarizer each answered the handoff of the previous output |
| Lambda.ResearchPipelineSucceeds | autogen/aws_deployment/lambda_autogen.py:157-182 | the research pipeline reports success exactly when all three stages answered, with three results and the summarizer's output as the final output |
| Lambda.ResearchPipelineFails | autogen/aws_deployment/lambda_autogen.py:169-175 | a failed stage is named in the error, and only the results of the stages before it are kept |
| Lambda.LambdaHandler | autogen/aws_deployment/lambda_autogen.py:191-242 | the status is 200, 400 or 500; a missing or empty task gives 400 before anything else; an unknown action gives 400; a known action gives 200 with the workflow's dict exactly when the workflow returns, and otherwise 500 with the exception's text |
| Lambda.MissingTokenIsInternalError | autogen/aws_deployment/lambda_autogen.py:56-60 | a secret without a token makes every workflow an internal error naming the missing configuration |
| Registration.Find | autogen/studio/register_agents_in_studio.py:29-34 | nothing is found exactly when every listed record is a dict whose field differs from the wanted value |
| Registration.FindFirst | autogen/studio/register_agents_in_studio.py:29-34 | the first matching record's id is returned |
| Registration.FindOrCreate | autogen/studio/register_agents_in_studio.py:27-44 | with a listing, an existing record's id is returned and nothing is posted; otherwise an accepted post stores the payload under a fresh id and returns it, and a refused post returns `None`; the store only ever grows |
| Registration.FindAfterMisses | autogen/studio/register_agents_in_studio.py:29-37 | a record appended after a listing with no match is the first match of the new listing |
| Registration.RegisterTwice | autogen/studio/register_agents_in_studio.py:27-44 | idempotence: a second find-or-create returns the same id and leaves the store unchanged |
| Registration.NoListingDuplicates | autogen/studio/register_agents_in_studio.py:28-41 | without a working listing, registering twice stores the payload twice under different ids |
| Registration.RegisterModel | autogen/studio/register_agents_in_studio.py:17-44 | the model is found or created by its `model` string, and an existing one is reused without posting |
| Registration.AgentPayload | autogen/studio/register_agents_in_studio.py:48-58 | a missing `name`, `description` or `system_message` raises `KeyError`, in that order; the payload copies those three fields, the model id and the assistant type; temperature and max tokens come from `model_client`, defaulting to 0.5 and 4096 |
| Registration.FindFound | autogen/studio/register_agents_in_studio.py:29-34 | a found id is the id of a listed record whose field has the wanted value |
| Registration.FindOrCreateLists | autogen/studio/register_agents_in_studio.py:27-44 | an id that came back, other than `None`, belongs to a record with the payload's key that the store now lists, found or just created |
| Registration.RegisterAgent | autogen/studio/register_agents_in_studio.py:46-77 | a config missing a required field raises before any request and leaves the store alone; an id that came back is that of a listed record with the config's name; the store either stays as it was or gains the payload as one record under a fresh id; with a listing, an agent already listed under the name is returned with no post and the store unchanged, and a listing that cannot be searched raises; with no listing or no match, an accepted post returns the fresh id and a refused one `None` |
| Registration.RegisterAgentTwice | autogen/studio/register_agents_in_studio.py:46-77 | registering the same agent again returns the same id and changes nothing |
| Registration.TeamPayload | autogen/studio/register_agents_in_studio.py:81-95 | built exactly when the team config is a dict with a name and a description; it lists the given agent ids as participants, in round-robin order, with the fixed termination condition |
| Registration.RegisterTeam | autogen/studio/register_agents_in_studio.py:79-114 | a team config without a name or description raises before any request; an id that came back is that of a listed record with the team's name; a newly created team record lists exactly the given agent ids; with a listing, a team already listed under the name is returned with no post and the store unchanged, and a listing that cannot be searched raises; with no listing or no match, an accepted post returns the fresh id and a refused one `None` |
| Registration.TeamTermination | autogen/studio/register_agents_in_studio.py:87-93 | the team stops at the text "APPROVED" or after 15 messages |
| Registration.KeepTruthy | autogen/studio/register_agents_in_studio.py:207-210 | the kept ids are all truthy, and each comes from the registration results |
| Registration.KeepTruthyAppend | autogen/studio/register_agents_in_studio.py:207-210 | filtering distributes over concatenation, so the kept ids stay in order |
| Registration.KeepTruthyKeepsAll | autogen/studio/register_agents_in_studio.py:207-210 | no truthy id is dropped |
| Registration.Participants | autogen/studio/register_agents_in_studio.py:207 | a list of participants is iterated as is; a success means the team config is a dict with `participants` |
| Registration.RegisterParticipants | autogen/studio/register_agents_in_studio.py:207-210 | the loop stops at the first exception; it finishes exactly when every participant returned an id; the first id is the first registration's; the agent store only grows (every later id is pinned by `ParticipantIds`) |
| Registration.ParticipantIds | autogen/studio/register_agents_in_studio.py:207-210 | the k-th id is what registering the k-th participant returns against the store the first k registrations left; when the loop stopped, that participant's registration raised the run's error and the run kept that store |
| Registration.ParticipantIdsFinal | autogen/studio/register_agents_in_studio.py:207-210 | while the agent listing works, every returned id is what registering its participant against the final store returns, with no further change |
| Registration.ExtendsTransitive | autogen/studio/register_agents_in_studio.py:37-41 | growth of a store by accepted posts composes |
| Registration.FindExtended | autogen/studio/register_agents_in_studio.py:29-34 | a search that found a record, or raised, is not changed by records appended later |
| Registration.FindOrCreateStable | autogen/studio/register_agents_in_studio.py:27-44 | against any later state of the store it left, find-or-create returns the same id and changes nothing |
| Registration.RegisterAgentStable | autogen/studio/register_agents_in_studio.py:46-77 | the same stability for agent registration |
| Registration.ParticipantsStable | autogen/studio/register_agents_in_studio.py:207-210 | registering the participants again gives the same ids and the same stop, and adds nothing |
| Registration.RegisterAll | autogen/studio/register_agents_in_studio.py:170-214 | a health status other than 200 selects the direct-database path and touches nothing; a falsy model id aborts before any agent; a registered team always has at least one agent id; every kept id and the model id are truthy |
| Registration.AgentStage | autogen/studio/register_agents_in_studio.py:199-214 | without `team.json` nothing but the model is registered; otherwise the participants are registered, then the team |
| Registration.TeamStage | autogen/studio/register_agents_in_studio.py:207-214 | an agent exception ends the run without a team; with no truthy id no team is registered; otherwise the team gets the truthy ids in order |
| Registration.RegisterAllAgentIds | autogen/studio/register_agents_in_studio.py:199-214 | the registered agent ids are exactly the truthy registration results, in participant order, and the team lists them as its participants; with a working agent listing each result is what registering its participant against the final agent store returns |
| Registration.RegisterTeamTwice | autogen/studio/register_agents_in_studio.py:79-114 | registering the same team again returns the same id and changes nothing |
| Registration.TeamStageTwice | autogen/studio/register_agents_in_studio.py:207-214 | repeating the team stage against the Studio it left changes nothing |
| Registration.AgentStageTwice | autogen/studio/register_agents_in_studio.py:199-214 | repeating the agent stage against the Studio it left changes nothing |
| Registration.RegisterAllTwice | autogen/studio/register_agents_in_studio.py:170-214 | running the script a second time, while the listings work, reaches the same outcome and registers nothing new |
| SyncCache.HasChanged | autogen/studio/auto_sync_to_studio.py:188-192 | a path never cached counts as changed; a file is unchanged exactly when its cached digest is its current one |
| SyncCache.UpdateFileHash | autogen/studio/auto_sync_to_studio.py:194-197 | the path now maps to its current digest, and every other entry is kept |
| SyncCache.UpdateThenUnchanged | autogen/studio/auto_sync_to_studio.py:180-197 | right after an update the file is unchanged, and no other path's verdict moves |
| SyncCache.IsValidAgentConfig | autogen/studio/auto_sync_to_studio.py:373-376 | a dict is valid exactly when it has `name`, `description` and `system_message`; a value `in` cannot search raises |
| SyncCache.InvalidJsonStaysUncached | autogen/studio/auto_sync_to_studio.py:343-352 | a JSON file without a valid config is neither taken nor cached |
| SyncCache.JsonContribution | autogen/studio/auto_sync_to_studio.py:343-352 | a changed JSON file with a valid config adds one config, with the required fields and tagged with its path, and becomes unchanged |
| SyncCache.PythonContribution | autogen/studio/auto_sync_to_studio.py:353-360 | a changed `.py` file contributes exactly the configs extracted from its text, in order and each tagged with its path, and its cache entry is set to its current digest |
| SyncCache.ScanFile | autogen/studio/auto_sync_to_studio.py:334-360 | an unchanged file is skipped; configs are only appended, each tagged with the file's path; only the file's own cache entry can change, and then to its current digest, which a file taken from always gets |
| SyncCache.Scan | autogen/studio/auto_sync_to_studio.py:317-371 | configs are only appended, each tagged with the path of a found file; the cache only gains entries, and a path the glob did not find keeps its entry |
| SyncCache.ScanSettles | autogen/studio/auto_sync_to_studio.py:334-360 | after a scan every file it saw is cached with its current digest, or is one the scan never takes |
| SyncCache.ScanOfSettled | autogen/studio/auto_sync_to_studio.py:334-360 | a scan over settled files changes nothing |
| SyncCache.RescanFindsNothing | autogen/studio/auto_sync_to_studio.py:334-360 | scanning the same unmodified files again finds no config and leaves the cache as it was |
| StudioSync.AgentPayload | autogen/studio/auto_sync_to_studio.py:518-528 | built exactly when `model_client` is absent or a dict; it names the agent, uses the model id and the assistant type, and defaults the description to "Agent from <file>" and the system message to "" |
| StudioSync.PayloadGenerationDefaults | autogen/studio/auto_sync_to_studio.py:525-526 | without `model_client`, the temperature is 0.5 and max tokens 4096 |
| StudioSync.PayloadGenerationFromClient | autogen/studio/auto_sync_to_studio.py:525-526 | with a `model_client` dict, its values are used, with those defaults |
| StudioSync.KnownAgent | autogen/studio/auto_sync_to_studio.py:508 | `name in existing_agents` raises exactly for an unhashable name, and holds exactly for a string naming a listed agent |
| StudioSync.SyncSingleAgent | autogen/studio/auto_sync_to_studio.py:500-554 | a known agent is skipped as a success without a registration; a registration happens exactly when the name is new and the payload builds; success is "an id came back", and the error text is cleared only by a truthy id; a name that cannot be looked up, or a payload that cannot be built, gives a failure carrying that exception's text and no registration |
| StudioSync.FalsyIdIsSuccessWithFailureText | autogen/studio/auto_sync_to_studio.py:536-542 | an empty id is reported as a success that still carries "Registration failed" |
| StudioSync.ProcessResults | autogen/studio/auto_sync_to_studio.py:454-466 | one result per config, in order: finished syncs are kept, exceptions become failures named from their config |
| StudioSync.EnsureModelExists | autogen/studio/auto_sync_to_studio.py:480-498 | when no listed model is the preferred one, the newly registered id is used |
| StudioSync.EnsureModelFindsFirst | autogen/studio/auto_sync_to_studio.py:485-487 | the first preferred model's id is used, with no registration |
| StudioSync.ExistingComponentsRegistersEverything | autogen/studio/auto_sync_to_studio.py:230-267 | with the empty listings `get_existing_components` returns as written, the model is registered anew and every config with a lookup-able name and a buildable payload is registered, never skipped |
| StudioSync.SyncAgentsBatch | autogen/studio/auto_sync_to_studio.py:428-478 | no usable model id gives no results and a failed batch; otherwise each config gets its sync result, in order, and the batch succeeds exactly when every result does |
| PerfMonitor.GetSummary | autogen/studio/auto_sync_to_studio.py:103-146 | an error exactly when nothing was recorded; otherwise every operation is counted, the successes are the successful metrics, the rate is within 0..100 and times the total gives a hundred times the successes, the mean latency times the total gives the summed latency, and there is one breakdown entry per operation |
| PerfMonitor.SummaryLatencies | autogen/studio/auto_sync_to_studio.py:111-113 | the mean latency lies between the extremes, which bound every latency and are attained |
| PerfMonitor.SummaryBreakdownCounts | autogen/studio/auto_sync_to_studio.py:117-135 | each breakdown entry counts exactly its operation's metrics and successes, and its rate is within 0..100 |
| PerfMonitor.SummaryBreakdownOperations | autogen/studio/auto_sync_to_studio.py:117-126 | the breakdown names each recorded operation exactly once, and no operation that was not recorded |
| PerfMonitor.SummaryBreakdownOrder | autogen/studio/auto_sync_to_studio.py:117-124 | the breakdown lists the operations in the order each was first recorded, as the insertion order of the `operation_stats` dict |
| PerfMonitor.SummaryBreakdownSums | autogen/studio/auto_sync_to_studio.py:105-130 | the breakdown's per-operation counts add up to `total_operations`, and its success counts to `successful_operations` |
| PerfMonitor.SummaryBreakdownLatencies | autogen/studio/auto_sync_to_studio.py:117-135 | each breakdown entry's total latency is the summed latency of its operation's metrics, and its average latency and success rate times its count give back the total latency and a hundred times its successes |
| PerfMonitor.GroupFaithful | autogen/studio/auto_sync_to_studio.py:117-130 | the grouping has distinct operations, covers every metric, and holds each operation's exact count, success count and summed latency |
| Dashboard.Push | autogen/studio/sync_monitor_dashboard.py:154-158 | appending keeps the newest entry last and, within the limit, keeps the newest `max_history` entries |
| Dashboard.PushAllKeepsNewest | autogen/studio/sync_monitor_dashboard.py:154-164 | however many measurements arrive, the history holds exactly the newest 100 of everything seen, oldest first |
| Dashboard.PushOntoKept | autogen/studio/sync_monitor_dashboard.py:154-158 | pushing onto the newest entries of what was seen keeps the newest entries of it all |
| Dashboard.AddSystemMetrics | autogen/studio/sync_monitor_dashboard.py:154-158 | the system history gains the measurement within its bound, and the Studio history is untouched |
| Dashboard.AddStudioMetrics | autogen/studio/sync_monitor_dashboard.py:160-164 | the Studio history gains the measurement within its bound, and the system history is untouched |
| Dashboard.SystemAlertsFacts | autogen/studio/sync_monitor_dashboard.py:183-206 | a resource alert is raised exactly for each threshold exceeded, at its level, in test order |
| Dashboard.ApiAlertsFacts | autogen/studio/sync_monitor_dashboard.py:208-229 | at most one API alert: down, else timeout, else slow, whichever holds |
| Dashboard.AlertKinds | autogen/studio/sync_monitor_dashboard.py:179-229 | an alert kind is raised exactly when its condition holds, at its level, in test order |
| Dashboard.CheckAlerts | autogen/studio/sync_monitor_dashboard.py:179-240 | the returned alerts are exactly the due ones, in test order, at their levels; the log gains them at its end and keeps only the last 50 |
| Dashboard.AtMostOneApiAlert | autogen/studio/sync_monitor_dashboard.py:209-229 | one check never raises two API alerts |
| Dashboard.ApiConditionsExclusive | autogen/studio/sync_monitor_dashboard.py:209-229 | the three API conditions exclude each other |
| Dashboard.QuietCheckKeepsLog | autogen/studio/sync_monitor_dashboard.py:179-240 | quiet measurements raise nothing and leave a log within its cap unchanged |
| Dashboard.StatusIndicator | autogen/studio/sync_monitor_dashboard.py:283-291 | red exactly at or above the critical threshold, yellow between warning and critical, and green below both |
| Dashboard.StatusMonotone | autogen/studio/sync_monitor_dashboard.py:283-291 | with ordered thresholds, a larger value never shows a milder status |
| Dashboard.StatusAntitoneInThresholds | autogen/studio/sync_monitor_dashboard.py:283-291 | raising the thresholds never makes a status more severe |
| Dashboard.UptimeParts | autogen/studio/sync_monitor_dashboard.py:269-272 | minutes and seconds are below 60, and the three parts recombine to the whole seconds elapsed |
| Dashboard.FormatUptime | autogen/studio/sync_monitor_dashboard.py:267-273 | the text has the `HH:MM:SS` shape: at least two characters of hours, then two colon-separated two-character fields |
| Dashboard.UptimeReadsBack | autogen/studio/sync_monitor_dashboard.py:267-273 | round trip: the shown uptime reads back as the whole seconds elapsed |
| Text.Pad2ReadsBack | autogen/studio/sync_monitor_dashboard.py:273 | a two-digit zero-padded field reads back as its number |
| Text.ParseNatOfNatToString | autogen/studio/sync_monitor_dashboard.py:273 | round trip: a decimal numeral reads back as its number |
| Benchmark.NewResult | autogen/studio/performance_benchmark.py:27-35 | a new record is empty and consistent |
| Benchmark.AddOperation | autogen/studio/performance_benchmark.py:45-53 | each list gains its value at the end, exactly one counter rises, and consistency is preserved |
| Benchmark.RecordAllCounts | autogen/studio/performance_benchmark.py:119-136 | after a benchmark loop the record holds every iteration's duration in order, and the counters count the successful and failed iterations |
| Benchmark.TotalTime | autogen/studio/performance_benchmark.py:60 | the span is end minus start when both timestamps are truthy, else 0 |
| Benchmark.GetStats | autogen/studio/performance_benchmark.py:55-78 | an error exactly when nothing was recorded; otherwise the name, operation count and counters are reported |
| Benchmark.StatsSuccessRate | autogen/studio/performance_benchmark.py:67 | the success rate is the successful share in percent, within 0..100 for a consistent record |
| Benchmark.StatsThroughput | autogen/studio/performance_benchmark.py:60-69 | throughput is operations over the span, and 0 when the span is not positive |
| Benchmark.StatsTimings | autogen/studio/performance_benchmark.py:70-77 | the mean time lies between the fastest and slowest; one sample has no spread; the memory peak bounds every reading, and is 0 with none |
| Benchmark.StatsOfLoop | autogen/studio/performance_benchmark.py:116-143 | a benchmark that ran iterations reports their count and success share |
| Benchmark.FetchComponents | autogen/studio/performance_benchmark.py:158-166 | an iteration succeeds exactly when every endpoint answered 200; requests stop at the first failure |
| Benchmark.RegistrationSuccess | autogen/studio/performance_benchmark.py:261-297 | a registration iteration succeeds exactly when every POST answered 200 |
| Benchmark.AllRegistered | autogen/studio/performance_benchmark.py:261-297 | the success counter reaches the number of agents exactly when every POST answered 200 |
| Benchmark.BenchNamesDistinct | autogen/studio/performance_benchmark.py:250-256 | copies of an agent in different iterations or positions get different names |
| Benchmark.PeakMemoryIsLargest | autogen/studio/performance_benchmark.py:478-482 | the memory peak is the largest peak reported by a benchmark with statistics, or 0 when none has any |
| Benchmark.Read | autogen/studio/performance_benchmark.py:455-474 | missing benchmarks read as the `.get` defaults: 0 ms, a 100 % success rate and 0 ops/s |
| Benchmark.FindingsExact | autogen/studio/performance_benchmark.py:455-485 | the findings are exactly the due rules, once each, in rule order |
| Benchmark.Recommendations | autogen/studio/performance_benchmark.py:447-488 | every due piece of advice, once, in rule order; the all-clear appears exactly when nothing else is due, and then alone |
| Benchmark.NumberedLines | autogen/studio/performance_benchmark.py:490-491 | line i shows the i-th recommendation under the number i + 1 |

## Left out

- HTTP, the AWS SDK, the file system, the database and the clock are not performed. They are inputs or function parameters, as each module's header says.
- The direct-database registration (`use_database_direct`) writes through the Studio database library. That library is not part of this model; the model records only that this path is chosen.
- `register_model_async`/`register_agent_async` and `check_studio_health` in the automated sync are HTTP calls. Their results are parameters of the sync functions.
- `StudioSync.SyncAgentsBatch`: the existing models and agents are parameters, so the skip path and `EnsureModelFindsFirst` describe a working listing. As written, `get_existing_components` never returns one: `async with asyncio.gather(...)` raises because a gathering future is not an async context manager, and the handler returns three empty dicts. `StudioSync.ExistingComponentsRegistersEverything` states what follows: every run registers the model and every agent anew.
- `_extract_configs_from_python` is a regex heuristic over Python sources; it is a parameter of the scan.
- `SyncCache` loading and saving of its JSON file, and `save_metrics`, `save_session_data` and `save_results`, are file output.
- `collect_system_metrics`, `collect_studio_metrics`, `measure_resource_usage` and `get_system_info` read psutil and HTTP. Their readings are inputs.
- Rendering, printing, logging and screen clearing: the dashboard's `render_dashboard`, `generate_performance_report`, `format_bytes`, and every `print`/`logger` call.
- The async loops and entry points (`run`, `collect_metrics_loop`, `run_full_benchmark`, `run_automated_sync`, `run_performance_analysis`, every `main`) are not modelled. Concurrency in `asyncio.gather` and the semaphore is modelled as running one sync after another, which gives the same result list.
- `ConversationLogger` only writes log lines.
- Float-to-text formatting (`:.1f`, `:.0f`, `str(float)`) is a parameter `fixed`/`showFloat`. `Json.Str` renders floats, lists and dicts as a type placeholder rather than Python's `repr`.
- `statistics.median` and `statistics.stdev` are parameters of `Benchmark.GetStats`. Means, extremes and rates are exact.
- `json.dumps` of Lambda response bodies and of request payloads is not modelled; bodies are kept as JSON values.
- `Calculator.PowValue`: float results are exact reals. Python raises `OverflowError` for a float power out of the double range (`2.0 ** 10000`), and the model returns the exact value.
- `Calculator.PowValue`: a power with a non-integral exponent yields a float or complex number that is not computed. It is the explicit outcome `FractionalPower`, and `Calculate` returns `None` for it.
- `Calculator.TrueDiv`: the quotient is an exact real. Python raises `OverflowError` when an int quotient exceeds the double range (`10**400 / 1`), or when a huge int operand is converted to float. It also rounds to a double.
- `Calculator.ApplyBinAgrees`: this agreement holds for exact reals. Python's `+`, `-` and `*` on floats round and can overflow to `inf`, and its int-to-float conversions and float powers raise `OverflowError` outside the double range. None of this is modelled.
- `Calculator.Calculate`: `Value` has no complex case. `isinstance(node, ast.Num)` also accepts imaginary literals, so `calculate("2*1j")` reports "The result of 2*1j is 2j"; such literals are not modelled.
- `Calculator.EvalAgreesWithDenote`: this agreement holds for exact reals too, and the same float gaps apply. In addition, `eval_expr` recurses once per tree level, so a tree deeper than Python's recursion limit (about 1000 levels) raises `RecursionError`, where the model still evaluates.
- `Calculator.Calculate`: the `RecursionError` and float `OverflowError` texts described above are not produced. The 4300-digit limit on printing an int is modelled; it is CPython's default since 3.11.
- `Calculator.Calculate`: `ast.parse` is not modelled. The parse tree or the `SyntaxError` text is an input, and so is the repr of an unsupported node.
- `Registration.RegisterAll`: an exception from a request after the health probe (connection refused mid-run) is not modelled. Studio listings are assumed to be JSON lists, and `team.json`, when present, is read once as a JSON value.
- `Registration.Find`: it compares JSON values structurally. Python's `==` also equates `1`, `1.0` and `True`, and containers holding them, so a wanted `1` would find a listed `1.0` there and not in the model.
- `StudioSync.KnownAgent`: the existing agents are keyed by string names only. As written, `{a.get("name"): a ...}` gets a `None` key when a listed agent lacks a name, and a non-string key when one has a non-string name. A config whose `name` is JSON `null` then counts as known (`None in existing_agents`), and so does a config whose non-string hashable name equals a listed one; the model says neither is known. A config with no `name` at all is looked up as "Unknown", which the model does capture.
- `Registration.FindOrCreate`: an accepted POST is modelled as storing the payload under the store's next id and answering with that id.
- `Retry.RetryCall`: with zero attempts `async_retry` executes `raise None`, which fails with a `TypeError`. That outcome is `NoneRaised`.
- `Lambda.AuthToken`: the secret is given already decoded from JSON. A `SecretString` that is not valid JSON is a secret-store error text.
- `Text.Upper`: it upper-cases ASCII letters only. Python's `str.upper()` maps every cased Unicode letter and can change the length (`"straße"` becomes `"STRASSE"`).
- `Conversation.Truncate`: message values are strings. A message whose `content` is `None` (a tool-call message) makes `len(None)` raise `TypeError`, and a role that is not a string makes `.upper()` raise `AttributeError`; the model has no such messages.
- `Conversation.EntryShape`: the role is upper-cased by `Text.Upper`, so the shape is Python's only for roles without non-ASCII cased letters.
- `CodeBlocks.IsWordChar`: it accepts the ASCII word characters `[A-Za-z0-9_]`. Python's `\w` on `str` also accepts every Unicode letter and digit.
- `CodeBlocks.MatchAtComplete`: completeness therefore holds only for ASCII language tags. Python finds a block with the tag `é`, and the model finds none. `CodeBlocks.MatchAtSound` is unaffected, because every ASCII word character is one for Python too.
- `Dashboard.FormatUptime`: its own contract states only the shape. The value is stated by `Dashboard.UptimeReadsBack`, for non-negative uptimes, because a clock running backwards is not a case the dashboard meets.
- `PerfMonitor.GetSummary`: `total_runtime_seconds` uses the clock and is passed in, and latencies are given per metric rather than computed from start and end times.

=== FILE: benchmark.dfy ===
/** Benchmark bookkeeping and advice (studio/performance_benchmark.py): the per-benchmark
    record of operations, its statistics, the rule deciding whether one iteration
    succeeded, and the recommendations drawn from a set of benchmark statistics.

    Timings, resource readings and HTTP statuses are inputs. `statistics.median` and
    `statistics.stdev` are parameters; means, extremes and rates are exact. */
module Benchmark {
  import opened Wrappers
  import opened Numeric
  import opened Text

  // ---------------------------------------------------------------------------
  // The operation record

  datatype BenchmarkResult = BenchmarkResult(
    name: string,
    times: seq<real>,
    successCount: nat,
    failureCount: nat,
    cpuUsage: seq<real>,
    memoryUsage: seq<real>,
    startTime: Option<real>,
    endTime: Option<real>)

  /** `BenchmarkResult(name)`. */
  function NewResult(name: string): (r: BenchmarkResult)
    ensures Consistent(r) && |r.times| == 0
  {
    BenchmarkResult(name, [], 0, 0, [], [], None, None)
  }

  function StartBenchmark(r: BenchmarkResult, now: real): BenchmarkResult {
    r.(startTime := Some(now))
  }

  function EndBenchmark(r: BenchmarkResult, now: real): BenchmarkResult {
    r.(endTime := Some(now))
  }

  /** The three lists run in step and the two counters split the operations. */
  predicate Consistent(r: BenchmarkResult) {
    && |r.cpuUsage| == |r.times|
    && |r.memoryUsage| == |r.times|
    && r.successCount + r.failureCount == |r.times|
  }

  /** `add_operation(duration, success, cpu, memory)`: one entry more in each list and
      exactly one counter raised. */
  function AddOperation(r: BenchmarkResult, duration: real, success: bool, cpu: real, memory: real)
    : (r': BenchmarkResult)
    ensures r'.times == r.times + [duration]
    ensures r'.cpuUsage == r.cpuUsage + [cpu] && r'.memoryUsage == r.memoryUsage + [memory]
    ensures r'.successCount == r.successCount + (if success then 1 else 0)
    ensures r'.failureCount == r.failureCount + (if success then 0 else 1)
    ensures r'.name == r.name && r'.startTime == r.startTime && r'.endTime == r.endTime
    ensures Consistent(r) ==> Consistent(r')
  {
    r.(times := r.times + [duration],
       successCount := if success then r.successCount + 1 else r.successCount,
       failureCount := if success then r.failureCount else r.failureCount + 1,
       cpuUsage := r.cpuUsage + [cpu],
       memoryUsage := r.memoryUsage + [memory])
  }

  /** One timed iteration as the benchmark loops see it: duration, verdict and the resource
      readings before and after. */
  datatype Iteration = Iteration(
    duration: real, success: bool,
    cpuBefore: real, memBefore: real, cpuAfter: real, memAfter: real)

  /** The loop body's `add_operation` call: resources are the mean of the two readings. */
  function RecordIteration(r: BenchmarkResult, it: Iteration): BenchmarkResult {
    AddOperation(r, it.duration, it.success,
                 (it.cpuBefore + it.cpuAfter) / 2.0, (it.memBefore + it.memAfter) / 2.0)
  }

  function RecordAll(r: BenchmarkResult, its: seq<Iteration>): BenchmarkResult
    decreases |its|
  {
    if |its| == 0 then r else RecordIteration(RecordAll(r, its[..|its| - 1]), its[|its| - 1])
  }

  predicate Succeeded(it: Iteration) {
    it.success
  }

  /** After a benchmark loop the record holds every iteration's duration in order, and the
      counters count the successful and the failed iterations. */
  lemma {:induction false} RecordAllCounts(r: BenchmarkResult, its: seq<Iteration>)
    requires Consistent(r)
    ensures var r' := RecordAll(r, its);
            && Consistent(r')
            && |r'.times| == |r.times| + |its|
            && r'.times[..|r.times|] == r.times
            && (forall k :: 0 <= k < |its| ==> r'.times[|r.times| + k] == its[k].duration)
            && r'.successCount == r.successCount + CountWhere(its, Succeeded)
            && r'.failureCount == r.failureCount + (|its| - CountWhere(its, Succeeded))
    decreases |its|
  {
    if |its| > 0 {
      var init := its[..|its| - 1];
      RecordAllCounts(r, init);
      var mid := RecordAll(r, init);
      assert mid.times[..|r.times|] == r.times;
      var r' := RecordAll(r, its);
      assert r'.times == mid.times + [its[|its| - 1].duration];
      forall k | 0 <= k < |its|
        ensures r'.times[|r.times| + k] == its[k].duration
      {
        if k < |its| - 1 {
          assert its[k] == init[k];
        }
      }
    }
  }

  // ---------------------------------------------------------------------------
  // Statistics

  datatype Stats = Stats(
    name: string,
    totalOperations: nat,
    successCount: nat,
    failureCount: nat,
    successRate: real,
    totalTimeSeconds: real,
    operationsPerSecond: real,
    avgOperationTimeMs: real,
    medianOperationTimeMs: real,
    minOperationTimeMs: real,
    maxOperationTimeMs: real,
    stdDevMs: real,
    avgCpuPercent: real,
    avgMemoryMb: real,
    peakMemoryMb: real)

  const NoOperationsRecorded: string := "No operations recorded"

  /** A timestamp is truthy when it is set and not zero. */
  predicate IsSet(t: Option<real>) {
    t.Some? && t.value != 0.0
  }

  /** `end_time - start_time` when both are truthy, else 0. */
  function TotalTime(r: BenchmarkResult): (t: real)
    ensures !(IsSet(r.startTime) && IsSet(r.endTime)) ==> t == 0.0
    ensures IsSet(r.startTime) && IsSet(r.endTime) ==> t == r.endTime.value - r.startTime.value
  {
    if IsSet(r.endTime) && IsSet(r.startTime) then r.endTime.value - r.startTime.value else 0.0
  }

  function MeanOr0(xs: seq<real>): real {
    if |xs| > 0 then Mean(xs) else 0.0
  }

  /** `get_stats()`: an error when nothing was recorded, else the statistics. */
  function GetStats(r: BenchmarkResult, median: seq<real> -> real, stdev: seq<real> -> real)
    : (s: Result<Stats, string>)
    ensures s.Err? <==> |r.times| == 0
    ensures s.Err? ==> s.error == NoOperationsRecorded
    ensures s.Ok? ==>
              && s.value.name == r.name
              && s.value.totalOperations == |r.times|
              && s.value.successCount == r.successCount
              && s.value.failureCount == r.failureCount
  {
    if |r.times| == 0 then Err(NoOperationsRecorded) else Ok(Compute(r, median, stdev))
  }

  function Compute(r: BenchmarkResult, median: seq<real> -> real, stdev: seq<real> -> real): Stats
    requires |r.times| > 0
  {
    var n := |r.times| as real;
    var total := TotalTime(r);
    Stats(
      r.name, |r.times|, r.successCount, r.failureCount,
      (r.successCount as real / n) * 100.0,
      total,
      if total > 0.0 then n / total else 0.0,
      Mean(r.times) * 1000.0,
      median(r.times) * 1000.0,
      MinOf(r.times) * 1000.0,
      MaxOf(r.times) * 1000.0,
      if |r.times| > 1 then stdev(r.times) * 1000.0 else 0.0,
      MeanOr0(r.cpuUsage),
      MeanOr0(r.memoryUsage),
      if |r.memoryUsage| > 0 then MaxOf(r.memoryUsage) else 0.0)
  }

  /** The success rate is the successful share in percent, within 0..100 for a consistent
      record. */
  lemma StatsSuccessRate(r: BenchmarkResult, median: seq<real> -> real, stdev: seq<real> -> real)
    requires |r.times| > 0
    ensures var s := GetStats(r, median, stdev).value;
            && s.successRate * |r.times| as real == r.successCount as real * 100.0
            && (Consistent(r) ==> 0.0 <= s.successRate <= 100.0)
  {
    RateBounds(r.successCount, |r.times|);
  }

  /** Throughput is operations over the timed span, and zero when the span is not positive;
      the span is zero unless both timestamps are truthy. */
  lemma StatsThroughput(r: BenchmarkResult, median: seq<real> -> real, stdev: seq<real> -> real)
    requires |r.times| > 0
    ensures var s := GetStats(r, median, stdev).value;
            && (s.totalTimeSeconds > 0.0 ==> s.operationsPerSecond * s.totalTimeSeconds == |r.times| as real)
            && (s.totalTimeSeconds <= 0.0 ==> s.operationsPerSecond == 0.0)
            && (!(IsSet(r.startTime) && IsSet(r.endTime)) ==> s.totalTimeSeconds == 0.0)
  {
    var t := TotalTime(r);
    if t > 0.0 {
      var q := |r.times| as real / t;
      assert q * t == |r.times| as real;
    }
  }

  /** The timing figures: the mean lies between the fastest and slowest operation, a single
      sample has no spread, and the memory peak bounds every reading (0 with none). */
  lemma StatsTimings(r: BenchmarkResult, median: seq<real> -> real, stdev: seq<real> -> real)
    requires |r.times| > 0
    ensures var s := GetStats(r, median, stdev).value;
            && s.minOperationTimeMs <= s.avgOperationTimeMs <= s.maxOperationTimeMs
            && (|r.times| == 1 ==> s.stdDevMs == 0.0)
            && (|r.memoryUsage| == 0 ==> s.peakMemoryMb == 0.0)
            && (forall k :: 0 <= k < |r.memoryUsage| ==> r.memoryUsage[k] <= s.peakMemoryMb)
  {
    MeanWithinRange(r.times);
  }

  lemma RateBounds(part: nat, whole: nat)
    requires whole > 0
    ensures (part as real / whole as real) * 100.0 * whole as real == part as real * 100.0
    ensures part <= whole ==> 0.0 <= (part as real / whole as real) * 100.0 <= 100.0
  {
    var q := part as real / whole as real;
    assert q * whole as real == part as real;
    if part <= whole {
      MeanBetween(0.0, 1.0, part as real, whole as real);
    }
  }

  /** A benchmark that ran iterations reports their success share. */
  lemma StatsOfLoop(name: string, its: seq<Iteration>, median: seq<real> -> real, stdev: seq<real> -> real)
    requires |its| > 0
    ensures var s := GetStats(RecordAll(NewResult(name), its), median, stdev);
            && s.Ok?
            && s.value.totalOperations == |its|
            && s.value.successCount == CountWhere(its, Succeeded)
            && s.value.failureCount == |its| - CountWhere(its, Succeeded)
            && 0.0 <= s.value.successRate <= 100.0
  {
    var r := RecordAll(NewResult(name), its);
    RecordAllCounts(NewResult(name), its);
    StatsSuccessRate(r, median, stdev);
  }

  // ---------------------------------------------------------------------------
  // Whether one iteration succeeded

  /** A connectivity probe succeeds on status 200; `None` is a request that raised. */
  function ConnectivitySuccess(status: Option<int>): bool {
    status == Some(200)
  }

  /** Component fetching requests the endpoints in order and stops at the first status
      other than 200 or the first request that raises. */
  datatype Fetch = Fetch(success: bool, requests: nat)

  function FetchComponents(statuses: seq<Option<int>>): (f: Fetch)
    ensures f.success <==> forall i :: 0 <= i < |statuses| ==> statuses[i] == Some(200)
    ensures 1 <= f.requests <= |statuses| || (f.requests == 0 && |statuses| == 0)
    ensures forall i :: 0 <= i < f.requests - 1 ==> statuses[i] == Some(200)
    ensures !f.success ==> statuses[f.requests - 1] != Some(200)
    decreases |statuses|
  {
    if |statuses| == 0 then Fetch(true, 0)
    else if statuses[0] != Some(200) then Fetch(false, 1)
    else
      var rest := FetchComponents(statuses[1..]);
      assert forall i :: 1 <= i < |statuses| ==> statuses[i] == statuses[1..][i - 1];
      Fetch(rest.success, rest.requests + 1)
  }

  /** `Registered` agents out of one registration iteration: those whose POST answered 200;
      a POST that raises is logged and skipped. */
  function Registered(statuses: seq<Option<int>>): (n: nat)
    ensures n <= |statuses|
    decreases |statuses|
  {
    if |statuses| == 0 then 0
    else Registered(statuses[..|statuses| - 1]) + (if statuses[|statuses| - 1] == Some(200) then 1 else 0)
  }

  /** A registration iteration succeeds when every agent of it was registered. */
  function RegistrationSuccess(statuses: seq<Option<int>>): (ok: bool)
    ensures ok <==> forall i :: 0 <= i < |statuses| ==> statuses[i] == Some(200)
  {
    AllRegistered(statuses);
    Registered(statuses) == |statuses|
  }

  lemma {:induction false} AllRegistered(statuses: seq<Option<int>>)
    ensures Registered(statuses) == |statuses| <==> forall i :: 0 <= i < |statuses| ==> statuses[i] == Some(200)
    decreases |statuses|
  {
    if |statuses| > 0 {
      var init := statuses[..|statuses| - 1];
      AllRegistered(init);
      assert forall i :: 0 <= i < |init| ==> init[i] == statuses[i];
    }
  }

  /** The name an agent gets in iteration `i` as the `j`-th test agent. */
  function BenchName(name: string, i: nat, j: nat): string {
    name + "_bench_" + NatToString(i) + "_" + NatToString(j)
  }

  /** Copies of one agent in different iterations, or at different positions, get
      different names. */
  lemma BenchNamesDistinct(name: string, i1: nat, j1: nat, i2: nat, j2: nat)
    requires (i1, j1) != (i2, j2)
    ensures BenchName(name, i1, j1) != BenchName(name, i2, j2)
  {
    var p := name + "_bench_";
    var a1, b1, a2, b2 := NatToString(i1), NatToString(j1), NatToString(i2), NatToString(j2);
    var s1, s2 := a1 + "_" + b1, a2 + "_" + b2;
    assert BenchName(name, i1, j1) == p + s1 && BenchName(name, i2, j2) == p + s2;
    if s1 == s2 {
      SplitAtSeparator(a1, b1, a2, b2);
      ParseNatOfNatToString(i1);
      ParseNatOfNatToString(i2);
      ParseNatOfNatToString(j1);
      ParseNatOfNatToString(j2);
    }
    assert s1 != s2;
    assert (p + s1)[|p|..] == s1 && (p + s2)[|p|..] == s2;
  }

  /** Two numerals joined by `_` can be split back apart. */
  lemma SplitAtSeparator(a1: string, b1: string, a2: string, b2: string)
    requires AllDigits(a1) && AllDigits(a2)
    requires a1 + "_" + b1 == a2 + "_" + b2
    ensures a1 == a2 && b1 == b2
  {
    var s := a1 + "_" + b1;
    DigitRunOf(a1, "_" + b1);
    DigitRunOf(a2, "_" + b2);
    assert s == a1 + ("_" + b1) == a2 + ("_" + b2);
    assert a1 == s[..|a1|] == a2;
    assert b1 == s[|a1| + 1..] == b2;
  }

  /** The length of the leading run of digits. */
  function DigitRun(s: string): (n: nat)
    ensures n <= |s|
    decreases |s|
  {
    if |s| == 0 || !IsDigit(s[0]) then 0 else 1 + DigitRun(s[1..])
  }

  lemma {:induction false} DigitRunOf(a: string, rest: string)
    requires AllDigits(a) && |rest| > 0 && !IsDigit(rest[0])
    ensures DigitRun(a + rest) == |a|
    decreases |a|
  {
    if |a| > 0 {
      assert (a + rest)[1..] == a[1..] + rest;
      DigitRunOf(a[1..], rest);
    } else {
      assert a + rest == rest;
    }
  }

  // ---------------------------------------------------------------------------
  // Recommendations

  /** A benchmark's entry: its statistics, or the `{"error": ...}` dict that stands in for
      them. Entries come in insertion order with distinct names, like the dict they model. */
  type Benchmarks = seq<(string, Result<Stats, string>)>

  datatype Advice =
    | SlowConnectivity
    | SlowFetching
    | SlowScanning
    | RegistrationFailures
    | SlowRegistration
    | HighMemory(peakMb: real)
    | LooksGood

  function Find(bs: Benchmarks, name: string): Option<Result<Stats, string>>
    decreases |bs|
  {
    if |bs| == 0 then None else if bs[0].0 == name then Some(bs[0].1) else Find(bs[1..], name)
  }

  /** `benchmarks.get(name, {}).get(field, default)`. */
  function StatOr(bs: Benchmarks, name: string, field: Stats -> real, default: real): real {
    match Find(bs, name)
    case Some(Ok(s)) => field(s)
    case _ => default
  }

  function AvgMs(s: Stats): real { s.avgOperationTimeMs }
  function RatePercent(s: Stats): real { s.successRate }
  function OpsPerSecond(s: Stats): real { s.operationsPerSecond }

  /** `max([... peak_memory_mb ...])` over the benchmarks that have statistics, or `None`
      when there are none. */
  function MaxPeak(bs: Benchmarks): Option<real>
    decreases |bs|
  {
    if |bs| == 0 then None
    else
      var rest := MaxPeak(bs[..|bs| - 1]);
      match bs[|bs| - 1].1
      case Err(_) => rest
      case Ok(s) => if rest.Some? && rest.value >= s.peakMemoryMb then rest else Some(s.peakMemoryMb)
  }

  /** `max(..., default=0)`. */
  function PeakMemory(bs: Benchmarks): real {
    MaxPeak(bs).GetOr(0.0)
  }

  /** The peak is the largest reported peak, or 0 when no benchmark has statistics. */
  lemma {:induction false} PeakMemoryIsLargest(bs: Benchmarks)
    ensures MaxPeak(bs).None? <==> forall i :: 0 <= i < |bs| ==> bs[i].1.Err?
    ensures forall i :: 0 <= i < |bs| && bs[i].1.Ok? ==> bs[i].1.value.peakMemoryMb <= PeakMemory(bs)
    ensures MaxPeak(bs).Some? ==>
              exists i :: 0 <= i < |bs| && bs[i].1.Ok? && bs[i].1.value.peakMemoryMb == PeakMemory(bs)
    decreases |bs|
  {
    if |bs| > 0 {
      var init := bs[..|bs| - 1];
      PeakMemoryIsLargest(init);
      assert forall i :: 0 <= i < |init| ==> init[i] == bs[i];
      if MaxPeak(bs).Some? && MaxPeak(bs) == MaxPeak(init) {
        var i :| 0 <= i < |init| && init[i].1.Ok? && init[i].1.value.peakMemoryMb == PeakMemory(init);
        assert bs[i] == init[i];
      }
    }
  }

  /** The figures the advice reads, each with the default `.get` supplies when the
      benchmark or its statistics are missing. */
  datatype Readings = Readings(
    connectivityMs: real,
    fetchingMs: real,
    scanningMs: real,
    registrationRate: real,
    registrationOps: real,
    peakMemoryMb: real)

  function Read(bs: Benchmarks): (r: Readings)
    ensures !HasStats(bs, "connectivity") ==> r.connectivityMs == 0.0
    ensures !HasStats(bs, "component_fetching") ==> r.fetchingMs == 0.0
    ensures !HasStats(bs, "file_scanning") ==> r.scanningMs == 0.0
    ensures !HasStats(bs, "agent_registration") ==> r.registrationRate == 100.0 && r.registrationOps == 0.0
    ensures HasStats(bs, "agent_registration") ==>
              r.registrationRate == Find(bs, "agent_registration").value.value.successRate
              && r.registrationOps == Find(bs, "agent_registration").value.value.operationsPerSecond
  {
    Readings(
      StatOr(bs, "connectivity", AvgMs, 0.0),
      StatOr(bs, "component_fetching", AvgMs, 0.0),
      StatOr(bs, "file_scanning", AvgMs, 0.0),
      StatOr(bs, "agent_registration", RatePercent, 100.0),
      StatOr(bs, "agent_registration", OpsPerSecond, 0.0),
      PeakMemory(bs))
  }

  predicate HasStats(bs: Benchmarks, name: string) {
    Find(bs, name).Some? && Find(bs, name).value.Ok?
  }

  /** When each piece of advice is due, stated rule by rule: strict thresholds; a missing
      registration success rate counts as 100 and a missing throughput as 0. */
  predicate Due(a: Advice, bs: Benchmarks) {
    var r := Read(bs);
    match a
    case SlowConnectivity => r.connectivityMs > 100.0
    case SlowFetching => r.fetchingMs > 1000.0
    case SlowScanning => r.scanningMs > 500.0
    case RegistrationFailures => r.registrationRate < 100.0
    case SlowRegistration => r.registrationOps < 2.0
    case HighMemory(peak) => peak == r.peakMemoryMb && peak > 500.0
    case LooksGood => false
  }

  function Order(a: Advice): nat {
    match a
    case SlowConnectivity => 0
    case SlowFetching => 1
    case SlowScanning => 2
    case RegistrationFailures => 3
    case SlowRegistration => 4
    case HighMemory(_) => 5
    case LooksGood => 6
  }

  function Flag(c: bool, a: Advice): seq<Advice> {
    if c then [a] else []
  }

  /** The rule-by-rule findings, before the all-clear is added. */
  function Findings(bs: Benchmarks): seq<Advice> {
    var r := Read(bs);
    Assemble(r.connectivityMs > 100.0, r.fetchingMs > 1000.0, r.scanningMs > 500.0,
             r.registrationRate < 100.0, r.registrationOps < 2.0,
             r.peakMemoryMb > 500.0, r.peakMemoryMb)
  }

  /** The findings list built from the six rule outcomes, in rule order. */
  function Assemble(c1: bool, c2: bool, c3: bool, c4: bool, c5: bool, c6: bool, peak: real): seq<Advice> {
    Flag(c1, SlowConnectivity) + Flag(c2, SlowFetching) + Flag(c3, SlowScanning)
    + Flag(c4, RegistrationFailures) + Flag(c5, SlowRegistration) + Flag(c6, HighMemory(peak))
  }

  lemma AssembleShape(c1: bool, c2: bool, c3: bool, c4: bool, c5: bool, c6: bool, peak: real)
    ensures var found := Assemble(c1, c2, c3, c4, c5, c6, peak);
            && Ascending(found)
            && forall x :: x in found <==>
                 (c1 && x == SlowConnectivity) || (c2 && x == SlowFetching)
                 || (c3 && x == SlowScanning) || (c4 && x == RegistrationFailures)
                 || (c5 && x == SlowRegistration) || (c6 && x == HighMemory(peak))
  {
    AssembleAscending(c1, c2, c3, c4, c5, c6, peak);
    forall x {
      AssembleMember(c1, c2, c3, c4, c5, c6, peak, x);
    }
  }

  lemma AssembleAscending(c1: bool, c2: bool, c3: bool, c4: bool, c5: bool, c6: bool, peak: real)
    ensures Ascending(Assemble(c1, c2, c3, c4, c5, c6, peak))
  {
    var f1 := Flag(c1, SlowConnectivity);
    var f2 := f1 + Flag(c2, SlowFetching);
    var f3 := f2 + Flag(c3, SlowScanning);
    var f4 := f3 + Flag(c4, RegistrationFailures);
    var f5 := f4 + Flag(c5, SlowRegistration);
    assert [] + f1 == f1;
    AppendFlag([], c1, SlowConnectivity);
    AppendFlag(f1, c2, SlowFetching);
    AppendFlag(f2, c3, SlowScanning);
    AppendFlag(f3, c4, RegistrationFailures);
    AppendFlag(f4, c5, SlowRegistration);
    AppendFlag(f5, c6, HighMemory(peak));
  }

  lemma AssembleMember(c1: bool, c2: bool, c3: bool, c4: bool, c5: bool, c6: bool, peak: real, x: Advice)
    ensures x in Assemble(c1, c2, c3, c4, c5, c6, peak) <==>
              (c1 && x == SlowConnectivity) || (c2 && x == SlowFetching)
              || (c3 && x == SlowScanning) || (c4 && x == RegistrationFailures)
              || (c5 && x == SlowRegistration) || (c6 && x == HighMemory(peak))
  {
    var f1 := Flag(c1, SlowConnectivity);
    var f2 := f1 + Flag(c2, SlowFetching);
    var f3 := f2 + Flag(c3, SlowScanning);
    var f4 := f3 + Flag(c4, RegistrationFailures);
    var f5 := f4 + Flag(c5, SlowRegistration);
    InAppendFlag([], c1, SlowConnectivity, x);
    assert [] + f1 == f1;
    InAppendFlag(f1, c2, SlowFetching, x);
    InAppendFlag(f2, c3, SlowScanning, x);
    InAppendFlag(f3, c4, RegistrationFailures, x);
    InAppendFlag(f4, c5, SlowRegistration, x);
    InAppendFlag(f5, c6, HighMemory(peak), x);
  }

  lemma InAppendFlag(xs: seq<Advice>, c: bool, a: Advice, x: Advice)
    ensures x in xs + Flag(c, a) <==> x in xs || (c && x == a)
  {
  }

  predicate Ascending(xs: seq<Advice>) {
    forall i, j :: 0 <= i < j < |xs| ==> Order(xs[i]) < Order(xs[j])
  }

  predicate Below(xs: seq<Advice>, n: nat) {
    forall i :: 0 <= i < |xs| ==> Order(xs[i]) < n
  }

  lemma AppendFlag(xs: seq<Advice>, c: bool, a: Advice)
    requires Ascending(xs) && Below(xs, Order(a))
    ensures Ascending(xs + Flag(c, a)) && Below(xs + Flag(c, a), Order(a) + 1)
  {
  }

  /** `generate_recommendations(benchmarks)`: every due piece of advice, once, in rule
      order; the all-clear exactly when nothing else is due. */
  function Recommendations(bs: Benchmarks): (advice: seq<Advice>)
    ensures forall a :: a != LooksGood ==> (a in advice <==> Due(a, bs))
    ensures LooksGood in advice <==> forall a :: a != LooksGood ==> !Due(a, bs)
    ensures LooksGood in advice ==> advice == [LooksGood]
    ensures forall i, j :: 0 <= i < j < |advice| ==> Order(advice[i]) < Order(advice[j])
  {
    var found := Findings(bs);
    FindingsExact(bs);
    if |found| == 0 then [LooksGood]
    else
      assert found[0] in found;
      found
  }

  lemma FindingsExact(bs: Benchmarks)
    ensures var found := Findings(bs);
            && LooksGood !in found
            && (forall a :: a != LooksGood ==> (a in found <==> Due(a, bs)))
            && (forall i, j :: 0 <= i < j < |found| ==> Order(found[i]) < Order(found[j]))
  {
    var r := Read(bs);
    AssembleShape(r.connectivityMs > 100.0, r.fetchingMs > 1000.0, r.scanningMs > 500.0,
                  r.registrationRate < 100.0, r.registrationOps < 2.0,
                  r.peakMemoryMb > 500.0, r.peakMemoryMb);
  }

  function AdviceText(a: Advice, fixed: (real, nat) -> string): string {
    match a
    case SlowConnectivity =>
      "\U{1F517} AutoGen Studio connectivity is slow (>100ms). Check network/server performance."
    case SlowFetching => "\U{1F4E6} Component fetching is slow (>1s). Consider implementing caching."
    case SlowScanning => "\U{1F4C1} File scanning is slow (>500ms). Implement file change detection caching."
    case RegistrationFailures => "⚠️  Agent registration has failures. Check API error handling."
    case SlowRegistration => "\U{1F680} Agent registration is slow (<2 ops/sec). Implement parallel processing."
    case HighMemory(peak) =>
      "\U{1F9E0} High memory usage detected (" + fixed(peak, 1) + "MB). Optimize memory management."
    case LooksGood => "✨ Performance looks good! No specific optimizations needed."
  }

  /** `line` shows `text` under the number `n`, written in decimal digits. */
  ghost predicate NumberedAs(line: string, n: nat, text: string) {
    exists d :: AllDigits(d) && ParseNat(d) == n && line == "   " + d + ". " + text
  }

  /** The numbered lines the recommendations are shown as, counting from 1. */
  function NumberedLines(texts: seq<string>): (lines: seq<string>)
    ensures |lines| == |texts|
    ensures forall i :: 0 <= i < |lines| ==> NumberedAs(lines[i], i + 1, texts[i])
  {
    seq(|texts|, i requires 0 <= i < |texts| => NumberedLine(i + 1, texts[i]))
  }

  function NumberedLine(n: nat, text: string): (line: string)
    ensures NumberedAs(line, n, text)
  {
    ParseNatOfNatToString(n);
    "   " + NatToString(n) + ". " + text
  }
}

=== FILE: calculator.dfy ===
/** The two tools of the tool-using agent example: `calculate`, a restricted arithmetic
    evaluator over Python's expression syntax tree, and `word_count`.

    Parsing is not modelled: `calculate` receives what `ast.parse(expression, mode='eval')`
    produced, either the tree or the text of the `SyntaxError`. Python floats are modelled
    as exact reals, and how they are printed is a parameter. */
module Calculator {
  import opened Wrappers
  import Numeric
  import Text

  /** A number literal's value: Python keeps ints and floats apart. */
  datatype Value = IntV(i: int) | FloatV(r: real)

  /** The binary operators of Python's syntax tree. */
  datatype BinOperator =
    | Add | Sub | Mult | Div | Pow
    | FloorDiv | Mod | MatMult | LShift | RShift | BitOr | BitXor | BitAnd

  /** The unary operators of Python's syntax tree. */
  datatype UnaryOperator = USub | UAdd | Not | Invert

  /** Expression nodes: number literals, operators, and any other node, kept by its kind
      (a name, a call, a string literal, ...). */
  datatype Expr =
    | Num(v: Value)
    | BinOp(op: BinOperator, left: Expr, right: Expr)
    | UnaryOp(uop: UnaryOperator, operand: Expr)
    | Other(kind: string)

  /** What evaluation can raise. `FractionalPower` is not a Python error: a power with a
      non-integral exponent yields a float or complex number this model does not compute. */
  datatype EvalError =
    | KeyError(operatorName: string)
    | ZeroDivision(message: string)
    | NodeTypeError(kind: string)
    | FractionalPower

  /** The operator table holds `+`, `-`, `*`, `/`, `**` and unary minus. */
  predicate SupportedBin(op: BinOperator) {
    op == Add || op == Sub || op == Mult || op == Div || op == Pow
  }

  function BinName(op: BinOperator): string {
    match op
    case Add => "Add"
    case Sub => "Sub"
    case Mult => "Mult"
    case Div => "Div"
    case Pow => "Pow"
    case FloorDiv => "FloorDiv"
    case Mod => "Mod"
    case MatMult => "MatMult"
    case LShift => "LShift"
    case RShift => "RShift"
    case BitOr => "BitOr"
    case BitXor => "BitXor"
    case BitAnd => "BitAnd"
  }

  function UnaryName(op: UnaryOperator): string {
    match op
    case USub => "USub"
    case UAdd => "UAdd"
    case Not => "Not"
    case Invert => "Invert"
  }

  function ToReal(v: Value): real {
    match v
    case IntV(i) => i as real
    case FloatV(r) => r
  }

  predicate IsIntegral(r: real) {
    r.Floor as real == r
  }

  const NegativePowerOfZero: string := "0.0 cannot be raised to a negative power"

  /** `a + b`, `a - b`, `a * b`: int when both operands are ints, float otherwise. */
  function Arith(op: BinOperator, a: Value, b: Value): (r: Value)
    requires op == Add || op == Sub || op == Mult
    ensures r.IntV? <==> a.IntV? && b.IntV?
  {
    if a.IntV? && b.IntV? then
      IntV(if op == Add then a.i + b.i else if op == Sub then a.i - b.i else a.i * b.i)
    else
      var x, y := ToReal(a), ToReal(b);
      FloatV(if op == Add then x + y else if op == Sub then x - y else x * y)
  }

  /** `operator.truediv`: always a float; dividing by zero raises. */
  function TrueDiv(a: Value, b: Value): (r: Result<Value, EvalError>)
    ensures r.Ok? <==> ToReal(b) != 0.0
    ensures r.Ok? ==> r.value.FloatV? && r.value.r * ToReal(b) == ToReal(a)
  {
    if ToReal(b) == 0.0 then
      Err(ZeroDivision(if a.IntV? && b.IntV? then "division by zero" else "float division by zero"))
    else Ok(FloatV(ToReal(a) / ToReal(b)))
  }

  /** `operator.pow`: an int for an int base and a natural int exponent, a float for a
      negative or float exponent; zero to a negative power raises. */
  function PowValue(a: Value, b: Value): (r: Result<Value, EvalError>)
    ensures r.Ok? && r.value.IntV? ==> a.IntV? && b.IntV?
    // an int to a non-negative int power is that exact int, never a float
    ensures a.IntV? && b.IntV? && b.i >= 0 ==> r == Ok(IntV(Numeric.IntPow(a.i, b.i)))
    // any other success is a float
    ensures r.Ok? && !(a.IntV? && b.IntV? && b.i >= 0) ==> r.value.FloatV?
    ensures r == Err(FractionalPower) <==> !IsIntegral(ToReal(b))
  {
    var e := ToReal(b).Floor;
    if !IsIntegral(ToReal(b)) then Err(FractionalPower)
    else if a.IntV? && b.IntV? && e >= 0 then Ok(IntV(Numeric.IntPow(a.i, e)))
    else if e >= 0 then Ok(FloatV(Numeric.Pow(ToReal(a), e)))
    else if ToReal(a) == 0.0 then Err(ZeroDivision(NegativePowerOfZero))
    else
      Numeric.PowNonZero(ToReal(a), -e);
      Ok(FloatV(1.0 / Numeric.Pow(ToReal(a), -e)))
  }

  function Neg(a: Value): (r: Value)
    ensures ToReal(r) == -ToReal(a) && r.IntV? == a.IntV?
  {
    match a
    case IntV(i) => IntV(-i)
    case FloatV(x) => FloatV(-x)
  }

  /** A supported binary operator applied to two values. */
  function ApplyBin(op: BinOperator, a: Value, b: Value): (r: Result<Value, EvalError>)
    requires SupportedBin(op)
    ensures r.Err? ==> r.error.ZeroDivision? || r.error.FractionalPower?
  {
    if op == Div then TrueDiv(a, b)
    else if op == Pow then PowValue(a, b)
    else Ok(Arith(op, a, b))
  }

  /** `eval_expr(node)`. The operator is looked up in the table before the operands are
      evaluated, so an unsupported operator raises `KeyError` even when an operand would
      fail; the left operand is evaluated before the right one. */
  function Eval(e: Expr): (r: Result<Value, EvalError>)
    // a tree of literals, the five table operators and unary minus fails only on a
    // zero divisor or a fractional power
    ensures Supported(e) ==> r.Ok? || r.error.ZeroDivision? || r.error.FractionalPower?
    // any other node anywhere in the tree makes the evaluation fail
    ensures !Supported(e) ==> r.Err?
    decreases e
  {
    match e
    case Num(v) => Ok(v)
    case BinOp(op, l, r) =>
      if !SupportedBin(op) then Err(KeyError(BinName(op)))
      else
        (match Eval(l)
         case Err(err) => Err(err)
         case Ok(a) =>
           match Eval(r)
           case Err(err) => Err(err)
           case Ok(b) => ApplyBin(op, a, b))
    case UnaryOp(op, x) =>
      if op != USub then Err(KeyError(UnaryName(op)))
      else
        (match Eval(x)
         case Err(err) => Err(err)
         case Ok(a) => Ok(Neg(a)))
    case Other(kind) => Err(NodeTypeError(kind))
  }

  /** Every node is a number literal, an operator of the table, or unary minus. */
  predicate Supported(e: Expr)
    decreases e
  {
    match e
    case Num(_) => true
    case BinOp(op, l, r) => SupportedBin(op) && Supported(l) && Supported(r)
    case UnaryOp(op, x) => op == USub && Supported(x)
    case Other(_) => false
  }

  /** A supported binary operator on exact reals; `None` where it is undefined. */
  function RealBin(op: BinOperator, x: real, y: real): Option<real>
    requires SupportedBin(op)
  {
    if op == Add then Some(x + y)
    else if op == Sub then Some(x - y)
    else if op == Mult then Some(x * y)
    else if op == Div then (if y == 0.0 then None else Some(x / y))
    else if !IsIntegral(y) then None
    else if y >= 0.0 then Some(Numeric.Pow(x, y.Floor))
    else if x == 0.0 then None
    else
      Numeric.PowNonZero(x, -y.Floor);
      Some(1.0 / Numeric.Pow(x, -y.Floor))
  }

  lemma ApplyBinAgrees(op: BinOperator, a: Value, b: Value)
    requires SupportedBin(op)
    ensures ApplyBin(op, a, b).Ok? <==> RealBin(op, ToReal(a), ToReal(b)).Some?
    ensures ApplyBin(op, a, b).Ok? ==>
              ToReal(ApplyBin(op, a, b).value) == RealBin(op, ToReal(a), ToReal(b)).value
  {
    if op == Pow && IsIntegral(ToReal(b)) {
      var k := ToReal(b).Floor;
      if a.IntV? && b.IntV? && k >= 0 {
        Numeric.IntPowAsReal(a.i, k);
      }
    }
  }

  /** Reference semantics on exact reals, without Python's int/float distinction:
      `None` wherever evaluation is undefined or outside the table. */
  function Denote(e: Expr): Option<real>
    decreases e
  {
    match e
    case Num(v) => Some(ToReal(v))
    case BinOp(op, l, r) =>
      if !SupportedBin(op) then None
      else
        (match (Denote(l), Denote(r))
         case (Some(x), Some(y)) => RealBin(op, x, y)
         case _ => None)
    case UnaryOp(op, x) =>
      if op != USub then None
      else
        (match Denote(x)
         case Some(v) => Some(-v)
         case None => None)
    case Other(_) => None
  }

  /** Keeping ints and floats apart never changes a value: evaluation succeeds exactly
      when the real-number semantics is defined, and then agrees with it. */
  lemma {:induction false} EvalAgreesWithDenote(e: Expr)
    ensures Eval(e).Ok? <==> Denote(e).Some?
    ensures Eval(e).Ok? ==> ToReal(Eval(e).value) == Denote(e).value
    decreases e
  {
    match e
    case Num(_) =>
    case BinOp(op, l, r) =>
      EvalAgreesWithDenote(l);
      EvalAgreesWithDenote(r);
      if SupportedBin(op) && Eval(l).Ok? && Eval(r).Ok? {
        ApplyBinAgrees(op, Eval(l).value, Eval(r).value);
      }
    case UnaryOp(_, x) =>
      EvalAgreesWithDenote(x);
    case Other(_) =>
  }

  /** Where a float result can come from: a float literal, a division, or a power whose
      exponent is not a non-negative int literal. */
  predicate HasFloatSource(e: Expr)
    decreases e
  {
    match e
    case Num(v) => v.FloatV?
    case BinOp(op, l, r) =>
      op == Div || (op == Pow && !NaturalLiteral(r)) || HasFloatSource(l) || HasFloatSource(r)
    case UnaryOp(_, x) => HasFloatSource(x)
    case Other(_) => false
  }

  /** A non-negative int literal, as in `2 ** 3`. */
  predicate NaturalLiteral(e: Expr) {
    e.Num? && e.v.IntV? && e.v.i >= 0
  }

  /** Integer-only sums, differences, products, negations and powers with a non-negative
      literal exponent stay integers. */
  lemma {:induction false} IntegersStayIntegers(e: Expr)
    requires !HasFloatSource(e) && Eval(e).Ok?
    ensures Eval(e).value.IntV?
    decreases e
  {
    match e
    case Num(_) =>
    case BinOp(_, l, r) =>
      IntegersStayIntegers(l);
      IntegersStayIntegers(r);
    case UnaryOp(_, x) =>
      IntegersStayIntegers(x);
    case Other(_) =>
  }

  /** An unsupported operator at the root is reported whatever its operands hold. */
  lemma UnsupportedOperatorFirst(op: BinOperator, l: Expr, r: Expr)
    requires !SupportedBin(op)
    ensures Eval(BinOp(op, l, r)) == Err(KeyError(BinName(op)))
  {
  }

  /** CPython's default bound on the digits of an int converted to a string. */
  const MaxStrDigits: nat := 4300
  const IntStrLimit: string :=
    "Exceeds the limit (4300 digits) for integer string conversion; "
    + "use sys.set_int_max_str_digits() to increase the limit"

  function Abs(i: int): nat {
    if i < 0 then -i else i
  }

  /** `str(i)` raises `ValueError` when `i` has more than `MaxStrDigits` decimal digits. */
  predicate TooManyDigits(i: int) {
    |Text.NatToString(Abs(i))| > MaxStrDigits
  }

  /** The digit bound is the magnitude bound `10 ** 4300 <= abs(i)`. */
  lemma TooManyDigitsMagnitude(i: int)
    ensures TooManyDigits(i) <==> Numeric.IntPow(10, MaxStrDigits) <= Abs(i)
  {
    NumeralLength(Abs(i), MaxStrDigits);
  }

  /** A numeral has more than `d` digits exactly when its value is at least `10 ** d`. */
  lemma {:induction false} NumeralLength(n: nat, d: nat)
    requires d >= 1
    ensures |Text.NatToString(n)| > d <==> n >= Numeric.IntPow(10, d)
    decreases d
  {
    var m := Numeric.IntPow(10, d - 1);
    assert Numeric.IntPow(10, d) == 10 * m;
    TenPowPositive(d - 1);
    if n >= 10 && d > 1 {
      assert Text.NatToString(n) == Text.NatToString(n / 10) + [Text.DigitChar(n % 10)];
      NumeralLength(n / 10, d - 1);
    }
  }

  lemma {:induction false} TenPowPositive(k: nat)
    ensures Numeric.IntPow(10, k) >= 1
    decreases k
  {
    if k > 0 {
      TenPowPositive(k - 1);
    }
  }

  /** `str(value)` as the f-string calls it: ints in decimal, or the `ValueError` text for
      one too long to convert; floats as `showFloat` prints them. */
  function Show(v: Value, showFloat: real -> string): (r: Result<string, string>)
    ensures r.Err? <==> v.IntV? && TooManyDigits(v.i)
  {
    match v
    case IntV(i) => if TooManyDigits(i) then Err(IntStrLimit) else Ok(Text.IntToString(i))
    case FloatV(r) => Ok(showFloat(r))
  }

  /** `str(exception)`: a `KeyError` shows the missing class, a `TypeError` the node as
      `reprNode` prints it. */
  function Message(err: EvalError, reprNode: string -> string): string {
    match err
    case KeyError(name) => "<class 'ast." + name + "'>"
    case ZeroDivision(m) => m
    case NodeTypeError(kind) => reprNode(kind)
    case FractionalPower => ""
  }

  const ResultPrefix: string := "The result of "
  const ErrorPrefix: string := "Error calculating "

  /** `calculate(expression)`; `None` only where the value is outside the model. */
  function Calculate(expression: string, parsed: Result<Expr, string>,
                     showFloat: real -> string, reprNode: string -> string): (r: Option<string>)
    ensures r.None? <==> parsed.Ok? && Eval(parsed.value) == Err(FractionalPower)
    ensures parsed.Ok? && Eval(parsed.value).Ok? && Show(Eval(parsed.value).value, showFloat).Ok? ==>
              r == Some(ResultPrefix + expression + " is " + Show(Eval(parsed.value).value, showFloat).value)
    // an int result too long to print is reported as the conversion's error
    ensures parsed.Ok? && Eval(parsed.value).Ok? && Eval(parsed.value).value.IntV?
            && TooManyDigits(Eval(parsed.value).value.i) ==>
              r == Some(ErrorPrefix + expression + ": " + IntStrLimit)
    ensures r.Some? && !(parsed.Ok? && Eval(parsed.value).Ok? && Show(Eval(parsed.value).value, showFloat).Ok?) ==>
              Text.IsPrefix(ErrorPrefix + expression + ": ", r.value)
  {
    match parsed
    case Err(syntax) => Some(ErrorPrefix + expression + ": " + syntax)
    case Ok(e) =>
      match Eval(e)
      case Ok(v) =>
        (match Show(v, showFloat)
         case Ok(text) => Some(ResultPrefix + expression + " is " + text)
         case Err(m) => Some(ErrorPrefix + expression + ": " + m))
      case Err(FractionalPower) => None
      case Err(err) => Some(ErrorPrefix + expression + ": " + Message(err, reprNode))
  }

  /** An integer result within the conversion limit is reported in decimal and reads back
      as the value computed. */
  lemma CalculateReportsInteger(expression: string, e: Expr, showFloat: real -> string,
                                reprNode: string -> string)
    requires Eval(e).Ok? && Eval(e).value.IntV? && !TooManyDigits(Eval(e).value.i)
    ensures var r := Calculate(expression, Ok(e), showFloat, reprNode);
            var n := |ResultPrefix + expression + " is "|;
            r.Some? && n <= |r.value| && Text.ParseInt(r.value[n..]) == Eval(e).value.i
  {
    var r := Calculate(expression, Ok(e), showFloat, reprNode).value;
    var head := ResultPrefix + expression + " is ";
    var digits := Show(Eval(e).value, showFloat).value;
    assert r == head + digits;
    assert r[|head|..] == digits;
    Text.ParseIntOfIntToString(Eval(e).value.i);
  }

  const WordsLabel: string := "Word count: "
  const CharsLabel: string := ", Character count: "

  /** `word_count(text)`: the number of whitespace-separated words and of characters. */
  function WordCount(text: string): (r: string)
    ensures r == WordsLabel + Text.NatToString(Text.RunStarts(text, 0, true))
                 + CharsLabel + Text.NatToString(|text|)
  {
    Text.WordsCountsRunStarts(text, 0);
    WordsLabel + Text.NatToString(|Text.Words(text)|) + CharsLabel + Text.NatToString(|text|)
  }
}

=== FILE: code_blocks.dfy ===
/** Fenced code blocks in model replies: `re.findall` of the pattern
    three-backticks, a word-character language tag, a newline, the shortest body, three
    backticks (DOTALL, so the body may span lines), then each match turned into a
    language/code record. */
module CodeBlocks {
  import opened Wrappers
  import Text

  datatype CodeBlock = CodeBlock(language: string, code: string)

  const Fence: string := "```"

  /** `\w` on ASCII text: letters, digits and underscore. */
  predicate IsWordChar(c: char) {
    ('a' <= c <= 'z') || ('A' <= c <= 'Z') || ('0' <= c <= '9') || c == '_'
  }

  predicate AllWord(s: string) {
    forall i :: 0 <= i < |s| ==> IsWordChar(s[i])
  }

  predicate FenceAt(s: string, i: nat) {
    i + |Fence| <= |s| && s[i..i + |Fence|] == Fence
  }

  /** End of the longest run of word characters starting at `i` (the greedy `\w*`). */
  function WordRunEnd(s: string, i: nat): (j: nat)
    requires i <= |s|
    ensures i <= j <= |s|
    ensures forall k :: i <= k < j ==> IsWordChar(s[k])
    ensures j < |s| ==> !IsWordChar(s[j])
    decreases |s| - i
  {
    if i == |s| || !IsWordChar(s[i]) then i else WordRunEnd(s, i + 1)
  }

  /** First fence at or after `i` (the lazy `.*?` followed by the closing fence). */
  function FindFence(s: string, i: nat): (r: Option<nat>)
    requires i <= |s|
    ensures r.Some? ==> i <= r.value && FenceAt(s, r.value)
    ensures r.Some? ==> forall k :: i <= k < r.value ==> !FenceAt(s, k)
    ensures r.None? ==> forall k :: i <= k <= |s| ==> !FenceAt(s, k)
    decreases |s| - i
  {
    if i == |s| then None
    else if FenceAt(s, i) then Some(i)
    else FindFence(s, i + 1)
  }

  /** One regex match: the two groups and the index just past the closing fence. */
  datatype Match = Match(language: string, body: string, end: nat)

  /** The regex tried at the start of `s`. Once `\w*` has taken the longest word run it
      cannot give characters back usefully: a newline is not a word character, so a
      shorter run would be followed by a word character instead of the newline. */
  function MatchAt(s: string): (r: Option<Match>)
    ensures r.Some? ==> |Fence| <= r.value.end <= |s|
  {
    if !FenceAt(s, 0) then None
    else
      var j := WordRunEnd(s, |Fence|);
      if j == |s| || s[j] != '\n' then None
      else
        match FindFence(s, j + 1)
        case None => None
        case Some(e) => Some(Match(s[|Fence|..j], s[j + 1..e], e + |Fence|))
  }

  /** What the pattern demands of a match at the start of `s` with these two groups. */
  predicate Matches(s: string, language: string, body: string) {
    var b := |Fence| + |language| + 1;
    && AllWord(language)
    && b + |body| + |Fence| <= |s|
    && s[..|Fence|] == Fence
    && s[|Fence|..b - 1] == language
    && s[b - 1] == '\n'
    && s[b..b + |body|] == body
    && FenceAt(s, b + |body|)
    && forall k :: b <= k < b + |body| ==> !FenceAt(s, k)
  }

  function MatchLength(language: string, body: string): nat {
    |Fence| + |language| + 1 + |body| + |Fence|
  }

  /** Everything `MatchAt` finds satisfies the pattern. */
  lemma MatchAtSound(s: string)
    requires MatchAt(s).Some?
    ensures var m := MatchAt(s).value;
            Matches(s, m.language, m.body) && m.end == MatchLength(m.language, m.body)
  {
    var m := MatchAt(s).value;
    var j := WordRunEnd(s, |Fence|);
    assert m.language == s[|Fence|..j];
    assert AllWord(m.language) by {
      forall i | 0 <= i < |m.language|
        ensures IsWordChar(m.language[i])
      {
        assert m.language[i] == s[|Fence| + i];
      }
    }
  }

  /** The pattern determines the match: `MatchAt` finds exactly these groups. */
  lemma MatchAtComplete(s: string, language: string, body: string)
    requires Matches(s, language, body)
    ensures MatchAt(s) == Some(Match(language, body, MatchLength(language, body)))
  {
    var b := |Fence| + |language| + 1;
    assert FenceAt(s, 0);
    var j := WordRunEnd(s, |Fence|);
    forall k | |Fence| <= k < b - 1
      ensures IsWordChar(s[k])
    {
      assert s[k] == language[k - |Fence|];
    }
    assert !IsWordChar(s[b - 1]);
    assert j == b - 1;
    var f := FindFence(s, b);
    assert f == Some(b + |body|);
  }

  /** A match as a record: an empty tag becomes "text", the body is stripped. */
  function Block(m: Match): (b: CodeBlock)
    ensures b.language != "" && Text.Stripped(b.code)
  {
    CodeBlock(if m.language == "" then "text" else m.language, Text.Strip(m.body))
  }

  /** `extract_code_blocks(text)`: `re.findall` scans left to right, resuming past a
      match or one character further when there is none. */
  function Extract(text: string): (blocks: seq<CodeBlock>)
    ensures forall i :: 0 <= i < |blocks| ==> blocks[i].language != "" && Text.Stripped(blocks[i].code)
    decreases |text|
  {
    if |text| == 0 then []
    else
      match MatchAt(text)
      case Some(m) => [Block(m)] + Extract(text[m.end..])
      case None => Extract(text[1..])
  }

  lemma ExtractStep(text: string)
    requires MatchAt(text).Some?
    ensures Extract(text) == [Block(MatchAt(text).value)] + Extract(text[MatchAt(text).value.end..])
  {
  }

  /** Text with no fence yields no blocks. */
  lemma {:induction false} NoFenceNoBlocks(text: string)
    requires !Text.Occurs(Fence, text)
    ensures Extract(text) == []
    decreases |text|
  {
    if |text| > 0 {
      assert !FenceAt(text, 0);
      NoFenceNoBlocks(text[1..]);
    }
  }

  /** A block that renders and reads back unchanged: a non-empty word-character tag and
      stripped code without backticks. */
  predicate WellFormed(b: CodeBlock) {
    b.language != "" && AllWord(b.language) && Text.Stripped(b.code)
    && forall i :: 0 <= i < |b.code| ==> b.code[i] != '`'
  }

  function Piece(b: CodeBlock): string {
    Fence + b.language + "\n" + b.code + Fence
  }

  /** The reply text a list of blocks renders to, one fenced block after another. */
  function Render(blocks: seq<CodeBlock>): string
    decreases |blocks|
  {
    if |blocks| == 0 then "" else Piece(blocks[0]) + Render(blocks[1..])
  }

  lemma PieceMatches(b: CodeBlock, rest: string)
    requires WellFormed(b)
    ensures Matches(Piece(b) + rest, b.language, b.code)
    ensures MatchLength(b.language, b.code) == |Piece(b)|
  {
    var s := Piece(b) + rest;
    var o := |Fence| + |b.language| + 1;
    assert s[..|Fence|] == Fence;
    assert s[|Fence|..o - 1] == b.language;
    assert s[o..o + |b.code|] == b.code;
    assert s[o + |b.code|..o + |b.code| + |Fence|] == Fence;
    forall k | o <= k < o + |b.code|
      ensures !FenceAt(s, k)
    {
      assert s[k] == b.code[k - o] != '`';
      if k + |Fence| <= |s| {
        assert s[k..k + |Fence|][0] == s[k];
      }
    }
  }

  /** A rendered block followed by more text is read back as that block. */
  lemma ExtractPiece(b: CodeBlock, rest: string)
    requires WellFormed(b)
    ensures Extract(Piece(b) + rest) == [b] + Extract(rest)
  {
    var s := Piece(b) + rest;
    PieceMatches(b, rest);
    MatchAtComplete(s, b.language, b.code);
    Text.StripOfStripped(b.code);
    var m := MatchAt(s).value;
    assert Block(m) == b;
    assert s[m.end..] == rest;
    ExtractStep(s);
  }

  /** Extracting the blocks from their rendering gives them back. */
  lemma {:induction false} ExtractRender(blocks: seq<CodeBlock>)
    requires forall i :: 0 <= i < |blocks| ==> WellFormed(blocks[i])
    ensures Extract(Render(blocks)) == blocks
    decreases |blocks|
  {
    if |blocks| > 0 {
      ExtractPiece(blocks[0], Render(blocks[1..]));
      ExtractRender(blocks[1..]);
      assert blocks == [blocks[0]] + blocks[1..];
    }
  }
}

=== FILE: conversation.dfy ===
/** `format_conversation_history` (utils/helpers.py): one "ROLE: content" entry per
    message, long contents cut to `max_length` characters, entries separated by a
    blank line. Messages are dicts whose `role` and `content` values are strings. */
module Conversation {
  import Text

  type Message = map<string, string>

  const Marker := "... [truncated]"
  const Separator := "\n\n"
  const DefaultMaxLength := 1000

  /** Content longer than `maxLength` is replaced by its `content[:maxLength]` prefix and the
      truncation marker; anything else is kept as it is. */
  function Truncate(content: string, maxLength: int): (r: string)
    ensures |content| <= maxLength ==> r == content
    ensures 0 <= maxLength < |content| ==> r == content[..maxLength] + Marker && |r| == maxLength + |Marker|
    ensures |content| > maxLength ==>
              |r| >= |Marker| && r[|r| - |Marker|..] == Marker && r[..|r| - |Marker|] == Text.PyPrefix(content, maxLength)
  {
    if |content| > maxLength then Text.PyPrefix(content, maxLength) + Marker else content
  }

  function Role(msg: Message): string {
    if "role" in msg then msg["role"] else "unknown"
  }

  function Content(msg: Message): string {
    if "content" in msg then msg["content"] else ""
  }

  /** One entry: the upper-cased role (default "unknown"), a colon and a space, and the
      possibly truncated content (default ""). */
  function Entry(msg: Message, maxLength: int): string {
    Text.Upper(Role(msg)) + ": " + Truncate(Content(msg), maxLength)
  }

  lemma ConcatShape(a: string, b: string)
    ensures var e := a + (": " + b);
            |e| >= |a| + 2 && e[..|a|] == a && e[|a|..|a| + 2] == ": " && e[|a| + 2..] == b
  {
    var e := a + (": " + b);
    assert e[..|a|] == a;
    assert e[|a|..|a| + 2] == ": ";
    assert e[|a| + 2..] == b;
  }

  /** What an entry is made of, read back from its text. */
  lemma EntryShape(msg: Message, maxLength: int)
    ensures var e := Entry(msg, maxLength);
            var role := Role(msg);
            |e| >= |role| + 2 && e[..|role|] == Text.Upper(role) && e[|role|..|role| + 2] == ": "
            && e[|role| + 2..] == Truncate(Content(msg), maxLength)
  {
    ConcatShape(Text.Upper(Role(msg)), Truncate(Content(msg), maxLength));
  }

  /** A message without a role is rendered as "UNKNOWN"; one without content gets an
      empty content (unless a negative `maxLength` truncates even the empty string). */
  lemma EntryDefaults(msg: Message, maxLength: int)
    ensures "role" !in msg ==> Entry(msg, maxLength)[..9] == "UNKNOWN: "
    ensures "content" !in msg && maxLength >= 0 ==> Entry(msg, maxLength) == Text.Upper(Role(msg)) + ": "
  {
    if "role" !in msg {
      assert Text.Upper("unknown") == "UNKNOWN";
    }
  }

  function Entries(messages: seq<Message>, maxLength: int): (es: seq<string>)
    ensures |es| == |messages|
    ensures forall i :: 0 <= i < |messages| ==> es[i] == Entry(messages[i], maxLength)
  {
    seq(|messages|, i requires 0 <= i < |messages| => Entry(messages[i], maxLength))
  }

  /** `format_conversation_history(messages, max_length)`: the history is empty exactly
      when there are no messages, and otherwise opens with the first message's entry. */
  function FormatHistory(messages: seq<Message>, maxLength: int := DefaultMaxLength): (h: string)
    ensures h == "" <==> |messages| == 0
    ensures |messages| > 0 ==>
              |Entry(messages[0], maxLength)| <= |h| && h[..|Entry(messages[0], maxLength)|] == Entry(messages[0], maxLength)
  {
    var es := Entries(messages, maxLength);
    if |es| == 0 then ""
    else
      Text.JoinContainsPart(es, Separator, 0);
      EntryShape(messages[0], maxLength);
      Text.Join(es, Separator)
  }

  /** The formatted history holds each message's entry (`Entries(..)[i]` is the entry of
      message `i`), in input order, at the position where the entries before it and their
      separators end. */
  lemma EntryAppearsInOrder(messages: seq<Message>, maxLength: int, i: nat)
    requires i < |messages|
    ensures var es := Entries(messages, maxLength);
            var o := Text.JoinOffset(es, Separator, i);
            o + |es[i]| <= |FormatHistory(messages, maxLength)| && FormatHistory(messages, maxLength)[o..o + |es[i]|] == es[i]
  {
    Text.JoinContainsPart(Entries(messages, maxLength), Separator, i);
  }

  /** Consecutive entries are separated by a blank line. */
  lemma BlankLineAfterEntry(messages: seq<Message>, maxLength: int, i: nat)
    requires i + 1 < |messages|
    ensures var es := Entries(messages, maxLength);
            var end := Text.JoinOffset(es, Separator, i) + |es[i]|;
            end + |Separator| <= |FormatHistory(messages, maxLength)|
            && FormatHistory(messages, maxLength)[end..end + |Separator|] == Separator
  {
    Text.JoinSeparatesParts(Entries(messages, maxLength), Separator, i);
  }

  /** The length of the formatted history: all entries plus one blank line between each pair. */
  lemma FormattedLength(messages: seq<Message>, maxLength: int)
    requires |messages| > 0
    ensures |FormatHistory(messages, maxLength)| == Text.SumLengths(Entries(messages, maxLength)) + 2 * (|messages| - 1)
  {
    Text.JoinLength(Entries(messages, maxLength), Separator);
  }

  /** No message gives an empty history, a single message gives exactly its entry. */
  lemma ShortHistories(messages: seq<Message>, maxLength: int)
    ensures |messages| == 0 ==> FormatHistory(messages, maxLength) == ""
    ensures |messages| == 1 ==> FormatHistory(messages, maxLength) == Entry(messages[0], maxLength)
  {
  }
}

=== FILE: dashboard.dfy ===
/** The monitoring rules of the sync dashboard (studio/sync_monitor_dashboard.py): the
    bounded metric histories, the alert thresholds and log, the three-level status
    indicator and the uptime clock.

    Measurements themselves (psutil, the Studio health probe, the clock) are inputs. The
    alert texts embed numbers formatted with `:.1f` and `:.0f`; that float formatting is
    the parameter `fixed(value, decimals)`. */
module Dashboard {
  import opened Wrappers
  import opened Text

  // ---------------------------------------------------------------------------
  // Bounded histories

  datatype SystemMetrics = SystemMetrics(
    timestamp: real,
    cpuPercent: real,
    memoryPercent: real,
    memoryMb: real,
    diskUsagePercent: real,
    networkIo: map<string, int>)

  datatype StudioMetrics = StudioMetrics(
    timestamp: real,
    apiResponseTimeMs: real,
    apiAvailable: bool,
    modelsCount: int,
    agentsCount: int,
    teamsCount: int,
    lastSyncTime: Option<real>,
    syncSuccessRate: real)

  /** `MetricsCollector.max_history`. */
  const MaxHistory: nat := 100

  /** The last `n` elements of `xs` (all of them when there are fewer). */
  function KeepLast<T>(xs: seq<T>, n: nat): (r: seq<T>)
    ensures |r| == if |xs| < n then |xs| else n
    ensures r == xs[|xs| - |r|..]
  {
    if |xs| > n then xs[|xs| - n..] else xs
  }

  /** Append, then drop the single oldest entry when the history is over its limit. */
  function Push<T>(history: seq<T>, x: T, max: nat): (h: seq<T>)
    ensures |history| <= max ==> h == KeepLast(history + [x], max)
    ensures |h| == if |history| + 1 > max then |history| else |history| + 1
    ensures |h| > 0 ==> h[|h| - 1] == x
  {
    var h := history + [x];
    if |h| > max then h[1..] else h
  }

  /** Pushing a sequence of arrivals one by one. */
  function PushAll<T>(history: seq<T>, xs: seq<T>, max: nat): seq<T>
    decreases |xs|
  {
    if |xs| == 0 then history else Push(PushAll(history, xs[..|xs| - 1], max), xs[|xs| - 1], max)
  }

  /** However many measurements arrive, a history within its limit holds exactly the
      newest `max` of everything seen, oldest first. */
  lemma {:induction false} PushAllKeepsNewest<T>(history: seq<T>, xs: seq<T>, max: nat)
    requires |history| <= max
    ensures PushAll(history, xs, max) == KeepLast(history + xs, max)
    decreases |xs|
  {
    if |xs| > 0 {
      var init, x := xs[..|xs| - 1], xs[|xs| - 1];
      assert xs == init + [x];
      assert history + xs == (history + init) + [x];
      var kept := PushAll(history, init, max);
      assert PushAll(history, xs, max) == Push(kept, x, max);
      PushAllKeepsNewest(history, init, max);
      PushOntoKept(history + init, x, max);
    }
  }

  /** Pushing onto the newest `max` of what was seen keeps the newest `max` of it all. */
  lemma PushOntoKept<T>(seen: seq<T>, x: T, max: nat)
    ensures Push(KeepLast(seen, max), x, max) == KeepLast(seen + [x], max)
  {
    KeepLastStep(seen, x, max);
  }

  lemma KeepLastStep<T>(xs: seq<T>, x: T, max: nat)
    ensures KeepLast(KeepLast(xs, max) + [x], max) == KeepLast(xs + [x], max)
  {
    var k := KeepLast(xs, max);
    var a, b := KeepLast(k + [x], max), KeepLast(xs + [x], max);
    assert |a| == |b|;
    forall i | 0 <= i < |a|
      ensures a[i] == b[i]
    {
      if i < |a| - 1 {
        assert a[i] == k[|k| + 1 - |a| + i] == xs[|xs| + 1 - |a| + i];
      }
    }
  }

  datatype Collector = Collector(system: seq<SystemMetrics>, studio: seq<StudioMetrics>)

  /** `add_system_metrics(metrics)`: the Studio history is untouched. */
  function AddSystemMetrics(c: Collector, m: SystemMetrics): (r: Collector)
    ensures r.studio == c.studio
    ensures |c.system| <= MaxHistory ==> |r.system| <= MaxHistory && r.system == KeepLast(c.system + [m], MaxHistory)
    ensures |r.system| > 0 && r.system[|r.system| - 1] == m
  {
    c.(system := Push(c.system, m, MaxHistory))
  }

  /** `add_studio_metrics(metrics)`: the system history is untouched. */
  function AddStudioMetrics(c: Collector, m: StudioMetrics): (r: Collector)
    ensures r.system == c.system
    ensures |c.studio| <= MaxHistory ==> |r.studio| <= MaxHistory && r.studio == KeepLast(c.studio + [m], MaxHistory)
    ensures |r.studio| > 0 && r.studio[|r.studio| - 1] == m
  {
    c.(studio := Push(c.studio, m, MaxHistory))
  }

  // ---------------------------------------------------------------------------
  // Alerts

  datatype AlertKind = CpuHigh | MemoryHigh | DiskHigh | ApiDown | ApiTimeout | ApiSlow
  datatype Level = Warning | Critical

  datatype Alert = Alert(kind: AlertKind, level: Level, message: string, timestamp: real)

  /** The default `AlertManager.thresholds`. */
  const CpuHighPercent: real := 80.0
  const MemoryHighPercent: real := 85.0
  const DiskHighPercent: real := 90.0
  const ApiSlowMs: real := 1000.0
  const ApiTimeoutMs: real := 5000.0

  /** `check_alerts` keeps the last 50 alerts. */
  const AlertLogCap: nat := 50

  function KindName(k: AlertKind): string {
    match k
    case CpuHigh => "CPU_HIGH"
    case MemoryHigh => "MEMORY_HIGH"
    case DiskHigh => "DISK_HIGH"
    case ApiDown => "API_DOWN"
    case ApiTimeout => "API_TIMEOUT"
    case ApiSlow => "API_SLOW"
  }

  /** Resource pressure and a slow API warn; a full disk, a down API or a timeout is critical. */
  function LevelOf(k: AlertKind): Level {
    if k in {DiskHigh, ApiDown, ApiTimeout} then Critical else Warning
  }

  /** The order in which `check_alerts` tests the conditions. */
  function Rank(k: AlertKind): nat {
    match k
    case CpuHigh => 0
    case MemoryHigh => 1
    case DiskHigh => 2
    case ApiDown => 3
    case ApiTimeout => 4
    case ApiSlow => 5
  }

  predicate IsApiKind(k: AlertKind) {
    Rank(k) >= 3
  }

  /** When each alert is due, stated condition by condition: strict thresholds, and the
      API conditions exclusive with "down" first, then "timeout", then "slow". */
  predicate Fires(k: AlertKind, sys: SystemMetrics, studio: StudioMetrics) {
    match k
    case CpuHigh => sys.cpuPercent > CpuHighPercent
    case MemoryHigh => sys.memoryPercent > MemoryHighPercent
    case DiskHigh => sys.diskUsagePercent > DiskHighPercent
    case ApiDown => !studio.apiAvailable
    case ApiTimeout => studio.apiAvailable && studio.apiResponseTimeMs > ApiTimeoutMs
    case ApiSlow => studio.apiAvailable && ApiSlowMs < studio.apiResponseTimeMs <= ApiTimeoutMs
  }

  function SystemAlerts(sys: SystemMetrics, fixed: (real, nat) -> string): seq<Alert> {
    (if sys.cpuPercent > CpuHighPercent
     then [Alert(CpuHigh, Warning, "High CPU usage: " + fixed(sys.cpuPercent, 1) + "%", sys.timestamp)]
     else [])
    + (if sys.memoryPercent > MemoryHighPercent
       then [Alert(MemoryHigh, Warning, "High memory usage: " + fixed(sys.memoryPercent, 1) + "%", sys.timestamp)]
       else [])
    + (if sys.diskUsagePercent > DiskHighPercent
       then [Alert(DiskHigh, Critical, "High disk usage: " + fixed(sys.diskUsagePercent, 1) + "%", sys.timestamp)]
       else [])
  }

  function ApiAlerts(studio: StudioMetrics, fixed: (real, nat) -> string): seq<Alert> {
    if !studio.apiAvailable then
      [Alert(ApiDown, Critical, "AutoGen Studio API is not available", studio.timestamp)]
    else if studio.apiResponseTimeMs > ApiTimeoutMs then
      [Alert(ApiTimeout, Critical, "API timeout: " + fixed(studio.apiResponseTimeMs, 0) + "ms", studio.timestamp)]
    else if studio.apiResponseTimeMs > ApiSlowMs then
      [Alert(ApiSlow, Warning, "Slow API response: " + fixed(studio.apiResponseTimeMs, 0) + "ms", studio.timestamp)]
    else []
  }

  predicate Raised(alerts: seq<Alert>, k: AlertKind) {
    exists i :: 0 <= i < |alerts| && alerts[i].kind == k
  }

  /** What one check returns, and the alert log after it. */
  datatype AlertCheck = AlertCheck(alerts: seq<Alert>, log: seq<Alert>)

  /** The resource alerts: each due, at its level, in test order, and one for every
      resource condition that holds. */
  lemma SystemAlertsFacts(sys: SystemMetrics, studio: StudioMetrics, fixed: (real, nat) -> string)
    ensures var s := SystemAlerts(sys, fixed);
            && (forall i :: 0 <= i < |s| ==>
                  Fires(s[i].kind, sys, studio) && s[i].level == LevelOf(s[i].kind) && !IsApiKind(s[i].kind))
            && (forall i, j :: 0 <= i < j < |s| ==> Rank(s[i].kind) < Rank(s[j].kind))
            && (forall k :: !IsApiKind(k) && Fires(k, sys, studio) ==> Raised(s, k))
  {
    var s := SystemAlerts(sys, fixed);
    var cpu := if sys.cpuPercent > CpuHighPercent then 1 else 0;
    var mem := if sys.memoryPercent > MemoryHighPercent then 1 else 0;
    forall k | !IsApiKind(k) && Fires(k, sys, studio)
      ensures Raised(s, k)
    {
      if k == CpuHigh {
        assert s[0].kind == k;
      } else if k == MemoryHigh {
        assert s[cpu].kind == k;
      } else {
        assert s[cpu + mem].kind == k;
      }
    }
  }

  /** The API alert: at most one, due, at its level, and present whenever an API
      condition holds. */
  lemma ApiAlertsFacts(sys: SystemMetrics, studio: StudioMetrics, fixed: (real, nat) -> string)
    ensures var a := ApiAlerts(studio, fixed);
            && |a| <= 1
            && (forall i :: 0 <= i < |a| ==>
                  Fires(a[i].kind, sys, studio) && a[i].level == LevelOf(a[i].kind) && IsApiKind(a[i].kind))
            && (forall k :: IsApiKind(k) && Fires(k, sys, studio) ==> Raised(a, k))
  {
    var a := ApiAlerts(studio, fixed);
    forall k | IsApiKind(k) && Fires(k, sys, studio)
      ensures Raised(a, k)
    {
      assert a[0].kind == k;
    }
  }

  /** The alerts of one check are exactly the due ones, at their levels, in test order. */
  lemma AlertKinds(sys: SystemMetrics, studio: StudioMetrics, fixed: (real, nat) -> string)
    ensures var alerts := SystemAlerts(sys, fixed) + ApiAlerts(studio, fixed);
            && (forall k :: Raised(alerts, k) <==> Fires(k, sys, studio))
            && (forall i :: 0 <= i < |alerts| ==> Fires(alerts[i].kind, sys, studio))
            && (forall i :: 0 <= i < |alerts| ==> alerts[i].level == LevelOf(alerts[i].kind))
            && (forall i, j :: 0 <= i < j < |alerts| ==> Rank(alerts[i].kind) < Rank(alerts[j].kind))
  {
    var s, a := SystemAlerts(sys, fixed), ApiAlerts(studio, fixed);
    SystemAlertsFacts(sys, studio, fixed);
    ApiAlertsFacts(sys, studio, fixed);
    var alerts := s + a;
    assert forall i :: 0 <= i < |s| ==> alerts[i] == s[i];
    assert forall i :: |s| <= i < |alerts| ==> alerts[i] == a[i - |s|];
    forall k | Fires(k, sys, studio)
      ensures Raised(alerts, k)
    {
      if IsApiKind(k) {
        var i :| 0 <= i < |a| && a[i].kind == k;
        assert alerts[|s| + i].kind == k;
      } else {
        var i :| 0 <= i < |s| && s[i].kind == k;
        assert alerts[i].kind == k;
      }
    }
  }

  /** `check_alerts(system_metrics, studio_metrics)`: the new alerts in test order, each at
      its kind's level; the log gains them at its end and is trimmed to the last 50. */
  function CheckAlerts(log: seq<Alert>, sys: SystemMetrics, studio: StudioMetrics,
                       fixed: (real, nat) -> string): (r: AlertCheck)
    ensures forall k :: Raised(r.alerts, k) <==> Fires(k, sys, studio)
    ensures forall i :: 0 <= i < |r.alerts| ==> Fires(r.alerts[i].kind, sys, studio)
    ensures forall i :: 0 <= i < |r.alerts| ==> r.alerts[i].level == LevelOf(r.alerts[i].kind)
    ensures forall i, j :: 0 <= i < j < |r.alerts| ==> Rank(r.alerts[i].kind) < Rank(r.alerts[j].kind)
    ensures r.log == KeepLast(log + r.alerts, AlertLogCap)
    ensures |r.alerts| <= |r.log| <= AlertLogCap
    ensures r.log[|r.log| - |r.alerts|..] == r.alerts
  {
    var alerts := SystemAlerts(sys, fixed) + ApiAlerts(studio, fixed);
    var all := log + alerts;
    var kept := if |all| > AlertLogCap then all[|all| - AlertLogCap..] else all;
    assert |alerts| <= 4;
    assert kept[|kept| - |alerts|..] == alerts;
    AlertKinds(sys, studio, fixed);
    AlertCheck(alerts, kept)
  }

  /** A check raises at most one API alert. */
  lemma AtMostOneApiAlert(log: seq<Alert>, sys: SystemMetrics, studio: StudioMetrics,
                          fixed: (real, nat) -> string)
    ensures var alerts := CheckAlerts(log, sys, studio, fixed).alerts;
            forall i, j ::
              (0 <= i < |alerts| && 0 <= j < |alerts| && IsApiKind(alerts[i].kind) && IsApiKind(alerts[j].kind))
              ==> i == j
  {
    var alerts := CheckAlerts(log, sys, studio, fixed).alerts;
    forall i, j | 0 <= i < |alerts| && 0 <= j < |alerts| && IsApiKind(alerts[i].kind) && IsApiKind(alerts[j].kind)
      ensures i == j
    {
      ApiConditionsExclusive(alerts[i].kind, alerts[j].kind, sys, studio);
      assert alerts[i].kind == alerts[j].kind;
    }
  }

  lemma ApiConditionsExclusive(k1: AlertKind, k2: AlertKind, sys: SystemMetrics, studio: StudioMetrics)
    ensures IsApiKind(k1) && IsApiKind(k2) && Fires(k1, sys, studio) && Fires(k2, sys, studio) ==> k1 == k2
  {
  }

  /** Quiet measurements raise nothing and leave a log within its cap unchanged. */
  lemma QuietCheckKeepsLog(log: seq<Alert>, sys: SystemMetrics, studio: StudioMetrics,
                           fixed: (real, nat) -> string)
    requires |log| <= AlertLogCap
    requires forall k :: !Fires(k, sys, studio)
    ensures CheckAlerts(log, sys, studio, fixed) == AlertCheck([], log)
  {
    assert !Fires(CpuHigh, sys, studio) && !Fires(MemoryHigh, sys, studio) && !Fires(DiskHigh, sys, studio);
    assert !Fires(ApiDown, sys, studio) && !Fires(ApiTimeout, sys, studio) && !Fires(ApiSlow, sys, studio);
    assert SystemAlerts(sys, fixed) + ApiAlerts(studio, fixed) == [];
    assert log + [] == log;
  }

  // ---------------------------------------------------------------------------
  // Status indicator

  datatype Indicator = Green | Yellow | Red

  function Glyph(i: Indicator): string {
    match i
    case Red => "\U{1F534}"
    case Yellow => "\U{1F7E1}"
    case Green => "\U{1F7E2}"
  }

  function Severity(i: Indicator): nat {
    match i
    case Green => 0
    case Yellow => 1
    case Red => 2
  }

  /** `get_status_indicator(value, warning_threshold, critical_threshold)`. */
  function StatusIndicator(value: real, warning: real, critical: real): (ind: Indicator)
    ensures ind == Red <==> value >= critical
    ensures ind == Yellow <==> warning <= value < critical
    ensures ind == Green <==> value < warning && value < critical
  {
    if value >= critical then Red else if value >= warning then Yellow else Green
  }

  /** With ordered thresholds, a larger value never shows a milder status. */
  lemma StatusMonotone(v1: real, v2: real, warning: real, critical: real)
    requires warning <= critical && v1 <= v2
    ensures Severity(StatusIndicator(v1, warning, critical)) <= Severity(StatusIndicator(v2, warning, critical))
  {
  }

  /** Raising the thresholds never makes a value's status more severe. */
  lemma StatusAntitoneInThresholds(v: real, w1: real, c1: real, w2: real, c2: real)
    requires w1 <= w2 && c1 <= c2
    ensures Severity(StatusIndicator(v, w2, c2)) <= Severity(StatusIndicator(v, w1, c1))
  {
  }

  // ---------------------------------------------------------------------------
  // Uptime

  datatype Clock = Clock(hours: int, minutes: int, seconds: int)

  /** `uptime // 3600`, `(uptime % 3600) // 60` and `uptime % 60`, each truncated by `int`,
      with Python's floored float division and modulo. */
  function UptimeParts(uptime: real): (c: Clock)
    ensures 0 <= c.minutes < 60 && 0 <= c.seconds < 60
    ensures c.hours * 3600 + c.minutes * 60 + c.seconds == uptime.Floor
  {
    var h := (uptime / 3600.0).Floor;
    var rest := uptime - 3600.0 * h as real;
    var m := (rest / 60.0).Floor;
    var s := (uptime - 60.0 * (uptime / 60.0).Floor as real).Floor;
    UptimeArithmetic(uptime, h, m, s);
    Clock(h, m, s)
  }

  lemma UptimeArithmetic(u: real, h: int, m: int, s: int)
    requires h == (u / 3600.0).Floor
    requires m == ((u - 3600.0 * h as real) / 60.0).Floor
    requires s == (u - 60.0 * (u / 60.0).Floor as real).Floor
    ensures 0 <= m < 60 && 0 <= s < 60
    ensures h * 3600 + m * 60 + s == u.Floor
  {
    var t := u.Floor;
    var q := (u / 60.0).Floor;
    assert 60.0 * q as real <= u < 60.0 * q as real + 60.0;
    assert 3600.0 * h as real <= u < 3600.0 * h as real + 3600.0;
    assert 60.0 * m as real <= u - 3600.0 * h as real < 60.0 * m as real + 60.0;
    assert q == 60 * h + m by {
      assert 60.0 * (60 * h + m) as real <= u < 60.0 * (60 * h + m) as real + 60.0;
      FloorUnique(u / 60.0, 60 * h + m);
    }
    assert s == t - 60 * q by {
      assert (t - 60 * q) as real <= u - 60.0 * q as real < (t - 60 * q) as real + 1.0;
      FloorUnique(u - 60.0 * q as real, t - 60 * q);
    }
  }

  lemma FloorUnique(x: real, k: int)
    requires k as real <= x < k as real + 1.0
    ensures x.Floor == k
  {
  }

  /** `format_uptime()`: `HH:MM:SS`, each part zero-padded to two digits. */
  function FormatUptime(uptime: real): (r: string)
    ensures |r| >= 8 && r[|r| - 6] == ':' && r[|r| - 3] == ':'
  {
    var c := UptimeParts(uptime);
    TwoDigits(c.minutes);
    TwoDigits(c.seconds);
    Pad2(c.hours) + ":" + Pad2(c.minutes) + ":" + Pad2(c.seconds)
  }

  lemma TwoDigits(i: int)
    requires 0 <= i < 100
    ensures |Pad2(i)| == 2
  {
  }

  /** Reads `H:MM:SS` back to a number of seconds. */
  function ReadClock(s: string): Option<int> {
    if |s| < 8 || s[|s| - 6] != ':' || s[|s| - 3] != ':' then None
    else
      var hs, ms, ss := s[..|s| - 6], s[|s| - 5..|s| - 3], s[|s| - 2..];
      if AllDigits(hs) && AllDigits(ms) && AllDigits(ss)
      then Some(ParseNat(hs) * 3600 + ParseNat(ms) * 60 + ParseNat(ss))
      else None
  }

  /** The uptime shown reads back as the whole seconds elapsed. */
  lemma UptimeReadsBack(uptime: real)
    requires uptime >= 0.0
    ensures ReadClock(FormatUptime(uptime)) == Some(uptime.Floor)
  {
    var c := UptimeParts(uptime);
    assert c.hours >= 0;
    TwoDigits(c.minutes);
    TwoDigits(c.seconds);
    Pad2ReadsBack(c.hours);
    Pad2ReadsBack(c.minutes);
    Pad2ReadsBack(c.seconds);
    var hs, ms, ss := Pad2(c.hours), Pad2(c.minutes), Pad2(c.seconds);
    var r := FormatUptime(uptime);
    assert r == hs + ":" + ms + ":" + ss;
    assert r[..|r| - 6] == hs;
    assert r[|r| - 5..|r| - 3] == ms;
    assert r[|r| - 2..] == ss;
  }
}

=== FILE: json.dfy ===
/** JSON-shaped Python values, as the scripts receive them from `json.loads`, HTTP
    responses and Lambda events, with the few Python operations the scripts apply to
    them: truthiness, `key in value`, `dict.get(key, default)` and `str(value)`. */
module Json {
  import opened Wrappers
  import Text

  datatype Json =
    | JNull
    | JBool(b: bool)
    | JInt(i: int)
    | JFloat(r: real)
    | JStr(s: string)
    | JList(items: seq<Json>)
    | JObj(fields: map<string, Json>)

  type Dict = map<string, Json>

  /** Python truthiness (`if value:`, `not value`, `x or y`). */
  predicate Truthy(j: Json) {
    match j
    case JNull => false
    case JBool(b) => b
    case JInt(i) => i != 0
    case JFloat(r) => r != 0.0
    case JStr(s) => s != ""
    case JList(xs) => xs != []
    case JObj(m) => m != map[]
  }

  /** The exceptions the modelled scripts can raise while handling JSON values. */
  datatype PyError =
    | TypeError(message: string)
    | KeyError(key: string)
    | AttributeError(message: string)
    | ValueError(message: string)

  /** `str(e)` for one of these exceptions; a `KeyError` shows its key quoted. */
  function ErrorText(e: PyError): string {
    match e
    case TypeError(m) => m
    case KeyError(k) => "'" + k + "'"
    case AttributeError(m) => m
    case ValueError(m) => m
  }

  /** Python's type name, as it appears in `TypeError`/`AttributeError` messages. */
  function TypeName(j: Json): string {
    match j
    case JNull => "NoneType"
    case JBool(_) => "bool"
    case JInt(_) => "int"
    case JFloat(_) => "float"
    case JStr(_) => "str"
    case JList(_) => "list"
    case JObj(_) => "dict"
  }

  /** Python's `key in container` for a string key: key lookup for a dict, element
      membership for a list, substring test for a str, and `TypeError` otherwise. */
  function Contains(container: Json, key: string): (r: Result<bool, PyError>)
    ensures container.JObj? ==> r == Ok(key in container.fields)
    ensures container.JList? ==> r == Ok(JStr(key) in container.items)
    ensures container.JStr? ==> r == Ok(Text.Occurs(key, container.s))
    ensures r.Err? <==> !(container.JObj? || container.JList? || container.JStr?)
  {
    match container
    case JObj(m) => Ok(key in m)
    case JList(xs) => Ok(JStr(key) in xs)
    case JStr(s) => Ok(Text.Occurs(key, s))
    case _ => Err(TypeError("argument of type '" + TypeName(container) + "' is not iterable"))
  }

  /** Python's `d.get(key, default)` on a dict. */
  function Get(d: Dict, key: string, default: Json): (r: Json)
    ensures key in d ==> r == d[key]
    ensures key !in d ==> r == default
  {
    if key in d then d[key] else default
  }

  /** Python's `value.get(key, default)` where `value` may not be a dict: anything
      else has no `get` attribute. */
  function GetAttr(value: Json, key: string, default: Json): (r: Result<Json, PyError>)
    ensures r.Ok? <==> value.JObj?
    ensures value.JObj? ==> r == Ok(Get(value.fields, key, default))
  {
    match value
    case JObj(m) => Ok(Get(m, key, default))
    case _ => Err(AttributeError("'" + TypeName(value) + "' object has no attribute 'get'"))
  }

  /** Python's `d[key]`. */
  function Index(d: Dict, key: string): (r: Result<Json, PyError>)
    ensures r.Ok? <==> key in d
    ensures key in d ==> r.value == d[key]
    ensures key !in d ==> r == Err(KeyError(key))
  {
    if key in d then Ok(d[key]) else Err(KeyError(key))
  }

  /** Python's `value[key]` for a string key on any JSON value: a dict looks the key
      up, a str or list rejects a string index, the scalars are not subscriptable. */
  function Subscript(value: Json, key: string): (r: Result<Json, PyError>)
    ensures r.Ok? <==> value.JObj? && key in value.fields
    ensures value.JObj? ==> r == Index(value.fields, key)
  {
    match value
    case JObj(m) => Index(m, key)
    case JStr(_) => Err(TypeError("string indices must be integers, not 'str'"))
    case JList(_) => Err(TypeError("list indices must be integers or slices, not str"))
    case _ => Err(TypeError("'" + TypeName(value) + "' object is not subscriptable"))
  }

  /** Python's `str(value)` (also what an f-string inserts) for strings, `None`, booleans
      and ints. Floats, lists and dicts are rendered by `str(float)`/`repr`, which this
      model does not reproduce: they render as the type name in angle brackets. */
  function Str(j: Json): string {
    match j
    case JStr(s) => s
    case JNull => "None"
    case JBool(b) => if b then "True" else "False"
    case JInt(i) => Text.IntToString(i)
    case _ => "<" + TypeName(j) + ">"
  }

  /** `hash(value)` succeeds for the immutable JSON values; lists and dicts are unhashable. */
  predicate Hashable(j: Json) {
    !(j.JList? || j.JObj?)
  }

  function UnhashableError(j: Json): PyError {
    TypeError("unhashable type: '" + TypeName(j) + "'")
  }
}

=== FILE: lambda_handler.dfy ===
/** The AWS Lambda entry point of aws_deployment/lambda_autogen.py: building the model
    client from the deployment's configuration, running one agent or the research
    pipeline, and turning the outcome into an HTTP-style response.

    AWS is abstract: the environment is a map, the parameter store and the secrets store
    are functions returning the value or the text of the exception they raise (a secret
    is already decoded from JSON). An agent's model call is the parameter `respond`:
    the reply to one message, or the text of the exception it raised. An exception that
    escapes a workflow is `Err(text)`. Response bodies are kept as JSON values;
    `json.dumps` is not modelled. */
module Lambda {
  import opened Wrappers
  import opened Json
  import ModelConfig

  const WrapperUrlVariable: string := "CLAUDE_WRAPPER_URL"
  const WrapperUrlParameter: string := "/autogen/claude-wrapper-url"
  const AuthSecretVariable: string := "CLAUDE_AUTH_SECRET"
  const DefaultAuthSecret: string := "/autogen/claude-auth"
  const MissingConfiguration: string := "Missing required configuration"
  const Temperature: real := 0.7

  datatype Deployment = Deployment(
    env: map<string, string>,
    parameter: string -> Result<string, string>,
    secret: string -> Result<Json, string>)

  datatype LambdaClient = LambdaClient(
    model: string, apiKey: Json, baseUrl: string, temperature: real, info: ModelConfig.ModelInfo)

  /** `os.environ.get('CLAUDE_WRAPPER_URL') or get_parameter(...)`: a non-empty variable
      wins, otherwise the parameter store is asked. */
  function WrapperUrl(d: Deployment): (r: Result<string, string>)
    ensures WrapperUrlVariable in d.env && d.env[WrapperUrlVariable] != "" ==> r == Ok(d.env[WrapperUrlVariable])
    ensures !(WrapperUrlVariable in d.env && d.env[WrapperUrlVariable] != "") ==> r == d.parameter(WrapperUrlParameter)
  {
    if WrapperUrlVariable in d.env && d.env[WrapperUrlVariable] != "" then Ok(d.env[WrapperUrlVariable])
    else d.parameter(WrapperUrlParameter)
  }

  /** The secret's name: the environment's choice (even an empty one), else the default. */
  function AuthSecretName(d: Deployment): string {
    if AuthSecretVariable in d.env then d.env[AuthSecretVariable] else DefaultAuthSecret
  }

  /** `get_secret(secret_name).get('token')`; a secret that is not a JSON object has no
      `get`. */
  function AuthToken(d: Deployment): (r: Result<Json, string>)
    ensures d.secret(AuthSecretName(d)).Err? ==> r == Err(d.secret(AuthSecretName(d)).error)
    ensures d.secret(AuthSecretName(d)).Ok? ==>
              (r.Ok? <==> d.secret(AuthSecretName(d)).value.JObj?)
    ensures r.Ok? ==> r.value == Get(d.secret(AuthSecretName(d)).value.fields, "token", JNull)
  {
    match d.secret(AuthSecretName(d))
    case Err(e) => Err(e)
    case Ok(auth) =>
      match GetAttr(auth, "token", JNull)
      case Err(e) => Err(ErrorText(e))
      case Ok(token) => Ok(token)
  }

  /** `get_model_client()`: the URL is resolved first and the secret second, so their
      exceptions take precedence over the check that both are present. */
  function GetModelClient(d: Deployment): (r: Result<LambdaClient, string>)
    ensures WrapperUrl(d).Err? ==> r == Err(WrapperUrl(d).error)
    ensures WrapperUrl(d).Ok? && AuthToken(d).Err? ==> r == Err(AuthToken(d).error)
    ensures WrapperUrl(d).Ok? && AuthToken(d).Ok? ==>
              (r.Ok? <==> WrapperUrl(d).value != "" && Truthy(AuthToken(d).value))
    ensures WrapperUrl(d).Ok? && AuthToken(d).Ok? && r.Err? ==> r.error == MissingConfiguration
    ensures r.Ok? ==>
              && r.value.baseUrl == WrapperUrl(d).value + "/v1"
              && r.value.apiKey == AuthToken(d).value && Truthy(r.value.apiKey)
              && r.value.model == ModelConfig.DefaultModel
              && r.value.temperature == Temperature
              && r.value.info == ModelConfig.ClaudeInfo
  {
    match WrapperUrl(d)
    case Err(e) => Err(e)
    case Ok(url) =>
      match AuthToken(d)
      case Err(e) => Err(e)
      case Ok(token) =>
        if url == "" || !Truthy(token) then Err(MissingConfiguration)
        else Ok(LambdaClient(ModelConfig.DefaultModel, token, url + "/v1", Temperature, ModelConfig.ClaudeInfo))
  }

  /** With the URL in the environment the parameter store is never consulted. */
  lemma EnvironmentUrlSkipsParameterStore(d: Deployment, store: string -> Result<string, string>)
    requires WrapperUrlVariable in d.env && d.env[WrapperUrlVariable] != ""
    ensures GetModelClient(d.(parameter := store)) == GetModelClient(d)
  {
  }

  /** An agent: its name and system message. */
  datatype AgentSpec = AgentSpec(name: string, systemMessage: string)

  /** What an agent's model call returns: the reply text and, when the response carries
      one, its `usage` attribute. */
  datatype Reply = Reply(content: string, usage: Option<Json>)

  type Respond = (LambdaClient, AgentSpec, Json) -> Result<Reply, string>

  const Assistant: AgentSpec :=
    AgentSpec("claude_assistant", "You are a helpful AI assistant. Provide clear and accurate responses.")
  const Analyst: AgentSpec :=
    AgentSpec("data_analyst", "You are a data analyst. Analyze information and provide insights with supporting evidence.")
  const Coder: AgentSpec :=
    AgentSpec("code_expert", "You are an expert programmer. Write clean, efficient code with proper error handling.")
  const Writer: AgentSpec :=
    AgentSpec("content_writer", "You are a professional writer. Create well-structured, engaging content.")

  /** `agent_configs.get(agent_type, agent_configs["assistant"])`: the four known types,
      the assistant for anything else, and `TypeError` for a value that cannot be a
      dict key. */
  function AgentFor(agentType: Json): (r: Result<AgentSpec, PyError>)
    ensures r.Err? <==> !Hashable(agentType)
    ensures agentType == JStr("assistant") ==> r == Ok(Assistant)
    ensures agentType == JStr("analyst") ==> r == Ok(Analyst)
    ensures agentType == JStr("coder") ==> r == Ok(Coder)
    ensures agentType == JStr("writer") ==> r == Ok(Writer)
    ensures Hashable(agentType) && agentType !in {JStr("analyst"), JStr("coder"), JStr("writer")} ==>
              r == Ok(Assistant)
  {
    if !Hashable(agentType) then Err(UnhashableError(agentType))
    else if agentType == JStr("analyst") then Ok(Analyst)
    else if agentType == JStr("coder") then Ok(Coder)
    else if agentType == JStr("writer") then Ok(Writer)
    else Ok(Assistant)
  }

  /** The four agent types have distinct agent names. */
  lemma AgentNamesDistinct()
    ensures |{Assistant.name, Analyst.name, Coder.name, Writer.name}| == 4
  {
  }

  /** `getattr(response, 'usage', {}).get(key, 0)` for both token counts. */
  function UsageCounts(usage: Option<Json>): (r: Result<(Json, Json), PyError>)
    ensures usage.None? ==> r == Ok((JInt(0), JInt(0)))
    ensures r.Ok? <==> usage.None? || usage.value.JObj?
    ensures usage.Some? && usage.value.JObj? ==>
              r == Ok((Get(usage.value.fields, "prompt_tokens", JInt(0)),
                       Get(usage.value.fields, "completion_tokens", JInt(0))))
  {
    var u := usage.GetOr(JObj(map[]));
    match GetAttr(u, "prompt_tokens", JInt(0))
    case Err(e) => Err(e)
    case Ok(prompt) => Ok((prompt, GetAttr(u, "completion_tokens", JInt(0)).value))
  }

  function AgentFailure(agent: AgentSpec, error: string): Dict {
    map["success" := JBool(false), "error" := JStr(error), "agent" := JStr(agent.name)]
  }

  /** The dict `run_single_agent` builds from the agent's model call: the reply and its
      token counts (0 when the response carries no usage), or a failure naming the agent
      when the call, or reading its usage, raised. */
  function AgentReport(agent: AgentSpec, outcome: Result<Reply, string>): (o: Dict)
    ensures "success" in o && "agent" in o && o["agent"] == JStr(agent.name)
    ensures o["success"] == JBool(true) <==> outcome.Ok? && UsageCounts(outcome.value.usage).Ok?
    ensures outcome.Err? ==> o == AgentFailure(agent, outcome.error)
    ensures outcome.Ok? && outcome.value.usage.None? ==>
              o == map["success" := JBool(true), "agent" := JStr(agent.name),
                       "response" := JStr(outcome.value.content),
                       "usage" := JObj(map["prompt_tokens" := JInt(0), "completion_tokens" := JInt(0)])]
    ensures outcome.Ok? && outcome.value.usage.Some? && outcome.value.usage.value.JObj? ==>
              var usage := outcome.value.usage.value.fields;
              && o.Keys == {"success", "agent", "response", "usage"}
              && o["response"] == JStr(outcome.value.content)
              && o["usage"] == JObj(map["prompt_tokens" := Get(usage, "prompt_tokens", JInt(0)),
                                        "completion_tokens" := Get(usage, "completion_tokens", JInt(0))])
  {
    match outcome
    case Err(e) => AgentFailure(agent, e)
    case Ok(reply) =>
      match UsageCounts(reply.usage)
      case Err(e) => AgentFailure(agent, ErrorText(e))
      case Ok(counts) =>
        map[
          "success" := JBool(true),
          "agent" := JStr(agent.name),
          "response" := JStr(reply.content),
          "usage" := JObj(map["prompt_tokens" := counts.0, "completion_tokens" := counts.1])]
  }

  /** `run_single_agent(task, agent_type)`. Building the client and choosing the agent
      happen outside the `try`, so their exceptions escape; what the agent's call does is
      reported in the returned dict. */
  function RunSingleAgent(d: Deployment, respond: Respond, task: Json, agentType: Json): (r: Result<Dict, string>)
    ensures GetModelClient(d).Err? ==> r == Err(GetModelClient(d).error)
    ensures GetModelClient(d).Ok? ==> (r.Err? <==> !Hashable(agentType))
    ensures GetModelClient(d).Ok? && Hashable(agentType) ==>
              r == Ok(AgentReport(AgentFor(agentType).value,
                                  respond(GetModelClient(d).value, AgentFor(agentType).value, task)))
  {
    match GetModelClient(d)
    case Err(e) => Err(e)
    case Ok(client) =>
      match AgentFor(agentType)
      case Err(e) => Err(ErrorText(e))
      case Ok(agent) => Ok(AgentReport(agent, respond(client, agent, task)))
  }

  const ResearchAgents: seq<AgentSpec> := [
    AgentSpec("researcher", "Research the topic thoroughly and gather relevant information."),
    AgentSpec("analyst", "Analyze the research findings and identify key insights."),
    AgentSpec("summarizer", "Create a concise summary with actionable recommendations.")
  ]

  /** The message that hands one stage's output to the next. */
  function Handoff(output: string): string {
    "Based on this: " + output + "\n\nPlease proceed with your task."
  }

  /** The input of stage `i` given the outputs before it: the task for the first stage,
      the handoff of the previous output after that. */
  function InputAt(task: Json, outputs: seq<string>, i: nat): Json
    requires i <= |outputs|
  {
    if i == 0 then task else JStr(Handoff(outputs[i - 1]))
  }

  /** Every recorded output is the reply of its stage to its input. */
  predicate Ran(client: LambdaClient, respond: Respond, agents: seq<AgentSpec>, task: Json, outputs: seq<string>) {
    && |outputs| <= |agents|
    && forall i :: 0 <= i < |outputs| ==>
         respond(client, agents[i], InputAt(task, outputs, i)).Ok?
         && respond(client, agents[i], InputAt(task, outputs, i)).value.content == outputs[i]
  }

  datatype PipelineRun =
    | Completed(outputs: seq<string>)
    | FailedAt(stage: nat, error: string, outputs: seq<string>)

  /** The pipeline loop from the stage after `outputs`: each stage is fed the handoff of
      the previous one, and the first exception stops the run. */
  function RunFrom(client: LambdaClient, respond: Respond, agents: seq<AgentSpec>, task: Json,
                   outputs: seq<string>): (r: PipelineRun)
    requires Ran(client, respond, agents, task, outputs)
    ensures r.Completed? ==> |r.outputs| == |agents| && Ran(client, respond, agents, task, r.outputs)
    ensures r.FailedAt? ==>
              && r.stage == |r.outputs| < |agents|
              && Ran(client, respond, agents, task, r.outputs)
              && respond(client, agents[r.stage], InputAt(task, r.outputs, r.stage)) == Err(r.error)
    ensures outputs <= r.outputs
    decreases |agents| - |outputs|
  {
    if |outputs| == |agents| then Completed(outputs)
    else
      match respond(client, agents[|outputs|], InputAt(task, outputs, |outputs|))
      case Err(e) => FailedAt(|outputs|, e, outputs)
      case Ok(reply) =>
        RanExtends(client, respond, agents, task, outputs, reply.content);
        RunFrom(client, respond, agents, task, outputs + [reply.content])
  }

  lemma RanExtends(client: LambdaClient, respond: Respond, agents: seq<AgentSpec>, task: Json,
                   outputs: seq<string>, next: string)
    requires Ran(client, respond, agents, task, outputs) && |outputs| < |agents|
    requires respond(client, agents[|outputs|], InputAt(task, outputs, |outputs|)).Ok?
    requires respond(client, agents[|outputs|], InputAt(task, outputs, |outputs|)).value.content == next
    ensures Ran(client, respond, agents, task, outputs + [next])
  {
    var longer := outputs + [next];
    forall i | 0 <= i < |longer|
      ensures respond(client, agents[i], InputAt(task, longer, i)).Ok?
      ensures respond(client, agents[i], InputAt(task, longer, i)).value.content == longer[i]
    {
      InputAtExtends(task, outputs, next, i);
    }
  }

  lemma InputAtExtends(task: Json, outputs: seq<string>, next: string, i: nat)
    requires i <= |outputs|
    ensures InputAt(task, outputs + [next], i) == InputAt(task, outputs, i)
    ensures i < |outputs| ==> (outputs + [next])[i] == outputs[i]
    ensures (outputs + [next])[|outputs|] == next
  {
  }

  /** A run is determined by its inputs: two runs that both succeed through the same
      stages recorded the same outputs. */
  lemma {:induction false} RanUnique(client: LambdaClient, respond: Respond, agents: seq<AgentSpec>, task: Json,
                                     a: seq<string>, b: seq<string>)
    requires Ran(client, respond, agents, task, a) && Ran(client, respond, agents, task, b)
    requires |a| == |b|
    ensures a == b
    decreases |a|
  {
    if |a| > 0 {
      var n := |a| - 1;
      var a', b' := a[..n], b[..n];
      RanPrefix(client, respond, agents, task, a, n);
      RanPrefix(client, respond, agents, task, b, n);
      RanUnique(client, respond, agents, task, a', b');
      assert InputAt(task, a, n) == InputAt(task, b, n) by {
        if n > 0 {
          assert a[n - 1] == a'[n - 1] && b[n - 1] == b'[n - 1];
        }
      }
      assert a == a' + [a[n]] && b == b' + [b[n]];
    }
  }

  lemma RanPrefix(client: LambdaClient, respond: Respond, agents: seq<AgentSpec>, task: Json,
                  outputs: seq<string>, n: nat)
    requires Ran(client, respond, agents, task, outputs) && n <= |outputs|
    ensures Ran(client, respond, agents, task, outputs[..n])
  {
    var shorter := outputs[..n];
    forall i | 0 <= i < n
      ensures InputAt(task, shorter, i) == InputAt(task, outputs, i)
    {
      if i > 0 {
        assert shorter[i - 1] == outputs[i - 1];
      }
    }
  }

  /** The `{"agent": ..., "output": ...}` entries of the stages that ran. */
  function StageResults(agents: seq<AgentSpec>, outputs: seq<string>): (rs: seq<Json>)
    requires |outputs| <= |agents|
    ensures |rs| == |outputs|
    ensures forall i :: 0 <= i < |rs| ==>
              rs[i] == JObj(map["agent" := JStr(agents[i].name), "output" := JStr(outputs[i])])
  {
    seq(|outputs|, i requires 0 <= i < |outputs| =>
      JObj(map["agent" := JStr(agents[i].name), "output" := JStr(outputs[i])]))
  }

  /** The dict `run_multi_agent_pipeline` returns for a finished or failed run. */
  function PipelineOutcome(agents: seq<AgentSpec>, pipeline: Json, run: PipelineRun): (o: Dict)
    requires run.Completed? ==> |run.outputs| == |agents|
    requires run.FailedAt? ==> run.stage == |run.outputs| < |agents|
    ensures "success" in o && (o["success"] == JBool(true) <==> run.Completed?)
    ensures run.Completed? ==>
              && o.Keys == {"success", "pipeline", "results", "final_output"}
              && o["pipeline"] == pipeline
              && o["results"] == JList(StageResults(agents, run.outputs))
              && o["final_output"] == if |run.outputs| > 0 then JStr(run.outputs[|run.outputs| - 1]) else JNull
    ensures run.FailedAt? ==>
              && o.Keys == {"success", "error", "partial_results"}
              && o["error"] == JStr("Pipeline failed at " + agents[run.stage].name + ": " + run.error)
              && o["partial_results"] == JList(StageResults(agents, run.outputs))
  {
    match run
    case Completed(outputs) =>
      map["success" := JBool(true), "pipeline" := pipeline,
          "results" := JList(StageResults(agents, outputs)),
          "final_output" := if |outputs| > 0 then JStr(outputs[|outputs| - 1]) else JNull]
    case FailedAt(stage, error, outputs) =>
      map["success" := JBool(false),
          "error" := JStr("Pipeline failed at " + agents[stage].name + ": " + error),
          "partial_results" := JList(StageResults(agents, outputs))]
  }

  /** `run_multi_agent_pipeline(task, pipeline)`: only the research pipeline exists; the
      client is built (and may raise) before the pipeline name is looked at. */
  function RunMultiAgentPipeline(d: Deployment, respond: Respond, task: Json, pipeline: Json): (r: Result<Dict, string>)
    ensures GetModelClient(d).Err? ==> r == Err(GetModelClient(d).error)
    ensures GetModelClient(d).Ok? && pipeline != JStr("research") ==>
              r == Ok(map["success" := JBool(false), "error" := JStr("Unknown pipeline type: " + Str(pipeline))])
    ensures GetModelClient(d).Ok? ==> r.Ok?
    ensures GetModelClient(d).Ok? && pipeline == JStr("research") ==>
              r == Ok(PipelineOutcome(ResearchAgents, pipeline,
                                      RunFrom(GetModelClient(d).value, respond, ResearchAgents, task, [])))
  {
    match GetModelClient(d)
    case Err(e) => Err(e)
    case Ok(client) =>
      if pipeline == JStr("research") then
        Ok(PipelineOutcome(ResearchAgents, pipeline, RunFrom(client, respond, ResearchAgents, task, [])))
      else
        Ok(map["success" := JBool(false), "error" := JStr("Unknown pipeline type: " + Str(pipeline))])
  }

  /** A completed research run chains its stages: the researcher answered the task, and
      the analyst and the summarizer were each handed the previous stage's output. */
  lemma ResearchStages(client: LambdaClient, respond: Respond, task: Json)
    ensures var run := RunFrom(client, respond, ResearchAgents, task, []);
            run.Completed? ==>
              && |run.outputs| == 3
              && respond(client, ResearchAgents[0], task).Ok?
              && respond(client, ResearchAgents[0], task).value.content == run.outputs[0]
              && respond(client, ResearchAgents[1], JStr(Handoff(run.outputs[0]))).Ok?
              && respond(client, ResearchAgents[1], JStr(Handoff(run.outputs[0]))).value.content == run.outputs[1]
              && respond(client, ResearchAgents[2], JStr(Handoff(run.outputs[1]))).Ok?
              && respond(client, ResearchAgents[2], JStr(Handoff(run.outputs[1]))).value.content == run.outputs[2]
  {
    var run := RunFrom(client, respond, ResearchAgents, task, []);
    if run.Completed? {
      var outs := run.outputs;
      assert Ran(client, respond, ResearchAgents, task, outs);
      assert InputAt(task, outs, 0) == task;
      assert InputAt(task, outs, 1) == JStr(Handoff(outs[0]));
      assert InputAt(task, outs, 2) == JStr(Handoff(outs[1]));
    }
  }

  /** The research pipeline reports success exactly when all three stages answered, with
      one result per stage and the summarizer's output as the final output. */
  lemma ResearchPipelineSucceeds(d: Deployment, respond: Respond, task: Json)
    requires GetModelClient(d).Ok?
    ensures var run := RunFrom(GetModelClient(d).value, respond, ResearchAgents, task, []);
            var r := RunMultiAgentPipeline(d, respond, task, JStr("research")).value;
            && "success" in r
            && (r["success"] == JBool(true) <==> run.Completed?)
            && (run.Completed? ==>
                  && |run.outputs| == 3
                  && r.Keys == {"success", "pipeline", "results", "final_output"}
                  && r["final_output"] == JStr(run.outputs[2])
                  && r["results"] == JList(StageResults(ResearchAgents, run.outputs)))
  {
  }

  /** A failed stage reports its name and keeps the results of the stages before it. */
  lemma ResearchPipelineFails(d: Deployment, respond: Respond, task: Json)
    requires GetModelClient(d).Ok?
    requires RunFrom(GetModelClient(d).value, respond, ResearchAgents, task, []).FailedAt?
    ensures var run := RunFrom(GetModelClient(d).value, respond, ResearchAgents, task, []);
            var r := RunMultiAgentPipeline(d, respond, task, JStr("research")).value;
            && r["success"] == JBool(false)
            && r["error"] == JStr("Pipeline failed at " + ResearchAgents[run.stage].name + ": " + run.error)
            && r["partial_results"].JList? && |r["partial_results"].items| == run.stage
  {
  }

  datatype Response = Response(statusCode: int, body: Json)

  const MissingTask: Response := Response(400, JObj(map["error" := JStr("Missing required parameter: task")]))

  function Task(event: Dict): Json {
    Get(event, "task", JNull)
  }

  /** The requested workflow, `single_agent` unless the event names one. */
  function Action(event: Dict): Json {
    Get(event, "action", JStr("single_agent"))
  }

  predicate KnownAction(action: Json) {
    action == JStr("single_agent") || action == JStr("multi_agent")
  }

  function UnknownAction(action: Json): Response {
    Response(400, JObj(map["error" := JStr("Unknown action: " + Str(action))]))
  }

  function InternalError(message: string): Response {
    Response(500, JObj(map["error" := JStr("Internal server error"), "message" := JStr(message)]))
  }

  /** The workflow a known action runs, with the event's agent type or pipeline. */
  function Workflow(d: Deployment, respond: Respond, event: Dict): Result<Dict, string>
    requires KnownAction(Action(event))
  {
    if Action(event) == JStr("single_agent") then
      RunSingleAgent(d, respond, Task(event), Get(event, "agent_type", JStr("assistant")))
    else
      RunMultiAgentPipeline(d, respond, Task(event), Get(event, "pipeline", JStr("research")))
  }

  /** `lambda_handler(event, context)`. */
  function LambdaHandler(d: Deployment, respond: Respond, event: Dict): (r: Response)
    ensures r.statusCode in {200, 400, 500}
    // a missing or empty task is refused before anything else is looked at
    ensures !Truthy(Task(event)) ==> r == MissingTask
    ensures Truthy(Task(event)) && !KnownAction(Action(event)) ==> r == UnknownAction(Action(event))
    // a workflow that returns is a 200 with its dict, even one reporting failure; an
    // exception that escapes it is an internal error carrying its text
    ensures Truthy(Task(event)) && KnownAction(Action(event)) ==>
              && (r.statusCode == 200 <==> Workflow(d, respond, event).Ok?)
              && (Workflow(d, respond, event).Ok? ==> r.body == JObj(Workflow(d, respond, event).value))
              && (Workflow(d, respond, event).Err? ==> r == InternalError(Workflow(d, respond, event).error))
  {
    if !Truthy(Task(event)) then MissingTask
    else if !KnownAction(Action(event)) then UnknownAction(Action(event))
    else
      match Workflow(d, respond, event)
      case Ok(result) => Response(200, JObj(result))
      case Err(m) => InternalError(m)
  }

  /** A deployment whose secret has no token fails every workflow with an internal error
      naming the missing configuration. */
  lemma MissingTokenIsInternalError(d: Deployment, respond: Respond, event: Dict)
    requires Truthy(Task(event)) && KnownAction(Action(event))
    requires WrapperUrl(d).Ok? && WrapperUrl(d).value != ""
    requires d.secret(AuthSecretName(d)).Ok? && d.secret(AuthSecretName(d)).value.JObj?
    requires "token" !in d.secret(AuthSecretName(d)).value.fields
    ensures LambdaHandler(d, respond, event) == InternalError(MissingConfiguration)
  {
  }
}

=== FILE: model_client.dfy ===
/** The model-client factory of config.py: the fixed connection settings, the retry
    wrapper installed around `create`, and the health gate in front of the wrapper
    service.

    The client library is abstract: a client is the settings it was built with, and
    `create(k)` is what the original `create` returns or raises on its `k`-th call. The
    health probe's outcome is an input: the status of `GET /v1/models`, or `None` when
    the request raised. */
module ModelConfig {
  import opened Wrappers
  import opened Numeric
  import Retry

  const DefaultModel: string := "claude-opus-4-20250514"
  const DefaultTemperature: real := 0.7
  const DefaultMaxRetries: int := 3
  const DefaultRetryDelay: real := 1.0
  /** The wrapper authenticates on its own; the key sent is a placeholder. */
  const ApiKey: string := "not-needed"
  const BaseUrl: string := "http://localhost:8000/v1"
  const WrapperHost: string := "http://localhost:8000"
  /** `create_with_retry` doubles its wait after every failure. */
  const Backoff: real := 2.0

  /** The capabilities the client declares for the model. */
  datatype ModelInfo = ModelInfo(
    vision: bool, functionCalling: bool, jsonOutput: bool, family: string, structuredOutput: bool)

  const ClaudeInfo: ModelInfo := ModelInfo(true, true, true, "claude", true)

  datatype Client = Client(
    model: string,
    apiKey: string,
    baseUrl: string,
    temperature: real,
    info: ModelInfo,
    maxRetries: int,
    retryDelay: real)

  /** `ClaudeCodeConfig.get_model_client(model, temperature, max_retries, retry_delay)`:
      the caller chooses the model, temperature and retry policy; the key, the endpoint
      and the declared capabilities are fixed. */
  function GetModelClient(model: string, temperature: real, maxRetries: int, retryDelay: real): (c: Client)
    ensures c.apiKey == ApiKey && c.baseUrl == BaseUrl && c.info == ClaudeInfo
    ensures c.model == model && c.temperature == temperature
    ensures c.maxRetries == maxRetries && c.retryDelay == retryDelay
  {
    Client(model, ApiKey, BaseUrl, temperature, ClaudeInfo, maxRetries, retryDelay)
  }

  /** `get_model_client()` with no arguments. */
  function DefaultClient(): (c: Client)
    ensures c.model == DefaultModel && c.temperature == DefaultTemperature
    ensures c.maxRetries == DefaultMaxRetries && c.retryDelay == DefaultRetryDelay
    ensures c.apiKey == ApiKey && c.baseUrl == BaseUrl
  {
    GetModelClient(DefaultModel, DefaultTemperature, DefaultMaxRetries, DefaultRetryDelay)
  }

  /** `client.create(...)` after wrapping: the retry policy of `async_retry` with the
      client's attempt count and initial delay and a backoff of 2. */
  method CreateWithRetry<T, E>(c: Client, create: nat -> Retry.Outcome<T, E>) returns (run: Retry.Run<T, E>)
    ensures run.calls <= Retry.Attempts(c.maxRetries)
    ensures forall k :: 0 <= k < run.calls - 1 ==> create(k).Raised?
    ensures run.result.Ok? ==> run.calls >= 1 && create(run.calls - 1) == Retry.Returned(run.result.value)
    ensures run.result.Err? && run.result.error.Propagated? <==> run.calls >= 1 && create(run.calls - 1).Escaped?
    ensures run.result.Err? && run.result.error.Propagated? ==> run.result.error.error == create(run.calls - 1).error
    ensures run.result.Err? && !run.result.error.Propagated? ==> run.calls == Retry.Attempts(c.maxRetries)
    ensures run.result.Err? && !run.result.error.Propagated? && run.calls > 0 ==>
              create(run.calls - 1).Raised? && run.result.error == Retry.LastError(create(run.calls - 1).error)
    ensures c.maxRetries <= 0 ==> run.result == Err(Retry.NoneRaised) && run.calls == 0
    ensures |run.sleeps| == if run.calls > 0 then run.calls - 1 else 0
    ensures forall k :: 0 <= k < |run.sleeps| ==> run.sleeps[k] == c.retryDelay * Pow(2.0, k)
  {
    run := Retry.RetryCall(create, c.maxRetries, c.retryDelay, Backoff);
  }

  /** Each wait of the wrapper is twice the one before. */
  lemma WaitsDouble(retryDelay: real, k: nat)
    ensures retryDelay * Pow(2.0, k + 1) == 2.0 * (retryDelay * Pow(2.0, k))
  {
  }

  /** With the default policy a failing `create` is tried three times, after waits of one
      and two seconds. */
  lemma DefaultPolicyWaits()
    ensures Retry.Attempts(DefaultClient().maxRetries) == 3
    ensures Retry.Wait(DefaultRetryDelay, Backoff, 0) == 1.0 && Retry.Wait(DefaultRetryDelay, Backoff, 1) == 2.0
  {
    assert Pow(2.0, 1) == 2.0 * Pow(2.0, 0);
  }

  /** `health_check()`: healthy exactly when the probe answered 200. */
  function HealthCheck(probe: Option<int>): (healthy: bool)
    ensures healthy <==> probe == Some(200)
  {
    match probe
    case None => false
    case Some(status) => status == 200
  }

  const NotAccessible: string :=
    "Claude Code wrapper is not accessible on localhost:8000. "
    + "Please ensure the wrapper is running natively with: "
    + "poetry run uvicorn main:app --host 0.0.0.0 --port 8000"

  /** `ensure_health()`: a `ConnectionError` with the fixed advice exactly when the
      health check fails, and nothing otherwise. */
  function EnsureHealth(probe: Option<int>): (r: Option<string>)
    ensures r.Some? <==> probe != Some(200)
    ensures r.Some? ==> r.value == NotAccessible
  {
    if HealthCheck(probe) then None else Some(NotAccessible)
  }
}

=== FILE: numeric.dfy ===
/** Exact arithmetic shared by the models: powers with natural exponents, sums, extremes
    and means of lists. Python ints are unbounded like Dafny's; Python floats are modelled
    as exact reals. */
module Numeric {
  /** `b ** k` for a natural exponent. */
  function Pow(b: real, k: nat): real
    decreases k
  {
    if k == 0 then 1.0 else b * Pow(b, k - 1)
  }

  /** `b ** k` on Python ints, for a natural exponent. */
  function IntPow(b: int, k: nat): int
    decreases k
  {
    if k == 0 then 1 else b * IntPow(b, k - 1)
  }

  /** Integer powers agree with real powers. */
  lemma {:induction false} IntPowAsReal(b: int, k: nat)
    ensures IntPow(b, k) as real == Pow(b as real, k)
    decreases k
  {
    if k > 0 {
      IntPowAsReal(b, k - 1);
    }
  }

  /** A power of a non-zero base is non-zero. */
  lemma {:induction false} PowNonZero(b: real, k: nat)
    requires b != 0.0
    ensures Pow(b, k) != 0.0
    decreases k
  {
    if k > 0 {
      PowNonZero(b, k - 1);
    }
  }

  function Sum(xs: seq<real>): real
    decreases |xs|
  {
    if |xs| == 0 then 0.0 else Sum(xs[..|xs| - 1]) + xs[|xs| - 1]
  }

  /** `sum(1 for x in xs if p(x))`: how many elements satisfy `p`. */
  function CountWhere<T>(xs: seq<T>, p: T -> bool): (n: nat)
    ensures n <= |xs|
    decreases |xs|
  {
    if |xs| == 0 then 0 else CountWhere(xs[..|xs| - 1], p) + (if p(xs[|xs| - 1]) then 1 else 0)
  }

  /** Python's `max(xs)` for a non-empty list. */
  function MaxOf(xs: seq<real>): (m: real)
    requires |xs| > 0
    ensures forall i :: 0 <= i < |xs| ==> xs[i] <= m
    ensures exists i :: 0 <= i < |xs| && xs[i] == m
    decreases |xs|
  {
    if |xs| == 1 then xs[0]
    else
      var m := MaxOf(xs[..|xs| - 1]);
      if xs[|xs| - 1] > m then xs[|xs| - 1] else m
  }

  /** Python's `min(xs)` for a non-empty list. */
  function MinOf(xs: seq<real>): (m: real)
    requires |xs| > 0
    ensures forall i :: 0 <= i < |xs| ==> m <= xs[i]
    ensures exists i :: 0 <= i < |xs| && xs[i] == m
    decreases |xs|
  {
    if |xs| == 1 then xs[0]
    else
      var m := MinOf(xs[..|xs| - 1]);
      if xs[|xs| - 1] < m then xs[|xs| - 1] else m
  }

  /** `statistics.mean(xs)`, exactly. */
  function Mean(xs: seq<real>): real
    requires |xs| > 0
  {
    Sum(xs) / |xs| as real
  }

  /** A total bounded by `n` copies of `lo` and of `hi` has its mean between them. */
  lemma MeanBetween(lo: real, hi: real, total: real, n: real)
    requires n > 0.0 && lo * n <= total <= hi * n
    ensures lo <= total / n <= hi
  {
    var q := total / n;
    assert q * n == total;
  }

  lemma {:induction false} SumBetween(xs: seq<real>, lo: real, hi: real)
    requires forall i :: 0 <= i < |xs| ==> lo <= xs[i] <= hi
    ensures lo * |xs| as real <= Sum(xs) <= hi * |xs| as real
    decreases |xs|
  {
    if |xs| > 0 {
      SumBetween(xs[..|xs| - 1], lo, hi);
    }
  }

  /** The mean of a list lies between its least and greatest elements. */
  lemma MeanWithinRange(xs: seq<real>)
    requires |xs| > 0
    ensures MinOf(xs) <= Mean(xs) <= MaxOf(xs)
  {
    MeanOfBounded(xs, MinOf(xs), MaxOf(xs));
  }

  lemma MeanOfBounded(xs: seq<real>, lo: real, hi: real)
    requires |xs| > 0
    requires forall i :: 0 <= i < |xs| ==> lo <= xs[i] <= hi
    ensures lo <= Mean(xs) <= hi
  {
    SumBetween(xs, lo, hi);
    MeanBetween(lo, hi, Sum(xs), |xs| as real);
  }
}

=== FILE: perf_monitor.dfy ===
/** `PerformanceMonitor.get_summary` (studio/auto_sync_to_studio.py): totals, success
    rate, latency extremes and a per-operation breakdown of the recorded metrics.

    A metric keeps only what the summary reads: the operation name, whether it succeeded
    and its latency. The breakdown is a sequence in first-occurrence order, the order a
    Python dict keeps. The run time since the monitor started is a parameter. */
module PerfMonitor {
  import opened Wrappers
  import opened Numeric

  datatype Metric = Metric(operation: string, success: bool, latencyMs: real)

  datatype OpStats = OpStats(
    operation: string,
    count: nat,
    successCount: nat,
    totalLatency: real,
    avgLatency: real,
    successRate: real)

  datatype Summary = Summary(
    totalOperations: nat,
    successfulOperations: nat,
    successRatePercent: real,
    avgLatencyMs: real,
    maxLatencyMs: real,
    minLatencyMs: real,
    breakdown: seq<OpStats>,
    totalRuntimeSeconds: real)

  const NoOperations: string := "No operations recorded"

  predicate Succeeded(m: Metric) {
    m.success
  }

  function TotalLatency(ms: seq<Metric>): real
    decreases |ms|
  {
    if |ms| == 0 then 0.0 else TotalLatency(ms[..|ms| - 1]) + ms[|ms| - 1].latencyMs
  }

  function MaxLatency(ms: seq<Metric>): (m: real)
    requires |ms| > 0
    ensures forall i :: 0 <= i < |ms| ==> ms[i].latencyMs <= m
    ensures exists i :: 0 <= i < |ms| && ms[i].latencyMs == m
    decreases |ms|
  {
    if |ms| == 1 then ms[0].latencyMs
    else
      var m := MaxLatency(ms[..|ms| - 1]);
      if ms[|ms| - 1].latencyMs > m then ms[|ms| - 1].latencyMs else m
  }

  function MinLatency(ms: seq<Metric>): (m: real)
    requires |ms| > 0
    ensures forall i :: 0 <= i < |ms| ==> m <= ms[i].latencyMs
    ensures exists i :: 0 <= i < |ms| && ms[i].latencyMs == m
    decreases |ms|
  {
    if |ms| == 1 then ms[0].latencyMs
    else
      var m := MinLatency(ms[..|ms| - 1]);
      if ms[|ms| - 1].latencyMs < m then ms[|ms| - 1].latencyMs else m
  }

  /** The running per-operation tallies, before averages are added. */
  datatype Tally = Tally(operation: string, count: nat, successCount: nat, totalLatency: real)

  function IndexOf(ts: seq<Tally>, op: string): (k: nat)
    ensures k <= |ts|
    ensures k < |ts| ==> ts[k].operation == op
    ensures forall i :: 0 <= i < k ==> ts[i].operation != op
    decreases |ts|
  {
    if |ts| == 0 then 0
    else if ts[0].operation == op then 0
    else 1 + IndexOf(ts[1..], op)
  }

  /** Count one metric into the tallies: a new operation opens an entry at the end. */
  function Record(ts: seq<Tally>, m: Metric): seq<Tally> {
    var k := IndexOf(ts, m.operation);
    var t := if k < |ts| then ts[k] else Tally(m.operation, 0, 0, 0.0);
    var t' := Tally(m.operation, t.count + 1, t.successCount + (if m.success then 1 else 0),
                    t.totalLatency + m.latencyMs);
    if k < |ts| then ts[k := t'] else ts + [t']
  }

  /** The grouping loop over the metrics in recording order. */
  function Group(ms: seq<Metric>): seq<Tally>
    decreases |ms|
  {
    if |ms| == 0 then [] else Record(Group(ms[..|ms| - 1]), ms[|ms| - 1])
  }

  /** How many metrics were recorded for `op`, and how many of those succeeded. */
  function CountOp(ms: seq<Metric>, op: string): nat
    decreases |ms|
  {
    if |ms| == 0 then 0 else CountOp(ms[..|ms| - 1], op) + (if ms[|ms| - 1].operation == op then 1 else 0)
  }

  function SuccessOp(ms: seq<Metric>, op: string): nat
    decreases |ms|
  {
    if |ms| == 0 then 0
    else SuccessOp(ms[..|ms| - 1], op) + (if ms[|ms| - 1].operation == op && ms[|ms| - 1].success then 1 else 0)
  }

  /** The summed latency of the metrics recorded for `op`. */
  function LatencyOp(ms: seq<Metric>, op: string): real
    decreases |ms|
  {
    if |ms| == 0 then 0.0
    else LatencyOp(ms[..|ms| - 1], op) + (if ms[|ms| - 1].operation == op then ms[|ms| - 1].latencyMs else 0.0)
  }

  predicate Distinct(ts: seq<Tally>) {
    forall i, j :: 0 <= i < j < |ts| ==> ts[i].operation != ts[j].operation
  }

  predicate Listed(ts: seq<Tally>, op: string) {
    exists j :: 0 <= j < |ts| && ts[j].operation == op
  }

  /** Every recorded operation has an entry. */
  predicate Covers(ts: seq<Tally>, ms: seq<Metric>) {
    forall i :: 0 <= i < |ms| ==> Listed(ts, ms[i].operation)
  }

  /** Every entry holds exactly the counts and the summed latency of its operation's
      metrics. */
  predicate Counts(ts: seq<Tally>, ms: seq<Metric>) {
    forall i :: 0 <= i < |ts| ==>
      ts[i].count == CountOp(ms, ts[i].operation) && ts[i].successCount == SuccessOp(ms, ts[i].operation)
      && ts[i].totalLatency == LatencyOp(ms, ts[i].operation)
      && ts[i].count > 0
  }

  /** What the grouping keeps: one entry per distinct operation, each holding exactly the
      counts of that operation's metrics. */
  predicate Faithful(ts: seq<Tally>, ms: seq<Metric>) {
    Distinct(ts) && Covers(ts, ms) && Counts(ts, ms)
  }

  lemma RecordDistinct(ts: seq<Tally>, m: Metric)
    requires Distinct(ts)
    ensures Distinct(Record(ts, m))
  {
  }

  lemma RecordCovers(ts: seq<Tally>, init: seq<Metric>, m: Metric)
    requires Covers(ts, init)
    ensures Covers(Record(ts, m), init + [m])
  {
    var ts' := Record(ts, m);
    var k := IndexOf(ts, m.operation);
    var ms := init + [m];
    forall i | 0 <= i < |ms|
      ensures Listed(ts', ms[i].operation)
    {
      if i < |init| {
        assert ms[i] == init[i];
        var j :| 0 <= j < |ts| && ts[j].operation == init[i].operation;
        assert ts'[j].operation == ts[j].operation;
      } else if k < |ts| {
        assert ts'[k].operation == m.operation;
      } else {
        assert ts'[|ts|].operation == m.operation;
      }
    }
  }

  lemma CountOpSnoc(init: seq<Metric>, m: Metric, op: string)
    ensures CountOp(init + [m], op) == CountOp(init, op) + (if m.operation == op then 1 else 0)
    ensures SuccessOp(init + [m], op) == SuccessOp(init, op) + (if m.operation == op && m.success then 1 else 0)
    ensures LatencyOp(init + [m], op) == LatencyOp(init, op) + (if m.operation == op then m.latencyMs else 0.0)
  {
    assert (init + [m])[..|init|] == init;
  }

  lemma RecordCounts(ts: seq<Tally>, init: seq<Metric>, m: Metric)
    requires Distinct(ts) && Covers(ts, init) && Counts(ts, init)
    ensures Counts(Record(ts, m), init + [m])
  {
    var ts' := Record(ts, m);
    var k := IndexOf(ts, m.operation);
    forall i | 0 <= i < |ts'|
      ensures ts'[i].count == CountOp(init + [m], ts'[i].operation)
      ensures ts'[i].successCount == SuccessOp(init + [m], ts'[i].operation)
      ensures ts'[i].totalLatency == LatencyOp(init + [m], ts'[i].operation)
      ensures ts'[i].count > 0
    {
      CountOpSnoc(init, m, ts'[i].operation);
      if i == |ts| {
        NotSeenCountsZero(init, ts, m.operation);
      }
    }
  }

  lemma {:induction false} GroupFaithful(ms: seq<Metric>)
    ensures Faithful(Group(ms), ms)
    decreases |ms|
  {
    if |ms| > 0 {
      var init := ms[..|ms| - 1];
      var m := ms[|ms| - 1];
      GroupFaithful(init);
      assert ms == init + [m];
      RecordDistinct(Group(init), m);
      RecordCovers(Group(init), init, m);
      RecordCounts(Group(init), init, m);
    }
  }

  /** An operation without an entry was never recorded. */
  lemma {:induction false} NotSeenCountsZero(ms: seq<Metric>, ts: seq<Tally>, op: string)
    requires Covers(ts, ms)
    requires !Listed(ts, op)
    ensures CountOp(ms, op) == 0 && SuccessOp(ms, op) == 0 && LatencyOp(ms, op) == 0.0
    decreases |ms|
  {
    if |ms| > 0 {
      assert Listed(ts, ms[|ms| - 1].operation);
      NotSeenCountsZero(ms[..|ms| - 1], ts, op);
    }
  }

  function Percent(part: nat, whole: nat): (p: real)
    requires whole > 0
    ensures part <= whole ==> 0.0 <= p <= 100.0
  {
    PercentBounds(part, whole);
    (part as real / whole as real) * 100.0
  }

  function Finish(t: Tally): OpStats
    requires t.count > 0
  {
    OpStats(t.operation, t.count, t.successCount, t.totalLatency,
            t.totalLatency / t.count as real, Percent(t.successCount, t.count))
  }

  lemma PercentBounds(part: nat, whole: nat)
    requires whole > 0
    ensures part <= whole ==> 0.0 <= part as real / whole as real <= 1.0
  {
    if part <= whole {
      MeanBetween(0.0, 1.0, part as real, whole as real);
    }
  }

  /** `get_summary()`: an error when nothing was recorded. */
  function GetSummary(ms: seq<Metric>, runtimeSeconds: real): (r: Result<Summary, string>)
    ensures r.Err? <==> |ms| == 0
    ensures r.Err? ==> r.error == NoOperations
    ensures r.Ok? ==>
              && r.value.totalOperations == |ms|
              && r.value.successfulOperations <= r.value.totalOperations
              && 0.0 <= r.value.successRatePercent <= 100.0
              && |r.value.breakdown| == |Group(ms)|
    // the successes are the successful metrics; rate and mean are taken over all of them
    ensures r.Ok? ==>
              && r.value.successfulOperations == CountWhere(ms, Succeeded)
              && MeanOf(r.value.successRatePercent, |ms|, r.value.successfulOperations as real * 100.0)
              && MeanOf(r.value.avgLatencyMs, |ms|, TotalLatency(ms))
  {
    if |ms| == 0 then Err(NoOperations)
    else
      var s := Summarize(ms, runtimeSeconds);
      PercentScaled(s.successfulOperations, |ms|);
      MeanScaled(TotalLatency(ms), |ms|);
      Ok(s)
  }

  /** `mean` is `total` spread over `n` items: times `n` it gives back `total`. */
  predicate MeanOf(mean: real, n: nat, total: real) {
    mean * n as real == total
  }

  /** A percentage times its whole gives back a hundred times its part. */
  lemma PercentScaled(part: nat, whole: nat)
    requires whole > 0
    ensures MeanOf(Percent(part, whole), whole, part as real * 100.0)
  {
    var w := whole as real;
    assert (part as real / w) * 100.0 * w == (part as real / w) * w * 100.0;
  }

  /** A mean times its count gives back the total. */
  lemma MeanScaled(total: real, n: nat)
    requires n > 0
    ensures MeanOf(total / n as real, n, total)
  {
  }

  /** The summary of a non-empty run. */
  function Summarize(ms: seq<Metric>, runtimeSeconds: real): Summary
    requires |ms| > 0
  {
    var ts := Group(ms);
    GroupFaithful(ms);
    Summary(
      |ms|, CountWhere(ms, Succeeded), Percent(CountWhere(ms, Succeeded), |ms|),
      TotalLatency(ms) / |ms| as real, MaxLatency(ms), MinLatency(ms),
      FinishAll(ts),
      runtimeSeconds)
  }

  /** The breakdown entries of the tallies, in the same order. */
  function FinishAll(ts: seq<Tally>): (bs: seq<OpStats>)
    requires forall i :: 0 <= i < |ts| ==> ts[i].count > 0
    ensures |bs| == |ts|
    ensures forall i :: 0 <= i < |ts| ==> bs[i] == Finish(ts[i])
  {
    seq(|ts|, i requires 0 <= i < |ts| => Finish(ts[i]))
  }

  /** The summary's latencies: the mean lies between the extremes, which bound every
      recorded latency and are attained. */
  lemma SummaryLatencies(ms: seq<Metric>, runtimeSeconds: real)
    requires |ms| > 0
    ensures var s := GetSummary(ms, runtimeSeconds).value;
            && s.minLatencyMs <= s.avgLatencyMs <= s.maxLatencyMs
            && (forall i :: 0 <= i < |ms| ==> s.minLatencyMs <= ms[i].latencyMs <= s.maxLatencyMs)
            && (exists i :: 0 <= i < |ms| && ms[i].latencyMs == s.maxLatencyMs)
            && (exists i :: 0 <= i < |ms| && ms[i].latencyMs == s.minLatencyMs)
  {
    LatencyBounds(ms);
  }

  /** Each breakdown entry counts exactly the metrics of its operation, successes
      included, sums their latency and averages it. */
  lemma SummaryBreakdownCounts(ms: seq<Metric>, runtimeSeconds: real)
    requires |ms| > 0
    ensures var s := GetSummary(ms, runtimeSeconds).value;
            forall i :: 0 <= i < |s.breakdown| ==>
              && s.breakdown[i].count == CountOp(ms, s.breakdown[i].operation) > 0
              && s.breakdown[i].successCount == SuccessOp(ms, s.breakdown[i].operation)
              && s.breakdown[i].successCount <= s.breakdown[i].count
              && 0.0 <= s.breakdown[i].successRate <= 100.0
  {
    GroupFaithful(ms);
    SuccessOpAtMost(ms);
  }

  /** An entry's average latency and success rate, times its count, give back its total
      latency and a hundred times its successes. */
  predicate Averaged(b: OpStats) {
    MeanOf(b.avgLatency, b.count, b.totalLatency) && MeanOf(b.successRate, b.count, b.successCount as real * 100.0)
  }

  /** Each breakdown entry's total latency is the summed latency of its operation's
      metrics, and its averages are taken over its count. */
  lemma SummaryBreakdownLatencies(ms: seq<Metric>, runtimeSeconds: real)
    requires |ms| > 0
    ensures var s := GetSummary(ms, runtimeSeconds).value;
            forall i :: 0 <= i < |s.breakdown| ==>
              s.breakdown[i].totalLatency == LatencyOp(ms, s.breakdown[i].operation) && Averaged(s.breakdown[i])
  {
    GroupFaithful(ms);
    var ts := Group(ms);
    var s := GetSummary(ms, runtimeSeconds).value;
    forall i | 0 <= i < |s.breakdown|
      ensures s.breakdown[i].totalLatency == LatencyOp(ms, s.breakdown[i].operation) && Averaged(s.breakdown[i])
    {
      FinishAverages(ts[i]);
      assert s.breakdown[i] == Finish(ts[i]);
    }
  }

  lemma FinishAverages(t: Tally)
    requires t.count > 0
    ensures Averaged(Finish(t))
  {
    MeanScaled(t.totalLatency, t.count);
    PercentScaled(t.successCount, t.count);
  }

  /** The breakdown names each recorded operation exactly once, and no other. */
  lemma SummaryBreakdownOperations(ms: seq<Metric>, runtimeSeconds: real)
    requires |ms| > 0
    ensures var s := GetSummary(ms, runtimeSeconds).value;
            && (forall i, j :: 0 <= i < j < |s.breakdown| ==> s.breakdown[i].operation != s.breakdown[j].operation)
            && (forall i :: 0 <= i < |ms| ==> Names(s.breakdown, ms[i].operation))
            && (forall j :: 0 <= j < |s.breakdown| ==> Recorded(ms, s.breakdown[j].operation))
  {
    GroupFaithful(ms);
    GroupOperations(ms, Group(ms));
    assert GetSummary(ms, runtimeSeconds).value.breakdown == FinishAll(Group(ms));
  }

  /** Some entry of the breakdown is for `op`. */
  predicate Names(bs: seq<OpStats>, op: string) {
    exists j :: 0 <= j < |bs| && bs[j].operation == op
  }

  /** Some metric was recorded for `op`. */
  predicate Recorded(ms: seq<Metric>, op: string) {
    exists i :: 0 <= i < |ms| && ms[i].operation == op
  }

  lemma GroupOperations(ms: seq<Metric>, ts: seq<Tally>)
    requires Faithful(ts, ms)
    ensures var bs := FinishAll(ts);
            && (forall i, j :: 0 <= i < j < |bs| ==> bs[i].operation != bs[j].operation)
            && (forall i :: 0 <= i < |ms| ==> Names(bs, ms[i].operation))
            && (forall j :: 0 <= j < |bs| ==> Recorded(ms, bs[j].operation))
  {
    var bs := FinishAll(ts);
    forall i | 0 <= i < |ms|
      ensures Names(bs, ms[i].operation)
    {
      assert Listed(ts, ms[i].operation);
      var j :| 0 <= j < |ts| && ts[j].operation == ms[i].operation;
      assert bs[j].operation == ms[i].operation;
    }
    forall j | 0 <= j < |bs|
      ensures Recorded(ms, bs[j].operation)
    {
      CountOpRecorded(ms, ts[j].operation);
    }
  }

  /** An operation with a positive count was recorded. */
  lemma {:induction false} CountOpRecorded(ms: seq<Metric>, op: string)
    requires CountOp(ms, op) > 0
    ensures Recorded(ms, op)
    decreases |ms|
  {
    var n := |ms| - 1;
    if ms[n].operation != op {
      CountOpRecorded(ms[..n], op);
      var i :| 0 <= i < n && ms[..n][i].operation == op;
      assert ms[i] == ms[..n][i];
    }
  }

  /** The position of the first metric recorded for `op`, or `|ms|` when there is none. */
  function FirstSeen(ms: seq<Metric>, op: string): (k: nat)
    ensures k <= |ms|
    ensures k < |ms| ==> ms[k].operation == op
    ensures forall i :: 0 <= i < k ==> ms[i].operation != op
    decreases |ms|
  {
    if |ms| == 0 then 0
    else if ms[0].operation == op then 0
    else 1 + FirstSeen(ms[1..], op)
  }

  /** The breakdown lists the operations in the order they were first recorded. */
  lemma SummaryBreakdownOrder(ms: seq<Metric>, runtimeSeconds: real)
    requires |ms| > 0
    ensures var s := GetSummary(ms, runtimeSeconds).value;
            forall i, j :: 0 <= i < j < |s.breakdown| ==>
              FirstSeen(ms, s.breakdown[i].operation) < FirstSeen(ms, s.breakdown[j].operation)
  {
    GroupFaithful(ms);
    GroupOrder(ms);
    assert GetSummary(ms, runtimeSeconds).value.breakdown == FinishAll(Group(ms));
  }

  /** Every tally's operation was recorded, and the tallies are in first-recorded order. */
  predicate SeenInOrder(ts: seq<Tally>, ms: seq<Metric>) {
    && (forall i :: 0 <= i < |ts| ==> FirstSeen(ms, ts[i].operation) < |ms|)
    && (forall i, j :: 0 <= i < j < |ts| ==> FirstSeen(ms, ts[i].operation) < FirstSeen(ms, ts[j].operation))
  }

  lemma {:induction false} GroupOrder(ms: seq<Metric>)
    ensures SeenInOrder(Group(ms), ms)
    decreases |ms|
  {
    if |ms| > 0 {
      var init := ms[..|ms| - 1];
      var m := ms[|ms| - 1];
      assert ms == init + [m];
      GroupOrder(init);
      GroupFaithful(init);
      RecordOrder(Group(init), init, m);
    }
  }

  /** Counting one more metric keeps the tallies in first-recorded order: a new operation
      is first seen last. */
  lemma RecordOrder(ts: seq<Tally>, init: seq<Metric>, m: Metric)
    requires SeenInOrder(ts, init) && Covers(ts, init)
    ensures SeenInOrder(Record(ts, m), init + [m])
  {
    var ms := init + [m];
    var ts' := Record(ts, m);
    var k := IndexOf(ts, m.operation);
    forall i | 0 <= i < |ts'|
      ensures FirstSeen(ms, ts'[i].operation) == (if i < |ts| then FirstSeen(init, ts[i].operation) else |init|)
    {
      if i < |ts| {
        assert ts'[i].operation == ts[i].operation;
        FirstSeenSnoc(init, m, ts[i].operation);
      } else {
        assert ts'[i].operation == m.operation;
        FirstSeenSnoc(init, m, m.operation);
      }
    }
  }

  lemma FirstSeenSnoc(init: seq<Metric>, m: Metric, op: string)
    ensures FirstSeen(init + [m], op) ==
            if FirstSeen(init, op) < |init| then FirstSeen(init, op)
            else if m.operation == op then |init| else |init| + 1
  {
    var ms := init + [m];
    var a := FirstSeen(init, op);
    var b := FirstSeen(ms, op);
    if a < |init| {
      assert ms[a] == init[a];
    } else {
      assert forall i :: 0 <= i < |init| ==> ms[i] == init[i];
      assert ms[|init|] == m;
    }
  }

  /** The breakdown's counts and successes add up to the summary's totals. */
  lemma SummaryBreakdownSums(ms: seq<Metric>, runtimeSeconds: real)
    requires |ms| > 0
    ensures var s := GetSummary(ms, runtimeSeconds).value;
            && OpCounts(s.breakdown) == s.totalOperations
            && OpSuccesses(s.breakdown) == s.successfulOperations
  {
    GroupFaithful(ms);
    GroupSums(ms);
    FinishAllSums(Group(ms));
  }

  function OpCounts(bs: seq<OpStats>): nat
    decreases |bs|
  {
    if |bs| == 0 then 0 else OpCounts(bs[..|bs| - 1]) + bs[|bs| - 1].count
  }

  function OpSuccesses(bs: seq<OpStats>): nat
    decreases |bs|
  {
    if |bs| == 0 then 0 else OpSuccesses(bs[..|bs| - 1]) + bs[|bs| - 1].successCount
  }

  lemma {:induction false} FinishAllSums(ts: seq<Tally>)
    requires forall i :: 0 <= i < |ts| ==> ts[i].count > 0
    ensures OpCounts(FinishAll(ts)) == SumCounts(ts)
    ensures OpSuccesses(FinishAll(ts)) == SumSuccessCounts(ts)
    decreases |ts|
  {
    if |ts| > 0 {
      var n := |ts| - 1;
      FinishAllSums(ts[..n]);
      assert FinishAll(ts)[..n] == FinishAll(ts[..n]);
    }
  }

  lemma LatencyBounds(ms: seq<Metric>)
    requires |ms| > 0
    ensures MinLatency(ms) <= TotalLatency(ms) / |ms| as real <= MaxLatency(ms)
  {
    MeanOfBounded(ms, MinLatency(ms), MaxLatency(ms));
  }

  lemma MeanOfBounded(ms: seq<Metric>, lo: real, hi: real)
    requires |ms| > 0
    requires forall i :: 0 <= i < |ms| ==> lo <= ms[i].latencyMs <= hi
    ensures lo <= TotalLatency(ms) / |ms| as real <= hi
  {
    TotalBetween(ms, lo, hi);
    MeanBetween(lo, hi, TotalLatency(ms), |ms| as real);
  }

  lemma {:induction false} TotalBetween(ms: seq<Metric>, lo: real, hi: real)
    requires forall i :: 0 <= i < |ms| ==> lo <= ms[i].latencyMs <= hi
    ensures lo * |ms| as real <= TotalLatency(ms) <= hi * |ms| as real
    decreases |ms|
  {
    if |ms| > 0 {
      TotalBetween(ms[..|ms| - 1], lo, hi);
    }
  }

  lemma {:induction false} SuccessOpAtMost(ms: seq<Metric>)
    ensures forall op :: SuccessOp(ms, op) <= CountOp(ms, op)
    decreases |ms|
  {
    if |ms| > 0 {
      SuccessOpAtMost(ms[..|ms| - 1]);
    }
  }

  function SumCounts(ts: seq<Tally>): nat
    decreases |ts|
  {
    if |ts| == 0 then 0 else SumCounts(ts[..|ts| - 1]) + ts[|ts| - 1].count
  }

  function SumSuccessCounts(ts: seq<Tally>): nat
    decreases |ts|
  {
    if |ts| == 0 then 0 else SumSuccessCounts(ts[..|ts| - 1]) + ts[|ts| - 1].successCount
  }

  /** The per-operation counts add up to the totals. */
  lemma {:induction false} GroupSums(ms: seq<Metric>)
    ensures SumCounts(Group(ms)) == |ms|
    ensures SumSuccessCounts(Group(ms)) == CountWhere(ms, Succeeded)
    decreases |ms|
  {
    if |ms| > 0 {
      var init := ms[..|ms| - 1];
      var m := ms[|ms| - 1];
      GroupSums(init);
      RecordSums(Group(init), m);
    }
  }

  lemma RecordSums(ts: seq<Tally>, m: Metric)
    ensures SumCounts(Record(ts, m)) == SumCounts(ts) + 1
    ensures SumSuccessCounts(Record(ts, m)) == SumSuccessCounts(ts) + (if m.success then 1 else 0)
  {
    var k := IndexOf(ts, m.operation);
    if k < |ts| {
      var t := ts[k];
      var t' := Tally(m.operation, t.count + 1, t.successCount + (if m.success then 1 else 0),
                      t.totalLatency + m.latencyMs);
      SumsUpdate(ts, k, t');
    } else {
      assert (ts + [Record(ts, m)[|ts|]])[..|ts|] == ts;
    }
  }

  lemma {:induction false} SumsUpdate(ts: seq<Tally>, k: nat, t: Tally)
    requires k < |ts|
    ensures SumCounts(ts[k := t]) == SumCounts(ts) - ts[k].count + t.count
    ensures SumSuccessCounts(ts[k := t]) == SumSuccessCounts(ts) - ts[k].successCount + t.successCount
    decreases |ts|
  {
    var n := |ts| - 1;
    if k < n {
      assert ts[k := t][..n] == ts[..n][k := t];
      SumsUpdate(ts[..n], k, t);
    } else {
      assert ts[k := t][..n] == ts[..n];
    }
  }
}

=== FILE: registration.dfy ===
/** Registering the Claude model, the team's agents and the team with AutoGen Studio
    through its REST API (studio/register_agents_in_studio.py).

    Each Studio collection is a `Store`: the records its listing returns, in order, and
    the statuses its listing and its creation requests answer with. A successful
    creation stores the payload under a fresh id and answers with that id. The health
    probe's status and the contents of `team.json` are inputs. */
module Registration {
  import opened Wrappers
  import opened Json

  datatype Store = Store(items: seq<Json>, listStatus: int, postStatus: int, nextId: int)

  /** One find-or-create call: the id it returned (`null` for Python's `None`), or the
      exception it raised, and the store afterwards. */
  datatype Step = Step(id: Result<Json, PyError>, store: Store)

  /** The loop over a listing: the id of the first record whose `key` equals `want`.
      A record without `get` raises, and so does a match without an `id`. */
  function Find(items: seq<Json>, key: string, want: Json): (r: Result<Option<Json>, PyError>)
    ensures r == Ok(None) <==>
              forall i :: 0 <= i < |items| ==> items[i].JObj? && Get(items[i].fields, key, JNull) != want
    decreases |items|
  {
    if |items| == 0 then Ok(None)
    else
      match GetAttr(items[0], key, JNull)
      case Err(e) => Err(e)
      case Ok(v) =>
        if v == want then
          match Index(items[0].fields, "id")
          case Err(e) => Err(e)
          case Ok(id) => Ok(Some(id))
        else
          var rest := Find(items[1..], key, want);
          assert forall i :: 1 <= i < |items| ==> items[i] == items[1..][i - 1];
          rest
  }

  /** The first matching record wins: everything before it is a non-matching dict. */
  lemma {:induction false} FindFirst(items: seq<Json>, key: string, want: Json, k: nat)
    requires k < |items| && items[k].JObj? && Get(items[k].fields, key, JNull) == want
    requires "id" in items[k].fields
    requires forall i :: 0 <= i < k ==> items[i].JObj? && Get(items[i].fields, key, JNull) != want
    ensures Find(items, key, want) == Ok(Some(items[k].fields["id"]))
    decreases k
  {
    if k > 0 {
      FindFirst(items[1..], key, want, k - 1);
    }
  }

  /** The listing holds a dict record whose `key` is `want` and whose id is `id`. */
  predicate Lists(items: seq<Json>, key: string, want: Json, id: Json) {
    exists j :: 0 <= j < |items| && items[j].JObj? && Get(items[j].fields, key, JNull) == want
                && "id" in items[j].fields && items[j].fields["id"] == id
  }

  /** A found id is the id of a listed record with the wanted value. */
  lemma {:induction false} FindFound(items: seq<Json>, key: string, want: Json)
    requires Find(items, key, want).Ok? && Find(items, key, want).value.Some?
    ensures Lists(items, key, want, Find(items, key, want).value.value)
    decreases |items|
  {
    if Get(items[0].fields, key, JNull) != want {
      FindFound(items[1..], key, want);
      var j :| 0 <= j < |items[1..]| && items[1..][j].JObj? && Get(items[1..][j].fields, key, JNull) == want
               && "id" in items[1..][j].fields && items[1..][j].fields["id"] == Find(items, key, want).value.value;
      assert items[j + 1] == items[1..][j];
    } else {
      assert items[0].JObj? && "id" in items[0].fields;
    }
  }

  /** `register_*`'s find-or-create: with a listing, an existing record is returned and
      nothing is posted; otherwise the payload is posted, and a refused post gives `None`. */
  function FindOrCreate(store: Store, key: string, payload: Dict): (s: Step)
    requires key in payload
    ensures store.listStatus == 200 && Find(store.items, key, payload[key]).Err? ==>
              s == Step(Err(Find(store.items, key, payload[key]).error), store)
    ensures store.listStatus == 200 && Find(store.items, key, payload[key]).Ok?
            && Find(store.items, key, payload[key]).value.Some? ==>
              s == Step(Ok(Find(store.items, key, payload[key]).value.value), store)
    ensures (store.listStatus != 200 || Find(store.items, key, payload[key]) == Ok(None)) ==>
              && (store.postStatus == 200 ==>
                    s == Step(Ok(JInt(store.nextId)),
                              store.(items := store.items + [JObj(payload["id" := JInt(store.nextId)])],
                                     nextId := store.nextId + 1)))
              && (store.postStatus != 200 ==> s == Step(Ok(JNull), store))
    // only a post changes the store, and then by one record
    ensures s.store == store || (s.store.items == store.items + [JObj(payload["id" := JInt(store.nextId)])])
    ensures Extends(s.store, store)
  {
    var found := if store.listStatus == 200 then Find(store.items, key, payload[key]) else Ok(None);
    match found
    case Err(e) => Step(Err(e), store)
    case Ok(Some(id)) => Step(Ok(id), store)
    case Ok(None) =>
      if store.postStatus == 200 then
        Step(Ok(JInt(store.nextId)),
             store.(items := store.items + [JObj(payload["id" := JInt(store.nextId)])], nextId := store.nextId + 1))
      else Step(Ok(JNull), store)
  }

  /** An id that came back, other than `None`, belongs to a record with the payload's
      `key` that the store now lists: a found one, or the one just created. */
  lemma FindOrCreateLists(store: Store, key: string, payload: Dict)
    requires key in payload && key != "id"
    ensures var s := FindOrCreate(store, key, payload);
            s.id.Ok? && s.id.value != JNull ==> Lists(s.store.items, key, payload[key], s.id.value)
  {
    var s := FindOrCreate(store, key, payload);
    if store.listStatus == 200 && Find(store.items, key, payload[key]).Ok?
       && Find(store.items, key, payload[key]).value.Some? {
      FindFound(store.items, key, payload[key]);
    } else if s.id.Ok? && s.id.value != JNull {
      assert s.store.items[|store.items|] == JObj(payload["id" := JInt(store.nextId)]);
    }
  }

  /** Appending a record after a listing with no match leaves the record as the first
      match. */
  lemma {:induction false} FindAfterMisses(items: seq<Json>, key: string, want: Json, x: Json)
    requires Find(items, key, want) == Ok(None)
    ensures Find(items + [x], key, want) == Find([x], key, want)
    decreases |items|
  {
    if |items| > 0 {
      assert (items + [x])[1..] == items[1..] + [x];
      assert forall i :: 1 <= i < |items| ==> items[i] == items[1..][i - 1];
      FindAfterMisses(items[1..], key, want, x);
    }
  }

  /** Find-or-create is idempotent while the listing works: the second call returns the
      same id and leaves the store as the first call left it. */
  lemma RegisterTwice(store: Store, key: string, payload: Dict)
    requires key in payload && key != "id" && store.listStatus == 200
    ensures var first := FindOrCreate(store, key, payload);
            FindOrCreate(first.store, key, payload) == first
  {
    var want := payload[key];
    var first := FindOrCreate(store, key, payload);
    if Find(store.items, key, want) == Ok(None) && store.postStatus == 200 {
      var record := JObj(payload["id" := JInt(store.nextId)]);
      FindAfterMisses(store.items, key, want, record);
      assert record.fields[key] == want && record.fields["id"] == JInt(store.nextId);
      assert Find([record], key, want) == Ok(Some(JInt(store.nextId)));
    }
  }

  /** Without a working listing nothing is found, so every successful call adds a record:
      registering twice stores the payload twice. */
  lemma NoListingDuplicates(store: Store, key: string, payload: Dict)
    requires key in payload && store.listStatus != 200 && store.postStatus == 200
    ensures var first := FindOrCreate(store, key, payload);
            var second := FindOrCreate(first.store, key, payload);
            && |second.store.items| == |store.items| + 2
            && second.id != first.id
  {
  }

  const ModelPayload: Dict := map[
    "name" := JStr("Claude Opus via Wrapper"),
    "model" := JStr("claude-opus-4-20250514"),
    "api_type" := JStr("openai"),
    "base_url" := JStr("http://localhost:8000/v1"),
    "description" := JStr("Claude Opus 4 accessed through local OpenAI-compatible wrapper")]

  /** `register_model()`: find-or-create by the `model` string. */
  function RegisterModel(models: Store): (s: Step)
    ensures s == FindOrCreate(models, "model", ModelPayload)
    // an existing model of the same kind is reused without posting
    ensures models.listStatus == 200 && Find(models.items, "model", ModelPayload["model"]).Ok?
            && Find(models.items, "model", ModelPayload["model"]).value.Some? ==>
              s.store == models && s.id == Ok(Find(models.items, "model", ModelPayload["model"]).value.value)
  {
    FindOrCreate(models, "model", ModelPayload)
  }

  /** The payload `register_agent` posts: `name`, `description` and `system_message` are
      required in that order, the generation settings default from `model_client`. */
  function AgentPayload(config: Json, modelId: Json): (r: Result<Dict, PyError>)
    ensures !config.JObj? ==> r.Err? && r.error.TypeError?
    ensures config.JObj? && "name" !in config.fields ==> r == Err(KeyError("name"))
    ensures config.JObj? && "name" in config.fields && "description" !in config.fields ==>
              r == Err(KeyError("description"))
    ensures (config.JObj? && "name" in config.fields && "description" in config.fields
             && "system_message" !in config.fields) ==> r == Err(KeyError("system_message"))
    ensures r.Ok? <==>
              && config.JObj?
              && "name" in config.fields && "description" in config.fields && "system_message" in config.fields
              && Get(config.fields, "model_client", JObj(map[])).JObj?
    ensures r.Ok? ==>
              var client := Get(config.fields, "model_client", JObj(map[])).fields;
              && r.value.Keys == {"name", "description", "system_message", "model_id", "type", "config"}
              && r.value["name"] == config.fields["name"]
              && r.value["description"] == config.fields["description"]
              && r.value["system_message"] == config.fields["system_message"]
              && r.value["model_id"] == modelId
              && r.value["type"] == JStr("assistant")
              && r.value["config"] == JObj(map["temperature" := Get(client, "temperature", JFloat(0.5)),
                                               "max_tokens" := Get(client, "max_tokens", JInt(4096))])
  {
    match Subscript(config, "name")
    case Err(e) => Err(e)
    case Ok(name) =>
      match Subscript(config, "description")
      case Err(e) => Err(e)
      case Ok(description) =>
        match Subscript(config, "system_message")
        case Err(e) => Err(e)
        case Ok(systemMessage) =>
          var client := Get(config.fields, "model_client", JObj(map[]));
          match GetAttr(client, "temperature", JFloat(0.5))
          case Err(e) => Err(e)
          case Ok(temperature) =>
            Ok(map[
              "name" := name,
              "description" := description,
              "system_message" := systemMessage,
              "model_id" := modelId,
              "type" := JStr("assistant"),
              "config" := JObj(map["temperature" := temperature,
                                   "max_tokens" := GetAttr(client, "max_tokens", JInt(4096)).value])])
  }

  /** `register_agent(agent_config, model_id)`: the payload is built before the store is
      asked, then find-or-create by name. */
  function RegisterAgent(agents: Store, config: Json, modelId: Json): (s: Step)
    // a config missing a required field raises before any request is made
    ensures AgentPayload(config, modelId).Err? ==> s.id.Err? && s.store == agents
    // an id that came back is that of a record with the config's name the store lists
    ensures s.id.Ok? && s.id.value != JNull ==>
              config.JObj? && "name" in config.fields && Lists(s.store.items, "name", config.fields["name"], s.id.value)
    // the store is left alone, or gains the payload as one new record under a fresh id
    ensures s.store == agents
            || (&& AgentPayload(config, modelId).Ok?
                && s.store.items == agents.items + [JObj(AgentPayload(config, modelId).value["id" := JInt(agents.nextId)])]
                && s.id == Ok(JInt(agents.nextId)))
    ensures Extends(s.store, agents)
    // with a listing, an agent already listed under the name is reused: no post, no change
    ensures agents.listStatus == 200 && AgentPayload(config, modelId).Ok?
            && Find(agents.items, "name", config.fields["name"]).Ok?
            && Find(agents.items, "name", config.fields["name"]).value.Some? ==>
              s == Step(Ok(Find(agents.items, "name", config.fields["name"]).value.value), agents)
    // a listing that cannot be searched raises, and nothing is posted
    ensures agents.listStatus == 200 && AgentPayload(config, modelId).Ok?
            && Find(agents.items, "name", config.fields["name"]).Err? ==>
              s == Step(Err(Find(agents.items, "name", config.fields["name"]).error), agents)
    // with no listing or no match, an accepted post returns the fresh id, a refused one `None`
    ensures (&& AgentPayload(config, modelId).Ok?
             && (agents.listStatus != 200 || Find(agents.items, "name", config.fields["name"]) == Ok(None))) ==>
              && (agents.postStatus == 200 ==> s.id == Ok(JInt(agents.nextId)) && |s.store.items| == |agents.items| + 1)
              && (agents.postStatus != 200 ==> s == Step(Ok(JNull), agents))
  {
    match AgentPayload(config, modelId)
    case Err(e) => Step(Err(e), agents)
    case Ok(payload) =>
      FindOrCreateLists(agents, "name", payload);
      FindOrCreate(agents, "name", payload)
  }

  /** A repeated registration of the same agent returns the same id and changes nothing. */
  lemma RegisterAgentTwice(agents: Store, config: Json, modelId: Json)
    requires agents.listStatus == 200
    ensures var first := RegisterAgent(agents, config, modelId);
            RegisterAgent(first.store, config, modelId) == first
  {
    if AgentPayload(config, modelId).Ok? {
      RegisterTwice(agents, "name", AgentPayload(config, modelId).value);
    }
  }

  const Termination: Json := JObj(map[
    "type" := JStr("combination"),
    "conditions" := JList([
      JObj(map["type" := JStr("text_mention"), "text" := JStr("APPROVED")]),
      JObj(map["type" := JStr("max_messages"), "max_messages" := JInt(15)])])])

  /** The payload `register_team` posts. */
  function TeamPayload(team: Json, agentIds: seq<Json>): (r: Result<Dict, PyError>)
    ensures r.Ok? <==> team.JObj? && "name" in team.fields && "description" in team.fields
    ensures r.Ok? ==>
              && r.value.Keys == {"name", "description", "participants", "type", "config"}
              && r.value["name"] == team.fields["name"]
              && r.value["description"] == team.fields["description"]
              && r.value["participants"] == JList(agentIds)
              && r.value["type"] == JStr("roundrobin")
              && r.value["config"] == JObj(map["termination_condition" := Termination])
  {
    match Subscript(team, "name")
    case Err(e) => Err(e)
    case Ok(name) =>
      match Subscript(team, "description")
      case Err(e) => Err(e)
      case Ok(description) =>
        Ok(map[
          "name" := name,
          "description" := description,
          "participants" := JList(agentIds),
          "type" := JStr("roundrobin"),
          "config" := JObj(map["termination_condition" := Termination])])
  }

  /** `register_team(team_config, agent_ids)`: find-or-create by name. */
  function RegisterTeam(teams: Store, team: Json, agentIds: seq<Json>): (s: Step)
    // a team config without a name or a description raises before any request
    ensures TeamPayload(team, agentIds).Err? ==> s.id.Err? && s.store == teams
    // an id that came back is that of a record with the team's name the store lists
    ensures s.id.Ok? && s.id.value != JNull ==>
              team.JObj? && "name" in team.fields && Lists(s.store.items, "name", team.fields["name"], s.id.value)
    // a new team record lists exactly the given agent ids as its participants
    ensures s.store == teams
            || (&& |s.store.items| == |teams.items| + 1
                && s.store.items[..|teams.items|] == teams.items
                && s.store.items[|teams.items|].JObj?
                && "participants" in s.store.items[|teams.items|].fields
                && s.store.items[|teams.items|].fields["participants"] == JList(agentIds)
                && s.id == Ok(JInt(teams.nextId)))
    ensures Extends(s.store, teams)
    // with a listing, a team already listed under the name is reused: no post, no change
    ensures teams.listStatus == 200 && TeamPayload(team, agentIds).Ok?
            && Find(teams.items, "name", team.fields["name"]).Ok?
            && Find(teams.items, "name", team.fields["name"]).value.Some? ==>
              s == Step(Ok(Find(teams.items, "name", team.fields["name"]).value.value), teams)
    // a listing that cannot be searched raises, and nothing is posted
    ensures teams.listStatus == 200 && TeamPayload(team, agentIds).Ok?
            && Find(teams.items, "name", team.fields["name"]).Err? ==>
              s == Step(Err(Find(teams.items, "name", team.fields["name"]).error), teams)
    // with no listing or no match, an accepted post returns the fresh id, a refused one `None`
    ensures (&& TeamPayload(team, agentIds).Ok?
             && (teams.listStatus != 200 || Find(teams.items, "name", team.fields["name"]) == Ok(None))) ==>
              && (teams.postStatus == 200 ==> s.id == Ok(JInt(teams.nextId)) && |s.store.items| == |teams.items| + 1)
              && (teams.postStatus != 200 ==> s == Step(Ok(JNull), teams))
  {
    match TeamPayload(team, agentIds)
    case Err(e) => Step(Err(e), teams)
    case Ok(payload) =>
      FindOrCreateLists(teams, "name", payload);
      FindOrCreate(teams, "name", payload)
  }

  /** The termination condition is the text "APPROVED" or fifteen messages. */
  lemma TeamTermination(team: Json, agentIds: seq<Json>)
    requires TeamPayload(team, agentIds).Ok?
    ensures var c := TeamPayload(team, agentIds).value["config"].fields["termination_condition"];
            && c.fields["conditions"].items[0].fields["text"] == JStr("APPROVED")
            && c.fields["conditions"].items[1].fields["max_messages"] == JInt(15)
  {
  }

  /** The ids kept from the agent registrations: the truthy ones, in order. */
  function KeepTruthy(ids: seq<Json>): (kept: seq<Json>)
    ensures forall i :: 0 <= i < |kept| ==> Truthy(kept[i])
    ensures forall x :: x in kept ==> x in ids
    ensures |kept| <= |ids|
    decreases |ids|
  {
    if |ids| == 0 then []
    else if Truthy(ids[|ids| - 1]) then KeepTruthy(ids[..|ids| - 1]) + [ids[|ids| - 1]]
    else KeepTruthy(ids[..|ids| - 1])
  }

  /** Filtering distributes over concatenation, so the kept ids keep their order. */
  lemma {:induction false} KeepTruthyAppend(a: seq<Json>, b: seq<Json>)
    ensures KeepTruthy(a + b) == KeepTruthy(a) + KeepTruthy(b)
    decreases |b|
  {
    if |b| > 0 {
      var b' := b[..|b| - 1];
      assert (a + b)[..|a + b| - 1] == a + b';
      var x := b[|b| - 1];
      assert (a + b)[|a + b| - 1] == x;
      KeepTruthyAppend(a, b');
      if Truthy(x) {
        assert KeepTruthy(b) == KeepTruthy(b') + [x];
        assert KeepTruthy(a + b) == KeepTruthy(a) + KeepTruthy(b') + [x];
      } else {
        assert KeepTruthy(b) == KeepTruthy(b');
      }
    } else {
      assert a + b == a;
    }
  }

  /** No truthy id is dropped. */
  lemma {:induction false} KeepTruthyKeepsAll(ids: seq<Json>, i: nat)
    requires i < |ids| && Truthy(ids[i])
    ensures ids[i] in KeepTruthy(ids)
    decreases |ids|
  {
    if i < |ids| - 1 {
      KeepTruthyKeepsAll(ids[..|ids| - 1], i);
    }
  }

  /** What `for participant in team_config["participants"]` iterates over. A dict or a
      str yields strings, which the first `participant["name"]` rejects; an empty one
      yields nothing. */
  function Participants(team: Json): (r: Result<seq<Json>, PyError>)
    ensures team.JObj? && "participants" in team.fields && team.fields["participants"].JList? ==>
              r == Ok(team.fields["participants"].items)
    ensures r.Ok? ==> team.JObj? && "participants" in team.fields
  {
    match Subscript(team, "participants")
    case Err(e) => Err(e)
    case Ok(JList(xs)) => Ok(xs)
    case Ok(JObj(m)) => if m == map[] then Ok([]) else Err(TypeError("string indices must be integers, not 'str'"))
    case Ok(JStr(s)) => if s == "" then Ok([]) else Err(TypeError("string indices must be integers, not 'str'"))
    case Ok(other) => Err(TypeError("'" + TypeName(other) + "' object is not iterable"))
  }

  /** The ids the agent registrations returned, in order, and the agent store after them;
      the first exception stops the loop. */
  datatype AgentRun = AgentRun(ids: seq<Json>, store: Store, error: Option<PyError>)

  function RegisterParticipants(agents: Store, participants: seq<Json>, modelId: Json): (r: AgentRun)
    ensures |r.ids| <= |participants|
    ensures r.error.None? <==> |r.ids| == |participants|
    ensures |r.ids| > 0 ==> RegisterAgent(agents, participants[0], modelId).id == Ok(r.ids[0])
    ensures |participants| > 0 && |r.ids| == 0 && r.error.Some? ==>
              RegisterAgent(agents, participants[0], modelId).id == Err(r.error.value)
    ensures Extends(r.store, agents)
    decreases |participants|
  {
    if |participants| == 0 then AgentRun([], agents, None)
    else
      var step := RegisterAgent(agents, participants[0], modelId);
      match step.id
      case Err(e) => AgentRun([], agents, Some(e))
      case Ok(id) =>
        var rest := RegisterParticipants(step.store, participants[1..], modelId);
        ExtendsTransitive(rest.store, step.store, agents);
        AgentRun([id] + rest.ids, rest.store, rest.error)
  }

  /** The agent store after the first k registrations of the loop. */
  function StoreAfter(agents: Store, participants: seq<Json>, modelId: Json, k: nat): Store
    requires k <= |participants|
    decreases k
  {
    if k == 0 then agents
    else StoreAfter(RegisterAgent(agents, participants[0], modelId).store, participants[1..], modelId, k - 1)
  }

  /** The k-th registration ran against the store the first k registrations left: its
      id is the k-th id, and the registration that stopped the loop raised the run's
      error and left the run's store. */
  lemma {:induction false} ParticipantIds(agents: Store, participants: seq<Json>, modelId: Json, k: nat)
    requires k < |participants| && k <= |RegisterParticipants(agents, participants, modelId).ids|
    ensures var r := RegisterParticipants(agents, participants, modelId);
            var before := StoreAfter(agents, participants, modelId, k);
            && (k < |r.ids| ==> RegisterAgent(before, participants[k], modelId).id == Ok(r.ids[k]))
            && (k == |r.ids| ==> r.error.Some? && r.store == before
                                 && RegisterAgent(before, participants[k], modelId).id == Err(r.error.value))
    decreases k
  {
    if k > 0 {
      var r := RegisterParticipants(agents, participants, modelId);
      var step := RegisterAgent(agents, participants[0], modelId);
      var rest := RegisterParticipants(step.store, participants[1..], modelId);
      assert step.id.Ok?;
      assert r == AgentRun([step.id.value] + rest.ids, rest.store, rest.error);
      assert participants[1..][k - 1] == participants[k];
      assert StoreAfter(agents, participants, modelId, k) == StoreAfter(step.store, participants[1..], modelId, k - 1);
      ParticipantIds(step.store, participants[1..], modelId, k - 1);
      if k < |r.ids| {
        assert r.ids[k] == rest.ids[k - 1];
      }
    }
  }

  /** While the listing works, every returned id is what registering that participant
      against the final store returns, with no further change. */
  lemma {:induction false} ParticipantIdsFinal(agents: Store, participants: seq<Json>, modelId: Json)
    requires agents.listStatus == 200
    ensures var r := RegisterParticipants(agents, participants, modelId);
            forall k :: 0 <= k < |r.ids| ==>
              RegisterAgent(r.store, participants[k], modelId) == Step(Ok(r.ids[k]), r.store)
    decreases |participants|
  {
    var r := RegisterParticipants(agents, participants, modelId);
    if |participants| > 0 {
      var step := RegisterAgent(agents, participants[0], modelId);
      if step.id.Ok? {
        var rest := RegisterParticipants(step.store, participants[1..], modelId);
        RegisterAgentStable(agents, r.store, participants[0], modelId);
        ParticipantIdsFinal(step.store, participants[1..], modelId);
        forall k | 0 <= k < |r.ids|
          ensures RegisterAgent(r.store, participants[k], modelId) == Step(Ok(r.ids[k]), r.store)
        {
          if k > 0 {
            assert participants[k] == participants[1..][k - 1];
            assert r.ids[k] == rest.ids[k - 1];
          }
        }
      }
    }
  }

  /** `big` is `small` after zero or more successful posts: the same endpoints, and the
      same records with possibly more appended. A store whose posts are refused never
      grows. */
  predicate Extends(big: Store, small: Store) {
    && big.listStatus == small.listStatus && big.postStatus == small.postStatus
    && small.items <= big.items
    && (small.postStatus != 200 ==> big.items == small.items)
  }

  lemma ExtendsTransitive(a: Store, b: Store, c: Store)
    requires Extends(a, b) && Extends(b, c)
    ensures Extends(a, c)
  {
  }

  /** A listing search is decided by the records it has seen, so appending records
      changes only a search that found nothing. */
  lemma {:induction false} FindExtended(items: seq<Json>, more: seq<Json>, key: string, want: Json)
    requires Find(items, key, want) != Ok(None)
    ensures Find(items + more, key, want) == Find(items, key, want)
    decreases |items|
  {
    assert |items| > 0;
    assert (items + more)[0] == items[0];
    if GetAttr(items[0], key, JNull).Ok? && GetAttr(items[0], key, JNull).value != want {
      assert (items + more)[1..] == items[1..] + more;
      FindExtended(items[1..], more, key, want);
    }
  }

  /** Find-or-create against any later state of the store it left: the same id again, and
      no further change. */
  lemma FindOrCreateStable(store: Store, later: Store, key: string, payload: Dict)
    requires key in payload && key != "id" && store.listStatus == 200
    requires Extends(later, FindOrCreate(store, key, payload).store)
    ensures FindOrCreate(later, key, payload) == Step(FindOrCreate(store, key, payload).id, later)
  {
    var want := payload[key];
    var first := FindOrCreate(store, key, payload);
    if Find(store.items, key, want) != Ok(None) {
      FindExtended(store.items, later.items[|store.items|..], key, want);
      assert store.items + later.items[|store.items|..] == later.items;
    } else if store.postStatus == 200 {
      RegisterTwice(store, key, payload);
      var grown := first.store.items;
      FindExtended(grown, later.items[|grown|..], key, want);
      assert grown + later.items[|grown|..] == later.items;
    }
  }

  lemma RegisterAgentStable(agents: Store, later: Store, config: Json, modelId: Json)
    requires agents.listStatus == 200
    requires Extends(later, RegisterAgent(agents, config, modelId).store)
    ensures RegisterAgent(later, config, modelId) == Step(RegisterAgent(agents, config, modelId).id, later)
  {
    if AgentPayload(config, modelId).Ok? {
      FindOrCreateStable(agents, later, "name", AgentPayload(config, modelId).value);
    }
  }

  /** Registering the participants again against the store the first pass left gives the
      same ids and the same stop, and changes nothing. */
  lemma {:induction false} ParticipantsStable(agents: Store, later: Store, participants: seq<Json>, modelId: Json)
    requires agents.listStatus == 200
    requires Extends(later, RegisterParticipants(agents, participants, modelId).store)
    ensures var r := RegisterParticipants(agents, participants, modelId);
            RegisterParticipants(later, participants, modelId) == AgentRun(r.ids, later, r.error)
    decreases |participants|
  {
    if |participants| > 0 {
      var step := RegisterAgent(agents, participants[0], modelId);
      if step.id.Ok? {
        var rest := RegisterParticipants(step.store, participants[1..], modelId);
        ExtendsTransitive(later, rest.store, step.store);
        RegisterAgentStable(agents, later, participants[0], modelId);
        ParticipantsStable(step.store, later, participants[1..], modelId);
      } else {
        RegisterAgentStable(agents, later, participants[0], modelId);
      }
    }
  }

  datatype Studio = Studio(health: Option<int>, models: Store, agents: Store, teams: Store)

  datatype Outcome =
    | DirectDatabase
    | ModelFailed
    | Registered(modelId: Json, agentIds: seq<Json>, teamId: Option<Json>)
    | Raised(error: PyError)

  datatype MainRun = MainRun(outcome: Outcome, studio: Studio)

  /** `main()` on the API path: the model first, then every participant of `team.json`
      (when present) and, if any agent was registered, the team. A health probe that is
      not a 200 response selects the direct-database path instead. */
  function RegisterAll(studio: Studio, teamFile: Option<Json>): (run: MainRun)
    ensures studio.health != Some(200) ==> run == MainRun(DirectDatabase, studio)
    // a failed model registration aborts before any agent is registered
    ensures studio.health == Some(200) && RegisterModel(studio.models).id.Ok?
            && !Truthy(RegisterModel(studio.models).id.value) ==>
              run.outcome == ModelFailed && run.studio.agents == studio.agents && run.studio.teams == studio.teams
    // the team is registered only with at least one agent id, and the ids are all truthy
    ensures run.outcome.Registered? ==>
              && (forall i :: 0 <= i < |run.outcome.agentIds| ==> Truthy(run.outcome.agentIds[i]))
              && (run.outcome.teamId.Some? <==> |run.outcome.agentIds| > 0)
              && Truthy(run.outcome.modelId)
    ensures run.studio.models == RegisterModel(studio.models).store || run.outcome == DirectDatabase
  {
    if studio.health != Some(200) then MainRun(DirectDatabase, studio)
    else
      var model := RegisterModel(studio.models);
      var studio1 := studio.(models := model.store);
      match model.id
      case Err(e) => MainRun(Raised(e), studio1)
      case Ok(modelId) =>
        if !Truthy(modelId) then MainRun(ModelFailed, studio1)
        else AgentStage(studio1, modelId, teamFile)
  }

  /** The part of `main` after the model: the participants of `team.json`, if the file
      exists, and then the team. */
  function AgentStage(studio: Studio, modelId: Json, teamFile: Option<Json>): (run: MainRun)
    requires Truthy(modelId)
    ensures run.studio.models == studio.models && run.studio.health == studio.health
    ensures teamFile.None? ==> run == MainRun(Registered(modelId, [], None), studio)
    ensures teamFile.Some? && Participants(teamFile.value).Ok? ==>
              run == TeamStage(studio, modelId, teamFile.value,
                               RegisterParticipants(studio.agents, Participants(teamFile.value).value, modelId))
    ensures run.outcome.Registered? ==>
              && (forall i :: 0 <= i < |run.outcome.agentIds| ==> Truthy(run.outcome.agentIds[i]))
              && (run.outcome.teamId.Some? <==> |run.outcome.agentIds| > 0)
              && run.outcome.modelId == modelId
  {
    match teamFile
    case None => MainRun(Registered(modelId, [], None), studio)
    case Some(team) =>
      match Participants(team)
      case Err(e) => MainRun(Raised(e), studio)
      case Ok(participants) =>
        TeamStage(studio, modelId, team, RegisterParticipants(studio.agents, participants, modelId))
  }

  /** After the agent registrations: an exception ends the run; otherwise the truthy ids,
      in order, are kept, and the team is registered only when there is at least one. */
  function TeamStage(studio: Studio, modelId: Json, team: Json, agentRun: AgentRun): (run: MainRun)
    requires Truthy(modelId)
    ensures run.studio == studio.(agents := agentRun.store, teams := run.studio.teams)
    ensures agentRun.error.Some? ==> run.outcome == Raised(agentRun.error.value) && run.studio.teams == studio.teams
    ensures agentRun.error.None? && |KeepTruthy(agentRun.ids)| == 0 ==>
              run.outcome == Registered(modelId, [], None) && run.studio.teams == studio.teams
    ensures agentRun.error.None? && |KeepTruthy(agentRun.ids)| > 0 ==>
              var step := RegisterTeam(studio.teams, team, KeepTruthy(agentRun.ids));
              && run.studio.teams == step.store
              && (step.id.Err? ==> run.outcome == Raised(step.id.error))
              && (step.id.Ok? ==> run.outcome == Registered(modelId, KeepTruthy(agentRun.ids), Some(step.id.value)))
    ensures run.outcome.Registered? ==>
              && (forall i :: 0 <= i < |run.outcome.agentIds| ==> Truthy(run.outcome.agentIds[i]))
              && (run.outcome.teamId.Some? <==> |run.outcome.agentIds| > 0)
              && run.outcome.modelId == modelId
  {
    var studio2 := studio.(agents := agentRun.store);
    if agentRun.error.Some? then MainRun(Raised(agentRun.error.value), studio2)
    else
      var agentIds := KeepTruthy(agentRun.ids);
      if |agentIds| == 0 then MainRun(Registered(modelId, [], None), studio2)
      else
        var teamStep := RegisterTeam(studio2.teams, team, agentIds);
        var studio3 := studio2.(teams := teamStep.store);
        match teamStep.id
        case Err(e) => MainRun(Raised(e), studio3)
        case Ok(teamId) => MainRun(Registered(modelId, agentIds, Some(teamId)), studio3)
  }

  /** The registered agent ids are exactly the truthy ids the registrations returned, in
      participant order, and the team lists them as its participants. */
  lemma RegisterAllAgentIds(studio: Studio, team: Json)
    requires studio.health == Some(200)
    requires RegisterModel(studio.models).id.Ok? && Truthy(RegisterModel(studio.models).id.value)
    requires Participants(team).Ok?
    ensures var modelId := RegisterModel(studio.models).id.value;
            var agentRun := RegisterParticipants(studio.agents, Participants(team).value, modelId);
            var run := RegisterAll(studio, Some(team));
            agentRun.error.None? && run.outcome.Registered? ==>
              && run.outcome.agentIds == KeepTruthy(agentRun.ids)
              && (|run.outcome.agentIds| > 0 ==>
                    run.studio.teams == RegisterTeam(studio.teams, team, run.outcome.agentIds).store
                    && TeamPayload(team, run.outcome.agentIds).Ok?
                    && TeamPayload(team, run.outcome.agentIds).value["participants"] == JList(run.outcome.agentIds))
    // with a working agent listing, each returned id is what registering its participant
    // against the agent store the run left returns
    ensures var modelId := RegisterModel(studio.models).id.value;
            var participants := Participants(team).value;
            var agentRun := RegisterParticipants(studio.agents, participants, modelId);
            var run := RegisterAll(studio, Some(team));
            studio.agents.listStatus == 200 ==>
              forall k :: 0 <= k < |agentRun.ids| ==>
                RegisterAgent(run.studio.agents, participants[k], modelId) == Step(Ok(agentRun.ids[k]), run.studio.agents)
  {
    var model := RegisterModel(studio.models);
    var studio1 := studio.(models := model.store);
    var agentRun := RegisterParticipants(studio.agents, Participants(team).value, model.id.value);
    assert RegisterAll(studio, Some(team)) == TeamStage(studio1, model.id.value, team, agentRun);
    if studio.agents.listStatus == 200 {
      ParticipantIdsFinal(studio.agents, Participants(team).value, model.id.value);
    }
  }

  /** Registering the same team twice returns the same id and changes nothing. */
  lemma RegisterTeamTwice(teams: Store, team: Json, agentIds: seq<Json>)
    requires teams.listStatus == 200
    ensures var first := RegisterTeam(teams, team, agentIds);
            RegisterTeam(first.store, team, agentIds) == first
  {
    if TeamPayload(team, agentIds).Ok? {
      RegisterTwice(teams, "name", TeamPayload(team, agentIds).value);
    }
  }

  lemma TeamStageTwice(studio: Studio, modelId: Json, team: Json, agentRun: AgentRun)
    requires Truthy(modelId) && studio.teams.listStatus == 200
    ensures var first := TeamStage(studio, modelId, team, agentRun);
            TeamStage(first.studio, modelId, team, agentRun) == first
  {
    var first := TeamStage(studio, modelId, team, agentRun);
    var agentIds := KeepTruthy(agentRun.ids);
    if agentRun.error.None? && |agentIds| > 0 {
      RegisterTeamTwice(studio.teams, team, agentIds);
      var step := RegisterTeam(studio.teams, team, agentIds);
      assert first.studio.teams == step.store;
      assert RegisterTeam(first.studio.teams, team, agentIds) == step;
    }
  }

  lemma AgentStageTwice(studio: Studio, modelId: Json, teamFile: Option<Json>)
    requires Truthy(modelId) && studio.agents.listStatus == 200 && studio.teams.listStatus == 200
    ensures var first := AgentStage(studio, modelId, teamFile);
            AgentStage(first.studio, modelId, teamFile) == first
  {
    if teamFile.Some? && Participants(teamFile.value).Ok? {
      var team, participants := teamFile.value, Participants(teamFile.value).value;
      var agentRun := RegisterParticipants(studio.agents, participants, modelId);
      var first := TeamStage(studio, modelId, team, agentRun);
      ParticipantsStable(studio.agents, first.studio.agents, participants, modelId);
      TeamStageTwice(studio, modelId, team, agentRun);
    }
  }

  /** Running the registration a second time, against the Studio the first run left,
      reaches the same outcome and registers nothing new, as long as the listings work. */
  lemma RegisterAllTwice(studio: Studio, teamFile: Option<Json>)
    requires studio.models.listStatus == 200 && studio.agents.listStatus == 200 && studio.teams.listStatus == 200
    ensures var first := RegisterAll(studio, teamFile);
            RegisterAll(first.studio, teamFile) == first
  {
    if studio.health == Some(200) {
      RegisterTwice(studio.models, "model", ModelPayload);
      var model := RegisterModel(studio.models);
      if model.id.Ok? && Truthy(model.id.value) {
        AgentStageTwice(studio.(models := model.store), model.id.value, teamFile);
      }
    }
  }
}

=== FILE: response_check.dfy ===
/** The structural check applied to a chat-completion response before it is used. */
module ResponseCheck {
  import opened Wrappers
  import opened Json

  const RequiredFields: seq<string> := ["choices", "usage"]

  /** `validate_model_response(response)`: `Ok(valid)`, or the `TypeError` Python raises when
      the first choice does not support `in`. */
  function ValidateModelResponse(response: Dict): (r: Result<bool, PyError>)
    ensures (exists f :: f in RequiredFields && f !in response) ==> r == Ok(false)
    ensures r == Ok(true) ==>
              && "usage" in response
              && "choices" in response && response["choices"].JList?
              && |response["choices"].items| > 0
    ensures r.Err? ==> r.error.TypeError?
  {
    if "choices" !in response || "usage" !in response then Ok(false)
    else
      var choices := response["choices"];
      if !Truthy(choices) || !choices.JList? then Ok(false)
      else Contains(choices.items[0], "message")
  }

  /** The shape of an OpenAI-style response whose first choice is a message dict. */
  predicate OpenAIShaped(response: Dict) {
    && "usage" in response
    && "choices" in response
    && response["choices"].JList?
    && |response["choices"].items| > 0
    && response["choices"].items[0].JObj?
    && "message" in response["choices"].items[0].fields
  }

  /** For responses whose first choice is a dict, the check accepts exactly the
      OpenAI-style shape and never raises. */
  lemma ValidateDictChoices(response: Dict)
    requires "choices" in response && response["choices"].JList? && |response["choices"].items| > 0
    requires response["choices"].items[0].JObj?
    ensures ValidateModelResponse(response) == Ok(OpenAIShaped(response))
  {
  }

  /** Only `choices` and `usage` matter: fields outside them never change the verdict. */
  lemma ValidateIgnoresOtherFields(response: Dict, key: string, value: Json)
    requires key !in RequiredFields
    ensures ValidateModelResponse(response[key := value]) == ValidateModelResponse(response)
  {
    assert key != "choices" && key != "usage";
  }

  /** A first choice that is a number, boolean or `None` makes `in` raise. */
  lemma ValidateRaisesOnScalarChoice(response: Dict)
    requires "choices" in response && "usage" in response
    requires response["choices"].JList? && |response["choices"].items| > 0
    requires var c := response["choices"].items[0]; !(c.JObj? || c.JList? || c.JStr?)
    ensures ValidateModelResponse(response).Err?
  {
  }
}

=== FILE: retry.dfy ===
/** The retry-with-exponential-backoff policy of `async_retry` (utils/helpers.py),
    which `create_with_retry` (config.py) repeats with a backoff factor of 2.

    The wrapped call is abstract: `call(k)` is what its `k`-th invocation (counting
    from 0) returns or raises. Only `Exception`s are caught: a `BaseException` that is
    not one (`KeyboardInterrupt`, `asyncio.CancelledError`) escapes the loop at once. Sleeping is not performed; the requested waits are
    recorded, in order, in `sleeps`. */
module Retry {
  import opened Wrappers
  import opened Numeric

  /** One invocation: a return, an `Exception` (caught and retried), or a
      `BaseException` outside `Exception` (not caught). */
  datatype Outcome<+T, +E> = Returned(value: T) | Raised(error: E) | Escaped(error: E)

  /** Why a retried call failed: the last attempt's exception is re-raised, an uncaught
      `BaseException` went through, or, when no attempt was made at all, `raise None`
      itself fails with a `TypeError`. */
  datatype Failure<+E> = LastError(error: E) | Propagated(error: E) | NoneRaised

  datatype Run<+T, +E> = Run(result: Result<T, Failure<E>>, calls: nat, sleeps: seq<real>)

  /** The wait requested after failed attempt `k`: `delay * backoff ** k`. */
  function Wait(delay: real, backoff: real, k: nat): real {
    delay * Pow(backoff, k)
  }

  /** The number of attempts `range(maxAttempts)` allows. */
  function Attempts(maxAttempts: int): nat {
    if maxAttempts > 0 then maxAttempts else 0
  }

  /** `async_retry(max_attempts, delay, backoff)` applied to `call`. */
  method RetryCall<T, E>(call: nat -> Outcome<T, E>, maxAttempts: int, delay: real, backoff: real)
    returns (run: Run<T, E>)
    // never more than max_attempts calls
    ensures run.calls <= Attempts(maxAttempts)
    // every call but the last one raised
    ensures forall k :: 0 <= k < run.calls - 1 ==> call(k).Raised?
    // the first success is returned at once
    ensures run.result.Ok? ==> run.calls >= 1 && call(run.calls - 1) == Returned(run.result.value)
    // an uncaught BaseException ends the run at once and goes through unchanged
    ensures run.result.Err? && run.result.error.Propagated? <==> run.calls >= 1 && call(run.calls - 1).Escaped?
    ensures run.result.Err? && run.result.error.Propagated? ==> run.result.error.error == call(run.calls - 1).error
    // any other failure means every allowed attempt raised, and the last error is re-raised
    ensures run.result.Err? && !run.result.error.Propagated? ==> run.calls == Attempts(maxAttempts)
    ensures run.result.Err? && !run.result.error.Propagated? && run.calls > 0 ==>
              call(run.calls - 1).Raised? && run.result.error == LastError(call(run.calls - 1).error)
    ensures maxAttempts <= 0 ==> run.result == Err(NoneRaised) && run.calls == 0
    // a wait follows every failed attempt except the final one, growing geometrically
    ensures |run.sleeps| == if run.calls > 0 then run.calls - 1 else 0
    ensures forall k :: 0 <= k < |run.sleeps| ==> run.sleeps[k] == Wait(delay, backoff, k)
  {
    var lastError: Option<E> := None;
    var sleeps: seq<real> := [];
    var attempt: nat := 0;
    while attempt < maxAttempts
      invariant attempt <= Attempts(maxAttempts)
      invariant forall k :: 0 <= k < attempt ==> call(k).Raised?
      invariant attempt == 0 <==> lastError.None?
      invariant attempt > 0 ==> lastError == Some(call(attempt - 1).error)
      invariant |sleeps| == if attempt == maxAttempts && attempt > 0 then attempt - 1 else attempt
      invariant forall k :: 0 <= k < |sleeps| ==> sleeps[k] == Wait(delay, backoff, k)
    {
      match call(attempt) {
        case Returned(v) =>
          return Run(Ok(v), attempt + 1, sleeps);
        case Escaped(e) =>
          return Run(Err(Propagated(e)), attempt + 1, sleeps);
        case Raised(e) =>
          lastError := Some(e);
          if attempt < maxAttempts - 1 {
            sleeps := sleeps + [Wait(delay, backoff, attempt)];
          }
      }
      attempt := attempt + 1;
    }
    match lastError {
      case None => run := Run(Err(NoneRaised), 0, sleeps);
      case Some(e) => run := Run(Err(LastError(e)), attempt, sleeps);
    }
  }

  /** The total of the first `n` waits. */
  function TotalWait(delay: real, backoff: real, n: nat): real
    decreases n
  {
    if n == 0 then 0.0 else TotalWait(delay, backoff, n - 1) + Wait(delay, backoff, n - 1)
  }

  /** The waits form a geometric series: over `n` waits the caller sleeps
      `delay * (backoff ** n - 1) / (backoff - 1)` in all. */
  lemma {:induction false} TotalWaitGeometric(delay: real, backoff: real, n: nat)
    ensures TotalWait(delay, backoff, n) * (backoff - 1.0) == delay * (Pow(backoff, n) - 1.0)
    decreases n
  {
    if n > 0 {
      TotalWaitGeometric(delay, backoff, n - 1);
      var p := Pow(backoff, n - 1);
      var s := TotalWait(delay, backoff, n - 1);
      var c := backoff - 1.0;
      assert s * c == delay * p - delay;
      assert (s + delay * p) * c == s * c + (delay * p) * c;
      assert (delay * p) * c == delay * (p * backoff) - delay * p;
      assert Pow(backoff, n) == backoff * p;
    }
  }

  /** The waits a run records add up to the geometric total. */
  lemma {:induction false} SleepsTotal(sleeps: seq<real>, delay: real, backoff: real)
    requires forall k :: 0 <= k < |sleeps| ==> sleeps[k] == Wait(delay, backoff, k)
    ensures Sum(sleeps) == TotalWait(delay, backoff, |sleeps|)
    decreases |sleeps|
  {
    if |sleeps| > 0 {
      SleepsTotal(sleeps[..|sleeps| - 1], delay, backoff);
    }
  }
}

=== FILE: studio_sync.dfy ===
/** Registering scanned agent configs with AutoGen Studio (studio/auto_sync_to_studio.py):
    finding or creating the model, syncing one agent, and the batch that maps every
    config to a result.

    The Studio API is abstract: `registerAgent(payload)` is the id the agent registration
    returns (`null` when it failed), and `registerModel` the id the model registration
    returns. Latencies are measured by the caller and passed in. The batch runs its
    agents concurrently; here they run one after another, which yields the same list. */
module StudioSync {
  import opened Wrappers
  import opened Json

  datatype SyncResult = SyncResult(
    agentName: Json,
    operation: string,
    success: bool,
    latencyMs: real,
    errorMessage: Option<string>)

  const SyncOperation: string := "sync_agent"
  const AlreadyExists: string := "Agent already exists (skipped)"
  const RegistrationFailed: string := "Registration failed"
  const PreferredModel: string := "claude-opus-4-20250514"

  /** `config.get('name', 'Unknown')`. */
  function AgentName(config: Dict): Json {
    Get(config, "name", JStr("Unknown"))
  }

  /** Python's `name in existing_agents` for a dict keyed by agent names: strings are
      looked up, other hashable values are never keys, unhashable ones raise. */
  function KnownAgent(name: Json, existing: Dict): (r: Result<bool, PyError>)
    ensures r.Err? <==> !Hashable(name)
    ensures r.Err? ==> r.error == UnhashableError(name)
    // only a string can be one of the names
    ensures r == Ok(true) <==> name.JStr? && name.s in existing
  {
    if !Hashable(name) then Err(UnhashableError(name))
    else Ok(name.JStr? && name.s in existing)
  }

  /** The registration payload `_sync_single_agent` builds, or the `AttributeError` raised
      when `model_client` is present but is not a dict. */
  function AgentPayload(config: Dict, modelId: Json): (r: Result<Dict, PyError>)
    ensures r.Ok? <==> Get(config, "model_client", JObj(map[])).JObj?
    ensures r.Ok? ==>
              var p := r.value;
              && p.Keys == {"name", "description", "system_message", "model_id", "type", "config"}
              && p["name"] == AgentName(config)
              && p["model_id"] == modelId
              && p["type"] == JStr("assistant")
              && ("system_message" !in config ==> p["system_message"] == JStr(""))
              && ("system_message" in config ==> p["system_message"] == config["system_message"])
              && ("description" !in config ==>
                    p["description"] == JStr("Agent from " + Str(Get(config, "_file_path", JStr("unknown")))))
              && ("description" in config ==> p["description"] == config["description"])
  {
    var client := Get(config, "model_client", JObj(map[]));
    match GetAttr(client, "temperature", JFloat(0.5))
    case Err(e) => Err(e)
    case Ok(temperature) =>
      var maxTokens := GetAttr(client, "max_tokens", JInt(4096)).value;
      Ok(map[
        "name" := AgentName(config),
        "description" := Get(config, "description",
                             JStr("Agent from " + Str(Get(config, "_file_path", JStr("unknown"))))),
        "system_message" := Get(config, "system_message", JStr("")),
        "model_id" := modelId,
        "type" := JStr("assistant"),
        "config" := JObj(map["temperature" := temperature, "max_tokens" := maxTokens])])
  }

  /** The payload's generation settings: the config's `model_client` values, 0.5 and 4096
      by default. */
  lemma PayloadGenerationDefaults(config: Dict, modelId: Json)
    requires "model_client" !in config
    ensures AgentPayload(config, modelId).Ok?
    ensures AgentPayload(config, modelId).value["config"]
            == JObj(map["temperature" := JFloat(0.5), "max_tokens" := JInt(4096)])
  {
  }

  lemma PayloadGenerationFromClient(config: Dict, modelId: Json, client: Dict)
    requires "model_client" in config && config["model_client"] == JObj(client)
    ensures AgentPayload(config, modelId).Ok?
    ensures AgentPayload(config, modelId).value["config"]
            == JObj(map["temperature" := Get(client, "temperature", JFloat(0.5)),
                        "max_tokens" := Get(client, "max_tokens", JInt(4096))])
  {
  }

  /** What one agent sync did: its result and the payload it registered, if any. */
  datatype SyncStep = SyncStep(result: SyncResult, sent: Option<Dict>)

  function Failed(name: Json, latencyMs: real, message: string): SyncResult {
    SyncResult(name, SyncOperation, false, latencyMs, Some(message))
  }

  /** `_sync_single_agent(config, model_id, existing_agents)`. */
  function SyncSingleAgent(config: Dict, modelId: Json, existing: Dict,
                           registerAgent: Dict -> Json, latencyMs: real): (step: SyncStep)
    ensures step.result.agentName == AgentName(config) && step.result.operation == SyncOperation
    // an agent Studio already has is skipped, successfully and without a registration
    ensures AgentName(config).JStr? && AgentName(config).s in existing ==>
              step == SyncStep(SyncResult(AgentName(config), SyncOperation, true, 0.0, Some(AlreadyExists)), None)
    // a registration is made exactly when the name is new and the payload can be built
    ensures step.sent.Some? <==> KnownAgent(AgentName(config), existing) == Ok(false)
                                 && AgentPayload(config, modelId).Ok?
    ensures step.sent.Some? ==>
              && step.sent.value == AgentPayload(config, modelId).value
              && step.result.success == (registerAgent(step.sent.value) != JNull)
              && (step.result.errorMessage.None? <==> Truthy(registerAgent(step.sent.value)))
    // every other outcome is a failure carrying the exception text
    ensures step.sent.None? && !step.result.success ==> step.result.errorMessage.Some?
    // a name that cannot be looked up fails with the text of the `TypeError`
    ensures KnownAgent(AgentName(config), existing).Err? ==>
              step == SyncStep(Failed(AgentName(config), latencyMs,
                                      ErrorText(KnownAgent(AgentName(config), existing).error)), None)
    // a new agent whose payload cannot be built fails with the text of the `AttributeError`
    ensures KnownAgent(AgentName(config), existing) == Ok(false) && AgentPayload(config, modelId).Err? ==>
              step == SyncStep(Failed(AgentName(config), latencyMs,
                                      ErrorText(AgentPayload(config, modelId).error)), None)
  {
    var name := AgentName(config);
    match KnownAgent(name, existing)
    case Err(e) => SyncStep(Failed(name, latencyMs, ErrorText(e)), None)
    case Ok(true) => SyncStep(SyncResult(name, SyncOperation, true, 0.0, Some(AlreadyExists)), None)
    case Ok(false) =>
      match AgentPayload(config, modelId)
      case Err(e) => SyncStep(Failed(name, latencyMs, ErrorText(e)), None)
      case Ok(payload) =>
        var id := registerAgent(payload);
        SyncStep(SyncResult(name, SyncOperation, id != JNull, latencyMs,
                            if Truthy(id) then None else Some(RegistrationFailed)),
                 Some(payload))
  }

  /** An id that is present but falsy (an empty string or 0) is reported as a success that
      nevertheless carries the text "Registration failed". */
  lemma FalsyIdIsSuccessWithFailureText(config: Dict, modelId: Json, existing: Dict,
                                        registerAgent: Dict -> Json, latencyMs: real)
    requires KnownAgent(AgentName(config), existing) == Ok(false)
    requires "model_client" !in config
    requires registerAgent(AgentPayload(config, modelId).value) == JStr("")
    ensures var r := SyncSingleAgent(config, modelId, existing, registerAgent, latencyMs).result;
            r.success && r.errorMessage == Some(RegistrationFailed)
  {
  }

  /** What `asyncio.gather(..., return_exceptions=True)` hands back for one config. */
  datatype Gathered = Finished(result: SyncResult) | Raised(message: string)

  /** The result-mapping loop of `sync_agents_batch`: results are kept, exceptions become
      failed results named from their config. */
  function ProcessResults(configs: seq<Dict>, gathered: seq<Gathered>): (rs: seq<SyncResult>)
    requires |gathered| == |configs|
    ensures |rs| == |configs|
    ensures forall i :: 0 <= i < |rs| && gathered[i].Finished? ==> rs[i] == gathered[i].result
    ensures forall i :: 0 <= i < |rs| && gathered[i].Raised? ==>
              rs[i] == SyncResult(AgentName(configs[i]), SyncOperation, false, 0.0, Some(gathered[i].message))
  {
    seq(|configs|, i requires 0 <= i < |configs| =>
      match gathered[i]
      case Finished(r) => r
      case Raised(m) => SyncResult(AgentName(configs[i]), SyncOperation, false, 0.0, Some(m)))
  }

  /** `_ensure_model_exists(existing_models)` over the dict's items in order: the id of the
      first model whose `model` is the preferred one, else the id a new registration
      returns. A listed model that is not a dict, or a match without an `id`, raises. */
  function EnsureModelExists(items: seq<(string, Json)>, registerModel: Json): (r: Result<Json, PyError>)
    ensures (forall i :: 0 <= i < |items| ==> items[i].1.JObj? && !IsPreferred(items[i].1.fields)) ==>
              r == Ok(registerModel)
    decreases |items|
  {
    if |items| == 0 then Ok(registerModel)
    else
      var model := items[0].1;
      match GetAttr(model, "model", JNull)
      case Err(e) => Err(e)
      case Ok(m) =>
        if m == JStr(PreferredModel) then Index(model.fields, "id")
        else EnsureModelExists(items[1..], registerModel)
  }

  predicate IsPreferred(model: Dict) {
    Get(model, "model", JNull) == JStr(PreferredModel)
  }

  /** Finding the model: the first preferred one wins, with no registration. */
  lemma {:induction false} EnsureModelFindsFirst(items: seq<(string, Json)>, registerModel: Json, k: nat)
    requires k < |items| && items[k].1.JObj? && IsPreferred(items[k].1.fields) && "id" in items[k].1.fields
    requires forall i :: 0 <= i < k ==> items[i].1.JObj? && !IsPreferred(items[i].1.fields)
    ensures EnsureModelExists(items, registerModel) == Ok(items[k].1.fields["id"])
    decreases k
  {
    if k > 0 {
      EnsureModelFindsFirst(items[1..], registerModel, k - 1);
    }
  }

  /** What `get_existing_components()` returns as written: `async with` on the future
      `asyncio.gather` returns raises, because that future is not an async context
      manager, and the handler answers with three empty dicts. */
  function ExistingComponents(): Components {
    Components([], map[], map[])
  }

  /** The listed models, in dict order, and the agents and teams keyed by name. */
  datatype Components = Components(models: seq<(string, Json)>, agents: Dict, teams: Dict)

  /** With those empty listings nothing is found: the batch registers a new model, and
      every config whose name can be looked up and whose payload builds is registered
      anew, never skipped as existing. */
  lemma ExistingComponentsRegistersEverything(configs: seq<Dict>, registerModel: Json,
                                              registerAgent: Dict -> Json, latencies: seq<real>)
    requires |latencies| == |configs|
    ensures var models, agents := ExistingComponents().models, ExistingComponents().agents;
            && EnsureModelExists(models, registerModel) == Ok(registerModel)
            && (forall i :: 0 <= i < |configs| && Hashable(AgentName(configs[i]))
                            && AgentPayload(configs[i], registerModel).Ok? ==>
                  SyncSingleAgent(configs[i], registerModel, agents, registerAgent, latencies[i]).sent
                    == Some(AgentPayload(configs[i], registerModel).value))
            && (Truthy(registerModel) ==>
                  SyncAgentsBatch(configs, models, registerModel, agents, registerAgent, latencies).results
                  == seq(|configs|, i requires 0 <= i < |configs| =>
                       SyncSingleAgent(configs[i], registerModel, agents, registerAgent, latencies[i]).result))
  {
  }

  datatype Batch = Batch(results: seq<SyncResult>, succeeded: bool)

  /** `sync_agents_batch(configs, existing_models, existing_agents)`: no usable model id
      (an exception, `None` or another falsy id) gives no results and a failed batch;
      otherwise one result per config, in order, and the batch succeeds exactly when
      every result does. */
  function SyncAgentsBatch(configs: seq<Dict>, models: seq<(string, Json)>, registerModel: Json,
                           existing: Dict, registerAgent: Dict -> Json, latencies: seq<real>): (b: Batch)
    requires |latencies| == |configs|
    ensures EnsureModelExists(models, registerModel).Err? || !Truthy(EnsureModelExists(models, registerModel).value) ==>
              b == Batch([], false)
    ensures EnsureModelExists(models, registerModel).Ok? && Truthy(EnsureModelExists(models, registerModel).value) ==>
              && |b.results| == |configs|
              && (forall i :: 0 <= i < |configs| ==>
                    b.results[i] == SyncSingleAgent(configs[i], EnsureModelExists(models, registerModel).value,
                                                    existing, registerAgent, latencies[i]).result)
              && (b.succeeded <==> forall i :: 0 <= i < |b.results| ==> b.results[i].success)
  {
    match EnsureModelExists(models, registerModel)
    case Err(_) => Batch([], false)
    case Ok(modelId) =>
      if !Truthy(modelId) then Batch([], false)
      else
        var gathered := seq(|configs|, i requires 0 <= i < |configs| =>
          Finished(SyncSingleAgent(configs[i], modelId, existing, registerAgent, latencies[i]).result));
        var results := ProcessResults(configs, gathered);
        Batch(results, forall i :: 0 <= i < |results| ==> results[i].success)
  }
}

=== FILE: sync_cache.dfy ===
/** Change detection for the Studio sync (studio/auto_sync_to_studio.py): the file-hash
    cache, agent-config validation and the scan that reads changed agent files.

    The file system is a map from readable paths to contents; a path outside it cannot be
    opened. The MD5 digest, the JSON parser and the extraction of configs from Python
    sources are parameters. The glob results are an input: each found file with the
    suffix `pathlib` gives it, in glob order. */
module SyncCache {
  import opened Wrappers
  import opened Json

  /** Cached digest per path. */
  type Cache = map<string, string>

  datatype Env = Env(
    files: map<string, string>,
    md5: string -> string,
    parse: string -> Option<Json>,
    extract: string -> seq<Dict>)

  /** `get_file_hash(path)`: the digest of the contents, or "" when the file cannot be read. */
  function FileHash(env: Env, path: string): string {
    if path in env.files then env.md5(env.files[path]) else ""
  }

  /** `has_changed(path)`: the current digest differs from the cached one; a path never
      cached counts as changed. */
  function HasChanged(cache: Cache, env: Env, path: string): (changed: bool)
    ensures path !in cache ==> changed
    ensures !changed <==> path in cache && cache[path] == FileHash(env, path)
  {
    path !in cache || cache[path] != FileHash(env, path)
  }

  /** `update_file_hash(path)`. */
  function UpdateFileHash(cache: Cache, env: Env, path: string): (c: Cache)
    ensures c.Keys == cache.Keys + {path}
    ensures c[path] == FileHash(env, path)
    ensures forall p :: p in cache && p != path ==> c[p] == cache[p]
  {
    cache[path := FileHash(env, path)]
  }

  /** Right after an update, an unmodified file is not changed, and no other path's
      verdict moves. */
  lemma UpdateThenUnchanged(cache: Cache, env: Env, path: string, other: string)
    ensures !HasChanged(UpdateFileHash(cache, env, path), env, path)
    ensures other != path ==>
              HasChanged(UpdateFileHash(cache, env, path), env, other) == HasChanged(cache, env, other)
  {
  }

  /** `_is_valid_agent_config(config)`: `name`, `description` and `system_message` are all
      in the config, checked in that order with Python's `in`; a value `in` cannot search
      raises `TypeError` at the first test. */
  function IsValidAgentConfig(config: Json): (r: Result<bool, PyError>)
    ensures r.Err? <==> Contains(config, "name").Err?
    ensures config.JObj? ==>
              r == Ok("name" in config.fields && "description" in config.fields
                      && "system_message" in config.fields)
  {
    match Contains(config, "name")
    case Err(e) => Err(e)
    case Ok(false) => Ok(false)
    case Ok(true) =>
      match Contains(config, "description")
      case Err(e) => Err(e)
      case Ok(false) => Ok(false)
      case Ok(true) => Contains(config, "system_message")
  }

  /** A file the glob found, with its suffix. */
  datatype FoundFile = FoundFile(path: string, suffix: string)

  datatype ScanState = ScanState(configs: seq<Dict>, cache: Cache)

  /** The agent config a JSON file contributes: a dict that passes validation. A list or a
      string can pass the `in` tests too, but then storing `_file_path` into it raises. */
  function JsonConfig(env: Env, path: string): Option<Dict> {
    if path !in env.files then None
    else
      match env.parse(env.files[path])
      case None => None
      case Some(j) => if IsValidAgentConfig(j) == Ok(true) && j.JObj? then Some(j.fields) else None
  }

  function Tag(config: Dict, path: string): (d: Dict)
    ensures d.Keys == config.Keys + {"_file_path"} && d["_file_path"] == JStr(path)
  {
    config["_file_path" := JStr(path)]
  }

  function TagAll(configs: seq<Dict>, path: string): (ds: seq<Dict>)
    ensures |ds| == |configs|
    ensures forall i :: 0 <= i < |ds| ==> ds[i] == Tag(configs[i], path)
  {
    seq(|configs|, i requires 0 <= i < |configs| => Tag(configs[i], path))
  }

  /** Configs a Python source contributes; an unreadable source contributes none. */
  function PythonConfigs(env: Env, path: string): seq<Dict> {
    if path in env.files then env.extract(env.files[path]) else []
  }

  /** One iteration of the scan loop. An unchanged file is skipped. A JSON file is taken
      and its hash cached only when it holds a valid agent config; a Python source is
      always cached; other files are read by nothing. */
  function ScanFile(f: FoundFile, env: Env, st: ScanState): (r: ScanState)
    // an unchanged file is skipped
    ensures !HasChanged(st.cache, env, f.path) ==> r == st
    // configs are only appended, each tagged with the file's path
    ensures Appended(st.configs, r.configs) && TaggedFrom(r.configs, |st.configs|, {f.path})
    // only the file's own cache entry can change, and then to its current digest
    ensures st.cache.Keys <= r.cache.Keys && KeepsOutside(st.cache, r.cache, {f.path})
    ensures r.cache != st.cache ==> Fresh(r.cache, env, f.path)
    // a file taken from is cached, so it reads as unchanged afterwards
    ensures |r.configs| > |st.configs| ==> Fresh(r.cache, env, f.path)
  {
    if !HasChanged(st.cache, env, f.path) then st
    else if f.suffix == ".json" then
      match JsonConfig(env, f.path)
      case None => st
      case Some(d) => ScanState(st.configs + [Tag(d, f.path)], UpdateFileHash(st.cache, env, f.path))
    else if f.suffix == ".py" then
      ScanState(st.configs + TagAll(PythonConfigs(env, f.path), f.path),
                UpdateFileHash(st.cache, env, f.path))
    else st
  }

  /** `scan_agent_files`: every found file in glob order, threading the cache. */
  function Scan(found: seq<FoundFile>, env: Env, st: ScanState): (r: ScanState)
    // configs are only appended, each tagged with the path of a found file
    ensures Appended(st.configs, r.configs) && TaggedFrom(r.configs, |st.configs|, Paths(found))
    // the cache only gains entries, and a path the glob did not find keeps its entry
    ensures st.cache.Keys <= r.cache.Keys && KeepsOutside(st.cache, r.cache, Paths(found))
    decreases |found|
  {
    if |found| == 0 then st
    else
      var mid := ScanFile(found[0], env, st);
      var r := Scan(found[1..], env, mid);
      PathsCons(found);
      AppendedTagged(st.configs, mid.configs, r.configs, {found[0].path}, Paths(found[1..]));
      KeepsOutsideTrans(st.cache, mid.cache, r.cache, {found[0].path}, Paths(found[1..]));
      r
  }

  /** `b` extends `a`. */
  predicate Appended(a: seq<Dict>, b: seq<Dict>) {
    |a| <= |b| && b[..|a|] == a
  }

  /** Every config from index `from` on carries a `_file_path` naming one of `paths`. */
  predicate TaggedFrom(cs: seq<Dict>, from: nat, paths: set<string>) {
    forall i :: from <= i < |cs| ==>
      "_file_path" in cs[i] && cs[i]["_file_path"].JStr? && cs[i]["_file_path"].s in paths
  }

  /** Outside `paths` the cache is as it was. */
  ghost predicate KeepsOutside(before: Cache, after: Cache, paths: set<string>) {
    forall p :: p !in paths ==> (p in after <==> p in before) && (p in before ==> after[p] == before[p])
  }

  lemma AppendedTagged(a: seq<Dict>, b: seq<Dict>, c: seq<Dict>, p: set<string>, q: set<string>)
    requires Appended(a, b) && TaggedFrom(b, |a|, p)
    requires Appended(b, c) && TaggedFrom(c, |b|, q)
    ensures Appended(a, c) && TaggedFrom(c, |a|, p + q)
  {
    assert c[..|b|][..|a|] == c[..|a|];
    assert forall i :: |a| <= i < |b| ==> c[i] == b[i];
  }

  lemma KeepsOutsideTrans(a: Cache, b: Cache, c: Cache, p: set<string>, q: set<string>)
    requires KeepsOutside(a, b, p) && KeepsOutside(b, c, q)
    ensures KeepsOutside(a, c, p + q)
  {
  }

  lemma PathsCons(found: seq<FoundFile>)
    requires |found| > 0
    ensures Paths(found) == {found[0].path} + Paths(found[1..])
  {
    assert forall j :: 0 <= j < |found[1..]| ==> found[1..][j] == found[j + 1];
  }

  /** The paths of the found files. */
  function Paths(found: seq<FoundFile>): (ps: set<string>)
    ensures forall i :: 0 <= i < |found| ==> found[i].path in ps
    ensures forall p :: p in ps ==> exists i :: 0 <= i < |found| && found[i].path == p
  {
    set i | 0 <= i < |found| :: found[i].path
  }

  /** A file a scan takes nothing from and leaves uncached, whatever the cache says. */
  predicate Inert(f: FoundFile, env: Env) {
    f.suffix != ".py" && (f.suffix != ".json" || JsonConfig(env, f.path).None?)
  }

  /** The cache holds the current digest of `path`. */
  predicate Fresh(cache: Cache, env: Env, path: string) {
    path in cache && cache[path] == FileHash(env, path)
  }

  predicate Settled(f: FoundFile, env: Env, cache: Cache) {
    Fresh(cache, env, f.path) || Inert(f, env)
  }

  /** A JSON file without a valid config is never cached, so the next scan reads it again. */
  lemma InvalidJsonStaysUncached(f: FoundFile, env: Env, st: ScanState)
    requires f.suffix == ".json" && JsonConfig(env, f.path).None?
    ensures ScanFile(f, env, st) == st
  {
  }

  /** The scan only ever records current digests: a fresh entry stays fresh. */
  lemma {:induction false} ScanKeepsFresh(found: seq<FoundFile>, env: Env, st: ScanState, path: string)
    requires Fresh(st.cache, env, path)
    ensures Fresh(Scan(found, env, st).cache, env, path)
    decreases |found|
  {
    if |found| > 0 {
      ScanKeepsFresh(found[1..], env, ScanFile(found[0], env, st), path);
    }
  }

  /** After a scan every file it saw is settled: cached with its current digest, or inert. */
  lemma {:induction false} ScanSettles(found: seq<FoundFile>, env: Env, st: ScanState)
    ensures forall i :: 0 <= i < |found| ==> Settled(found[i], env, Scan(found, env, st).cache)
    decreases |found|
  {
    if |found| > 0 {
      var st' := ScanFile(found[0], env, st);
      var rest := found[1..];
      var c := Scan(rest, env, st').cache;
      assert Scan(found, env, st).cache == c;
      ScanSettles(rest, env, st');
      if !Inert(found[0], env) {
        assert Fresh(st'.cache, env, found[0].path);
        ScanKeepsFresh(rest, env, st', found[0].path);
      }
      forall i | 1 <= i < |found|
        ensures Settled(found[i], env, c)
      {
        assert found[i] == rest[i - 1];
      }
    }
  }

  /** Over settled files a scan changes nothing. */
  lemma {:induction false} ScanOfSettled(found: seq<FoundFile>, env: Env, st: ScanState)
    requires forall i :: 0 <= i < |found| ==> Settled(found[i], env, st.cache)
    ensures Scan(found, env, st) == st
    decreases |found|
  {
    if |found| > 0 {
      assert ScanFile(found[0], env, st) == st;
      ScanOfSettled(found[1..], env, st);
    }
  }

  /** Scanning the same unmodified files a second time finds no new configs and leaves
      the cache as the first scan left it. */
  lemma RescanFindsNothing(found: seq<FoundFile>, env: Env, cache: Cache)
    ensures var first := Scan(found, env, ScanState([], cache));
            Scan(found, env, ScanState([], first.cache)) == ScanState([], first.cache)
  {
    var first := Scan(found, env, ScanState([], cache));
    ScanSettles(found, env, ScanState([], cache));
    ScanOfSettled(found, env, ScanState([], first.cache));
  }

  /** Every config a JSON file contributes is a dict with the three required fields,
      tagged with its path. */
  /** A changed Python source contributes every config extracted from its text, in order,
      each tagged with its path and carrying its fields, and is cached at its current digest. */
  lemma PythonContribution(f: FoundFile, env: Env, st: ScanState)
    requires f.suffix == ".py" && HasChanged(st.cache, env, f.path)
    ensures var st' := ScanFile(f, env, st);
            var cs := PythonConfigs(env, f.path);
            && |st'.configs| == |st.configs| + |cs|
            && st'.configs[..|st.configs|] == st.configs
            && (forall i :: 0 <= i < |cs| ==>
                  var d := st'.configs[|st.configs| + i];
                  && d.Keys == cs[i].Keys + {"_file_path"}
                  && d["_file_path"] == JStr(f.path)
                  && (forall k :: k in cs[i] && k != "_file_path" ==> d[k] == cs[i][k]))
            && Fresh(st'.cache, env, f.path)
            && KeepsOutside(st.cache, st'.cache, {f.path})
  {
  }

  lemma JsonContribution(f: FoundFile, env: Env, st: ScanState)
    requires f.suffix == ".json" && HasChanged(st.cache, env, f.path) && JsonConfig(env, f.path).Some?
    ensures var st' := ScanFile(f, env, st);
            var d := st'.configs[|st.configs|];
            && |st'.configs| == |st.configs| + 1
            && "name" in d && "description" in d && "system_message" in d
            && d["_file_path"] == JStr(f.path)
            && !HasChanged(st'.cache, env, f.path)
  {
  }
}

=== FILE: text.dfy ===
/** Python string behaviour the model relies on: decimal rendering of integers
    (`str(n)`, `f"{n:02d}"`), whitespace as `str.isspace` sees it, `str.strip()`,
    `str.split()` with no separator, `sep.join(parts)` and ASCII upper-casing. */
module Text {

  // ---------------------------------------------------------------------------
  // Decimal rendering

  predicate IsDigit(c: char) {
    '0' <= c <= '9'
  }

  predicate AllDigits(s: string) {
    forall i :: 0 <= i < |s| ==> IsDigit(s[i])
  }

  function DigitChar(d: nat): (c: char)
    requires d < 10
    ensures IsDigit(c) && c as int - '0' as int == d
  {
    (d + '0' as int) as char
  }

  function DigitValue(c: char): (d: nat)
    requires IsDigit(c)
    ensures d < 10
  {
    c as int - '0' as int
  }

  /** `str(n)` for a non-negative integer: the shortest decimal numeral of `n`. */
  function NatToString(n: nat): (s: string)
    ensures |s| >= 1 && AllDigits(s)
    ensures n < 10 <==> |s| == 1
    ensures s[0] == '0' ==> n == 0
    decreases n
  {
    if n < 10 then [DigitChar(n)] else NatToString(n / 10) + [DigitChar(n % 10)]
  }

  /** Reads a numeral back; leading zeros are allowed, as in Python's `int("07")`. */
  function ParseNat(s: string): nat
    requires AllDigits(s)
    decreases |s|
  {
    if |s| == 0 then 0 else ParseNat(s[..|s| - 1]) * 10 + DigitValue(s[|s| - 1])
  }

  /** `str(i)` for any Python int. */
  function IntToString(i: int): (s: string)
    ensures |s| >= 1
    ensures i < 0 <==> s[0] == '-'
  {
    if i < 0 then "-" + NatToString(-i) else NatToString(i)
  }

  function ParseInt(s: string): int
    requires |s| >= 1
    requires if s[0] == '-' then AllDigits(s[1..]) else AllDigits(s)
  {
    if s[0] == '-' then 0 - ParseNat(s[1..]) as int else ParseNat(s)
  }

  lemma {:induction false} ParseNatOfNatToString(n: nat)
    ensures ParseNat(NatToString(n)) == n
    decreases n
  {
    if n >= 10 {
      var s := NatToString(n);
      assert s[..|s| - 1] == NatToString(n / 10);
      ParseNatOfNatToString(n / 10);
    }
  }

  lemma ParseIntOfIntToString(i: int)
    ensures var s := IntToString(i);
            (if s[0] == '-' then AllDigits(s[1..]) else AllDigits(s)) && ParseInt(s) == i
  {
    var s := IntToString(i);
    if i < 0 {
      var d := NatToString(-i);
      assert s == "-" + d;
      assert s[1..] == d;
      ParseNatOfNatToString(-i);
    } else {
      ParseNatOfNatToString(i);
    }
  }

  /** Leading zeros do not change the value read back. */
  lemma {:induction false} ParseNatLeadingZero(s: string)
    requires AllDigits(s)
    ensures AllDigits("0" + s) && ParseNat("0" + s) == ParseNat(s)
    decreases |s|
  {
    if |s| > 0 {
      assert ("0" + s)[..|"0" + s| - 1] == "0" + s[..|s| - 1];
      ParseNatLeadingZero(s[..|s| - 1]);
    }
  }

  /** Python's `f"{i:02d}"`: at least two characters, zero-filled after the sign. */
  function Pad2(i: int): (s: string)
    ensures |s| >= 2
    ensures i >= 0 ==> AllDigits(s)
  {
    if 0 <= i < 10 then "0" + NatToString(i) else IntToString(i)
  }

  lemma Pad2ReadsBack(i: nat)
    ensures AllDigits(Pad2(i)) && ParseNat(Pad2(i)) == i
  {
    ParseNatOfNatToString(i);
    if i < 10 {
      ParseNatLeadingZero(NatToString(i));
    }
  }

  // ---------------------------------------------------------------------------
  // Slicing

  /** Python's `s[:n]`: a non-negative `n` keeps at most `n` characters, a negative `n`
      drops `-n` characters from the end. */
  function PyPrefix(s: string, n: int): (r: string)
    ensures |r| <= |s| && r == s[..|r|]
    ensures 0 <= n <= |s| ==> r == s[..n]
    ensures n > |s| ==> r == s
    ensures n < 0 ==> |r| == if |s| + n > 0 then |s| + n else 0
  {
    if n >= 0 then (if n <= |s| then s[..n] else s)
    else if |s| + n > 0 then s[..|s| + n] else ""
  }

  // ---------------------------------------------------------------------------
  // Case and whitespace

  /** Upper-casing of the ASCII letters; other characters are kept. */
  function UpperChar(c: char): char {
    if 'a' <= c <= 'z' then (c as int - 32) as char else c
  }

  function Upper(s: string): (u: string)
    ensures |u| == |s|
    decreases |s|
  {
    if |s| == 0 then "" else [UpperChar(s[0])] + Upper(s[1..])
  }

  /** The characters Python's `str.isspace()`, `str.split()` and `str.strip()` treat as whitespace. */
  predicate IsSpace(c: char) {
    || '\U{0009}' <= c <= '\U{000D}'
    || '\U{001C}' <= c <= '\U{0020}'
    || c == '\U{0085}' || c == '\U{00A0}' || c == '\U{1680}'
    || '\U{2000}' <= c <= '\U{200A}'
    || c == '\U{2028}' || c == '\U{2029}' || c == '\U{202F}' || c == '\U{205F}' || c == '\U{3000}'
  }

  predicate NoSpace(s: string) {
    forall i :: 0 <= i < |s| ==> !IsSpace(s[i])
  }

  /** Every character of `s` at an index in `[lo, hi)` is whitespace. */
  predicate SpaceBetween(s: string, lo: nat, hi: nat)
    requires lo <= hi <= |s|
  {
    forall j :: lo <= j < hi ==> IsSpace(s[j])
  }

  /** First index at or after `i` that does not hold whitespace (or `|s|`). */
  function SpaceEnd(s: string, i: nat): (k: nat)
    requires i <= |s|
    ensures i <= k <= |s| && SpaceBetween(s, i, k)
    ensures k < |s| ==> !IsSpace(s[k])
    decreases |s| - i
  {
    if i == |s| || !IsSpace(s[i]) then i else SpaceEnd(s, i + 1)
  }

  /** First index at or after `i` that holds whitespace (or `|s|`). */
  function WordEnd(s: string, i: nat): (k: nat)
    requires i <= |s|
    ensures i <= k <= |s|
    ensures forall j :: i <= j < k ==> !IsSpace(s[j])
    ensures k < |s| ==> IsSpace(s[k])
    decreases |s| - i
  {
    if i == |s| || IsSpace(s[i]) then i else WordEnd(s, i + 1)
  }

  /** Where the trailing whitespace of `s[lo..hi]` begins. */
  function TrimEnd(s: string, lo: nat, hi: nat): (k: nat)
    requires lo <= hi <= |s|
    ensures lo <= k <= hi && SpaceBetween(s, k, hi)
    ensures k > lo ==> !IsSpace(s[k - 1])
    decreases hi - lo
  {
    if hi == lo || !IsSpace(s[hi - 1]) then hi else TrimEnd(s, lo, hi - 1)
  }

  /** Python's `s.strip()`: the slice of `s` between its leading and trailing whitespace. */
  function Strip(s: string): (t: string)
    ensures exists i :: 0 <= i <= |s| - |t| && s[i..i + |t|] == t
                        && SpaceBetween(s, 0, i) && SpaceBetween(s, i + |t|, |s|)
    ensures |t| > 0 ==> !IsSpace(t[0]) && !IsSpace(t[|t| - 1])
  {
    var i := SpaceEnd(s, 0);
    var k := TrimEnd(s, i, |s|);
    assert |s[i..k]| == k - i;
    s[i..k]
  }

  /** A string with no whitespace at either end, as `str.strip()` leaves it. */
  predicate Stripped(s: string) {
    |s| == 0 || (!IsSpace(s[0]) && !IsSpace(s[|s| - 1]))
  }

  /** `strip()` leaves a string without surrounding whitespace unchanged. */
  lemma StripOfStripped(s: string)
    requires Stripped(s)
    ensures Strip(s) == s
  {
    var t := Strip(s);
    var i :| 0 <= i <= |s| - |t| && s[i..i + |t|] == t && SpaceBetween(s, 0, i) && SpaceBetween(s, i + |t|, |s|);
    if |s| > 0 {
      assert i == 0 && i + |t| == |s|;
      assert s[0..|s|] == s;
    }
  }

  /** Stripping twice is stripping once. */
  lemma StripIdempotent(s: string)
    ensures Strip(Strip(s)) == Strip(s)
  {
    StripOfStripped(Strip(s));
  }

  // ---------------------------------------------------------------------------
  // Splitting and joining

  /** Python's `s[i:].split()`: the maximal runs of non-whitespace characters from
      index `i` on, left to right. */
  function WordsFrom(s: string, i: nat): seq<string>
    requires i <= |s|
    decreases |s| - i
  {
    var a := SpaceEnd(s, i);
    if a == |s| then []
    else
      var b := WordEnd(s, a);
      [s[a..b]] + WordsFrom(s, b)
  }

  /** Python's `s.split()`. */
  function Words(s: string): seq<string> {
    WordsFrom(s, 0)
  }

  /** Every word is non-empty and free of whitespace. */
  lemma {:induction false} WordsAreWords(s: string, i: nat)
    requires i <= |s|
    ensures forall k :: 0 <= k < |WordsFrom(s, i)| ==> |WordsFrom(s, i)[k]| > 0 && NoSpace(WordsFrom(s, i)[k])
    decreases |s| - i
  {
    var a := SpaceEnd(s, i);
    if a < |s| {
      var b := WordEnd(s, a);
      assert NoSpace(s[a..b]) by {
        forall j | 0 <= j < b - a
          ensures !IsSpace(s[a..b][j])
        {
          assert s[a..b][j] == s[a + j];
        }
      }
      WordsAreWords(s, b);
    }
  }

  /** Number of indices from `i` on where a whitespace-free run starts; `afterSpace` tells
      whether the character before index `i` (if any) was whitespace or absent. An
      independent count of words. */
  function RunStarts(s: string, i: nat, afterSpace: bool): nat
    requires i <= |s|
    decreases |s| - i
  {
    if i == |s| then 0
    else (if !IsSpace(s[i]) && afterSpace then 1 else 0) + RunStarts(s, i + 1, IsSpace(s[i]))
  }

  lemma {:induction false} RunStartsSkipsSpace(s: string, i: nat, k: nat, afterSpace: bool)
    requires i <= k <= |s| && SpaceBetween(s, i, k)
    ensures RunStarts(s, i, afterSpace) == RunStarts(s, k, afterSpace || k > i)
    decreases k - i
  {
    if i < k {
      RunStartsSkipsSpace(s, i + 1, k, true);
    }
  }

  lemma {:induction false} RunStartsInsideWord(s: string, i: nat, k: nat, afterSpace: bool)
    requires i < k <= |s| && forall j :: i <= j < k ==> !IsSpace(s[j])
    ensures RunStarts(s, i, afterSpace) == (if afterSpace then 1 else 0) + RunStarts(s, k, false)
    decreases k - i
  {
    if i + 1 < k {
      RunStartsInsideWord(s, i + 1, k, false);
    }
  }

  /** The number of words `str.split()` yields is the number of places a word starts. */
  lemma {:induction false} WordsCountsRunStarts(s: string, i: nat)
    requires i <= |s|
    requires i == 0 || IsSpace(s[i - 1]) || i == |s| || IsSpace(s[i])
    ensures |WordsFrom(s, i)| == RunStarts(s, i, i == 0 || IsSpace(s[i - 1]))
    decreases |s| - i
  {
    var a := SpaceEnd(s, i);
    var before := i == 0 || IsSpace(s[i - 1]);
    RunStartsSkipsSpace(s, i, a, before);
    if a < |s| {
      var b := WordEnd(s, a);
      assert before || a > i;
      RunStartsInsideWord(s, a, b, true);
      WordsCountsRunStarts(s, b);
    }
  }

  /** Python's `sep.join(parts)`. */
  function Join(parts: seq<string>, sep: string): (r: string)
    ensures |parts| == 0 ==> r == ""
    ensures |parts| == 1 ==> r == parts[0]
    decreases |parts|
  {
    if |parts| == 0 then ""
    else if |parts| == 1 then parts[0]
    else parts[0] + sep + Join(parts[1..], sep)
  }

  function SumLengths(parts: seq<string>): nat
    decreases |parts|
  {
    if |parts| == 0 then 0 else |parts[0]| + SumLengths(parts[1..])
  }

  /** Where part `k` starts inside `Join(parts, sep)`. */
  function JoinOffset(parts: seq<string>, sep: string, k: nat): nat
    requires k <= |parts|
    decreases k
  {
    if k == 0 then 0 else JoinOffset(parts, sep, k - 1) + |parts[k - 1]| + |sep|
  }

  lemma {:induction false} JoinLength(parts: seq<string>, sep: string)
    requires |parts| > 0
    ensures |Join(parts, sep)| == SumLengths(parts) + (|parts| - 1) * |sep|
    decreases |parts|
  {
    if |parts| > 1 {
      JoinLength(parts[1..], sep);
    }
  }

  lemma {:induction false} JoinOffsetShift(parts: seq<string>, sep: string, k: nat)
    requires 1 <= k <= |parts|
    ensures JoinOffset(parts, sep, k) == |parts[0]| + |sep| + JoinOffset(parts[1..], sep, k - 1)
    decreases k
  {
    if k > 1 {
      JoinOffsetShift(parts, sep, k - 1);
    }
  }

  lemma SliceAfterPrefix(a: string, b: string, lo: nat, hi: nat)
    requires lo <= hi <= |b|
    ensures (a + b)[|a| + lo..|a| + hi] == b[lo..hi]
  {
  }

  /** Every part appears verbatim in the joined text, at its offset. */
  lemma {:induction false} JoinContainsPart(parts: seq<string>, sep: string, k: nat)
    requires k < |parts|
    ensures var o := JoinOffset(parts, sep, k);
            o + |parts[k]| <= |Join(parts, sep)| && Join(parts, sep)[o..o + |parts[k]|] == parts[k]
    decreases k
  {
    if |parts| > 1 {
      var head := parts[0] + sep;
      var rest := Join(parts[1..], sep);
      assert Join(parts, sep) == head + rest;
      if k == 0 {
        assert (head + rest)[..|parts[0]|] == parts[0];
      } else {
        JoinContainsPart(parts[1..], sep, k - 1);
        JoinOffsetShift(parts, sep, k);
        var o' := JoinOffset(parts[1..], sep, k - 1);
        assert parts[1..][k - 1] == parts[k];
        SliceAfterPrefix(head, rest, o', o' + |parts[k]|);
      }
    }
  }

  /** Every part but the last is followed by the separator. */
  lemma {:induction false} JoinSeparatesParts(parts: seq<string>, sep: string, k: nat)
    requires k + 1 < |parts|
    ensures var e := JoinOffset(parts, sep, k) + |parts[k]|;
            e + |sep| <= |Join(parts, sep)| && Join(parts, sep)[e..e + |sep|] == sep
    decreases k
  {
    var head := parts[0] + sep;
    var rest := Join(parts[1..], sep);
    assert Join(parts, sep) == head + rest;
    if k == 0 {
      assert head + rest == parts[0] + (sep + rest);
      SliceAfterPrefix(parts[0], sep + rest, 0, |sep|);
    } else {
      JoinSeparatesParts(parts[1..], sep, k - 1);
      JoinOffsetShift(parts, sep, k);
      assert parts[1..][k - 1] == parts[k];
      var e' := JoinOffset(parts[1..], sep, k - 1) + |parts[k]|;
      SliceAfterPrefix(head, rest, e', e' + |sep|);
    }
  }

  // ---------------------------------------------------------------------------
  // Substrings

  predicate IsPrefix(p: string, s: string) {
    |p| <= |s| && s[..|p|] == p
  }

  /** Python's `p in s` for strings. */
  predicate Occurs(p: string, s: string)
    decreases |s|
  {
    IsPrefix(p, s) || (|s| > 0 && Occurs(p, s[1..]))
  }

  lemma {:induction false} OccursAt(p: string, s: string, i: nat)
    requires i + |p| <= |s| && s[i..i + |p|] == p
    ensures Occurs(p, s)
    decreases i
  {
    if i > 0 {
      assert s[1..][i - 1..i - 1 + |p|] == s[i..i + |p|];
      OccursAt(p, s[1..], i - 1);
    }
  }
}

=== FILE: token_usage.dfy ===
/** Token-usage accounting for model completions (`TokenUsageTracker` in
    utils/helpers.py): running prompt and completion totals plus one record per
    completion. Timestamps come from the wall clock and are not modelled. */
module TokenUsage {
  import opened Wrappers
  import Json

  datatype UsageRecord = UsageRecord(
    promptTokens: int,
    completionTokens: int,
    totalTokens: int,
    metadata: Json.Dict)

  datatype Tracker = Tracker(
    totalPromptTokens: int,
    totalCompletionTokens: int,
    history: seq<UsageRecord>)

  datatype Summary = Summary(
    totalPromptTokens: int,
    totalCompletionTokens: int,
    totalTokens: int,
    numCompletions: nat,
    averageTokensPerCompletion: real)

  function SumPrompt(h: seq<UsageRecord>): int
    decreases |h|
  {
    if |h| == 0 then 0 else SumPrompt(h[..|h| - 1]) + h[|h| - 1].promptTokens
  }

  function SumCompletion(h: seq<UsageRecord>): int
    decreases |h|
  {
    if |h| == 0 then 0 else SumCompletion(h[..|h| - 1]) + h[|h| - 1].completionTokens
  }

  function SumTotal(h: seq<UsageRecord>): int
    decreases |h|
  {
    if |h| == 0 then 0 else SumTotal(h[..|h| - 1]) + h[|h| - 1].totalTokens
  }

  /** The tracker's running totals agree with its history, and every record's total is
      the sum of its two counts. */
  predicate Consistent(t: Tracker) {
    && t.totalPromptTokens == SumPrompt(t.history)
    && t.totalCompletionTokens == SumCompletion(t.history)
    && forall k :: 0 <= k < |t.history| ==>
         t.history[k].totalTokens == t.history[k].promptTokens + t.history[k].completionTokens
  }

  /** A fresh tracker (`__init__`). */
  function NewTracker(): (t: Tracker)
    ensures t.history == [] && Consistent(t)
    ensures t.totalPromptTokens == 0 && t.totalCompletionTokens == 0
  {
    Tracker(0, 0, [])
  }

  /** `add_usage`: raise both totals by exactly the given counts and append one record
      (`metadata or {}` stores an empty dict when none is given). */
  function AddUsage(t: Tracker, promptTokens: int, completionTokens: int, metadata: Option<Json.Dict>): (t': Tracker)
    ensures t'.totalPromptTokens == t.totalPromptTokens + promptTokens
    ensures t'.totalCompletionTokens == t.totalCompletionTokens + completionTokens
    ensures |t'.history| == |t.history| + 1 && t'.history[..|t.history|] == t.history
    ensures var rec := t'.history[|t.history|];
            && rec.promptTokens == promptTokens && rec.completionTokens == completionTokens
            && rec.totalTokens == promptTokens + completionTokens
            && (metadata.Some? ==> rec.metadata == metadata.value)
            && (metadata.None? ==> rec.metadata == map[])
    ensures Consistent(t) ==> Consistent(t')
  {
    var rec := UsageRecord(promptTokens, completionTokens, promptTokens + completionTokens, metadata.GetOr(map[]));
    var t' := Tracker(t.totalPromptTokens + promptTokens, t.totalCompletionTokens + completionTokens, t.history + [rec]);
    assert t'.history[..|t.history|] == t.history;
    t'
  }

  /** `get_summary`. */
  function GetSummary(t: Tracker): (s: Summary)
    ensures s.totalPromptTokens == t.totalPromptTokens
    ensures s.totalCompletionTokens == t.totalCompletionTokens
    ensures s.totalTokens == s.totalPromptTokens + s.totalCompletionTokens
    ensures s.numCompletions == |t.history|
    ensures s.numCompletions == 0 ==> s.averageTokensPerCompletion == 0.0
    ensures s.numCompletions > 0 ==> s.averageTokensPerCompletion * s.numCompletions as real == s.totalTokens as real
  {
    var total := t.totalPromptTokens + t.totalCompletionTokens;
    var n := |t.history|;
    Summary(t.totalPromptTokens, t.totalCompletionTokens, total, n,
            if n > 0 then total as real / n as real else 0.0)
  }

  /** `reset`. */
  function Reset(t: Tracker): (t': Tracker)
    ensures t' == NewTracker()
    ensures GetSummary(t') == Summary(0, 0, 0, 0, 0.0)
  {
    Tracker(0, 0, [])
  }

  lemma {:induction false} SumTotalSplits(h: seq<UsageRecord>)
    requires forall k :: 0 <= k < |h| ==> h[k].totalTokens == h[k].promptTokens + h[k].completionTokens
    ensures SumTotal(h) == SumPrompt(h) + SumCompletion(h)
    decreases |h|
  {
    if |h| > 0 {
      SumTotalSplits(h[..|h| - 1]);
    }
  }

  /** For a tracker built by `add_usage` calls, the summary's total equals the sum of the
      per-record totals and its count equals the number of calls. */
  lemma {:induction false} SummaryAgreesWithHistory(t: Tracker)
    requires Consistent(t)
    ensures GetSummary(t).totalTokens == SumTotal(t.history)
  {
    SumTotalSplits(t.history);
  }

  /** Folding a list of usages into a fresh tracker. */
  function AddAll(t: Tracker, usages: seq<(int, int)>): Tracker
    decreases |usages|
  {
    if |usages| == 0 then t
    else AddAll(AddUsage(t, usages[0].0, usages[0].1, None), usages[1..])
  }

  lemma {:induction false} AddAllKeepsConsistent(t: Tracker, usages: seq<(int, int)>)
    requires Consistent(t)
    ensures Consistent(AddAll(t, usages))
    ensures |AddAll(t, usages).history| == |t.history| + |usages|
    decreases |usages|
  {
    if |usages| > 0 {
      AddAllKeepsConsistent(AddUsage(t, usages[0].0, usages[0].1, None), usages[1..]);
    }
  }
}

=== FILE: wrappers.dfy ===
/** Failure-carrying values shared by every module of the model: Python's `None`
    becomes `None`, and an exception that escapes a call becomes `Err`. */
module Wrappers {

  datatype Option<+T> = None | Some(value: T) {

    /** The value, or `default` when there is none (Python's `x if x is not None else default`). */
    function GetOr(default: T): T {
      match this
      case Some(v) => v
      case None => default
    }
  }

  datatype Result<+T, +E> = Ok(value: T) | Err(error: E)
}
